=== FILE: README.md ===
# Prediction-market arbitrage: decision logic in Dafny

This project models the quantitative decision logic of a bot that arbitrages
binary prediction markets (Polymarket, Kalshi, Manifold and others) across
platforms, and proves properties of it. A buyer of YES on one platform and NO on
another is paid 1 for the pair whatever the outcome, so the bot looks for pairs
whose two prices plus fees cost less than 1. The model covers:

- **Fees** (`fees.dfy`, module `Fees`): the per-platform fee schedule, the fee of
  one leg, the two strategies of a market pair with their cost, profit and ROI,
  the confidence blend, and the batch scan over all pairs of a market list.
- **Matching** (`matching.dfy`, module `Matching`): whether two markets on
  different platforms ask the same question. It scores question similarity,
  resolution-source compatibility from a static table, expiry alignment and
  timezone agreement, then computes the weighted overall score, the confidence,
  the recommendation and the sorted list of cross-platform matches.
- **Slippage** (`slippage.dfy`, module `Slippage`):
  - walking an order book to a volume-weighted average price and its slippage;
  - the size that stays inside a price band;
  - equal-slice and liquidity-proportional split plans;
  - order-size clamping, limit prices;
  - the adaptive sizer that tries seven test sizes.
- **Positions** (`positions.dfy`, module `Positions`): dynamic position sizing.
  It applies five multiplicative adjustments for gap, liquidity, volatility,
  exposure and slippage, then a clamp. It also covers exponential-decay splits,
  the split strategy, and the confidence and risk scores.
- **Risk control** (`risk.dfy`, module `RiskControl`): the five-check pre-trade
  gate, the weighted risk score, risk level and recommendations, and the
  monitor's mark-to-market profit and loss.
- **Legacy engine** (`legacy.dfy`, module `Legacy`): the first engine's pairing,
  arbitrage detection, risk factors and confidence. Also the `RiskManager`
  position approval and its exposure ledger.
- **Hedge** (`hedge.dfy`, module `Hedge`): opposite-side hedge orders, hedge
  cost and locked profit, PnL, the threshold-triggered automatic hedge, and the
  keyed position store.
- **Compliance** (`compliance.dfy`, module `Compliance`): the static platform
  policy table, the geographic, VPN, KYC and age checks, the verdict with its
  risk level, and the compliance report.
- **Alerts** (`alerts.dfy`, module `Alerts`): the edge-case alert rules for
  slippage, partial fills, oracle updates and price divergence, and the alert
  manager's target selection and statistics.
- `common.dfy` (module `Common`) holds shared vocabulary: `Option`, `Platform`,
  minimum, maximum and clamp, percentages, sums, powers, the Jaccard index,
  Python's `lower().split()` tokenizer (the full `str.split()` white-space set;
  lower-casing for ASCII, Latin-1 and basic Cyrillic capitals), enumeration of
  index pairs, and a descending sort.

Decimal and float arithmetic is modelled with exact `real`s. Every operation is
a pure function. State held by the source (the exposure ledger, the position
store, the alert manager, the compliance history) is a value, and the
operations that change it (`Legacy.UpdateExposure`, `Hedge.Put`,
`Alerts.SendAlert`, `Compliance.CheckAndRecord`) return it updated. Clocks,
network look-ups, randomness and text similarity libraries become parameters.

## Model

| member | source | states |
|---|---|---|
| Fees.PlatformFee | fee_aware_calculator.py:101-157 | The trading fee is size·price·percent/100, and for Kalshi the whole leg's trading fee is capped at 1.00. The gas fee is 0 on platforms without a gas average and never exceeds the gas cap. The fixed fee is half the withdrawal fee. The total is the sum of the three parts and is non-negative for non-negative inputs. The percentage is taken of size·price, and is 0 when nothing is invested. |
| Fees.FeeConfidence | fee_aware_calculator.py:317-348 | The confidence blend always lies in [0, 1]. |
| Fees.FeeConfidenceLiquidityTiers | fee_aware_calculator.py:338-348 | A thinner leg below 10000 caps the confidence at 0.7; below 50000 it caps it at 0.85. |
| Fees.FeeConfidenceMonotoneInLiquidity | fee_aware_calculator.py:338-348 | More liquidity on a leg never lowers the confidence. |
| Fees.ValidIffProfitable | fee_aware_calculator.py:262-279 | For a positive size, the validity test p_a + p_b + fees/size < 1 holds exactly when the net profit is positive. |
| Fees.StrategyFigures | fee_aware_calculator.py:243-311 | Total cost is raw cost·size plus both legs' fees, and net profit is the payout minus total cost. Gross minus net profit equals the fees. Validity agrees with positive net profit. ROI is net profit as a percentage of total cost. Meeting the minimum ROI is the comparison with the configured bound. The confidence is the fee confidence of both liquidities, both fee percentages and the ROI, and lies in [0, 1]. |
| Fees.EvaluateStrategy | fee_aware_calculator.py:225-315 | No strategy is evaluated exactly when a leg price or the size is zero. Otherwise the result carries both legs' platform fees and satisfies the same cost, profit, validity and ROI relations. Its confidence is the fee confidence of both liquidities, the two legs' fee percentages and the ROI. |
| Fees.CalculateOpportunity | fee_aware_calculator.py:177-223 | The result is one of the two evaluated strategies and is always valid. It exists exactly when one of them is valid. It has the strictly higher ROI, so ties go to buying YES on the first market. |
| Fees.SimilarMarketsHaveWords | fee_aware_calculator.py:394-412 | Two markets judged similar both have non-empty question word sets. |
| Fees.PairOpportunity | fee_aware_calculator.py:373-387 | A pair yields an opportunity only across different platforms with similar questions, and only when that opportunity is valid and meets the minimum ROI. |
| Fees.PickedIsReportable | fee_aware_calculator.py:368-387 | Everything the pair scan collects is the opportunity of some pair i < j of the list. It is valid, meets the minimum ROI, and joins similar markets on different platforms. |
| Fees.PairIsPicked | fee_aware_calculator.py:368-387 | Every qualifying pair i < j is collected by the pair scan. |
| Fees.FindOpportunitiesBatch | fee_aware_calculator.py:350-392 | The batch result is sorted by ROI, highest first. Each opportunity occurs exactly as many times as there are pairs i < j that produce it, so the result is a permutation of the scan's picks. Each element is reportable, similarity included, and it contains the opportunity of every qualifying pair. |
| Fees.PairCount | fee_aware_calculator.py:368-387 | The scan collects an opportunity once for every pair i < j that produces it. |
| Common.Jaccard | prediction-arbitrage-bot.py:448-460 | The word-set Jaccard index lies in [0, 1] and is 0 when either set is empty. |
| Common.JaccardSymmetric | prediction-arbitrage-bot.py:457-460 | The Jaccard index does not depend on argument order. |
| Common.JaccardOne | prediction-arbitrage-bot.py:457-460 | The index is 1 exactly for two equal non-empty sets. |
| Common.Split | prediction-arbitrage-bot.py:451-452 | Splitting at Python's white space (the `str.isspace` characters, NO-BREAK SPACE and IDEOGRAPHIC SPACE included) yields non-empty tokens without white space. Their concatenation is the input with its white space removed. |
| Common.LowerChar | prediction-arbitrage-bot.py:451-452 | ASCII, Latin-1 and basic Cyrillic capitals map to their lower-case letters, 32 or 80 code points above. Every other character is unchanged. The result is never such a capital, and lower-casing neither creates nor removes white space. |
| Common.SortDesc | fee_aware_calculator.py:389-390 | The descending sort is a permutation of its input and is ordered by the key, highest first. |
| Common.CollectSomeCount | fee_aware_calculator.py:368-387 | Over distinct pairs, the scan collects a value once for every pair whose pick it is. |
| Common.PairsCount | fee_aware_calculator.py:368-387 | Over the pairs i < j < n, the scan collects a value once for every pair whose pick it is. |
| Matching.ResolutionSource | prediction_arbitrage/enhanced_matching_engine.py:21-75 | Every listed resolution source has reliability in [0.75, 0.99] and a delay of at most 2 hours. |
| Matching.UnknownWarnings | prediction_arbitrage/enhanced_matching_engine.py:246-252 | There is one unknown-source warning for each side whose source is not in the table, and no other warning. |
| Matching.PlatformScore | prediction_arbitrage/enhanced_matching_engine.py:277-290 | The platform component is 0.5, 0.7 or 0.9. A warning is issued exactly when it is 0.7. |
| Matching.SourceCompatibility | prediction_arbitrage/enhanced_matching_engine.py:226-299 | Compatibility lies in [0, 1]. Identical sources score 1.0 and keep only the unknown-source warnings. Different sources score 0.4·(1 − the reliability difference) + 0.3·delay + 0.3·platform score. The delay score is 0.5 with a warning when the delay gap exceeds 6 hours, otherwise 1 − gap/12. An unknown source counts as reliability 0.5 and a 24-hour delay. |
| Matching.SourceCompatibilitySymmetric | prediction_arbitrage/enhanced_matching_engine.py:226-299 | The compatibility score does not depend on which market is first. |
| Matching.SameDateIsWithinADay | prediction_arbitrage/enhanced_matching_engine.py:349-355 | Two instants on the same UTC date are less than a day apart. |
| Matching.ExpiryTier | prediction_arbitrage/enhanced_matching_engine.py:334-346 | Expiry tiers are: equal instants 1.0; under an hour 0.95; under a day 0.85 with a warning; under a week 0.60 with a warning; otherwise 0.30 with a warning. |
| Matching.ExpiryAlignment | prediction_arbitrage/enhanced_matching_engine.py:308-357 | Alignment lies in [0.3, 1.0], and equal expiries give 1.0 without warnings. On different calendar dates the score is the tier of the time between the expiries, with a date-mismatch warning. On the same date it is that tier plus 0.1, capped at 1.0, so at least 0.95. The score reaches 0.6 exactly when the expiries are less than a week apart. |
| Matching.TimezoneMatch | prediction_arbitrage/enhanced_matching_engine.py:388-441 | A missing zone gives 0.7 with a warning, and equal zone names give 1.0. Different zones that cannot be looked up give 0.5 with a warning. Otherwise the score follows the offset difference: 0 gives 1.0, up to 1 hour 0.9, up to 3 hours 0.8 with a warning, and more 0.6 with a warning. |
| Matching.TimezoneMatchSymmetric | prediction_arbitrage/enhanced_matching_engine.py:388-441 | Timezone matching does not depend on which market is first. |
| Matching.Keywords | prediction_arbitrage/enhanced_matching_engine.py:205-210 | The keywords are exactly the content words (tokens that are not stop words) of at least four characters. |
| Matching.KeywordMatchIsJaccard | prediction_arbitrage/enhanced_matching_engine.py:148-153 | Keyword overlap over max(union, 1) equals the Jaccard index of the keyword sets. |
| Matching.NumberMatch | prediction_arbitrage/enhanced_matching_engine.py:156-159 | Number sets score 1.0 exactly when equal, including both empty. They score 0 exactly when different and disjoint, and 0.5 otherwise. |
| Matching.QuestionSimilarity | prediction_arbitrage/enhanced_matching_engine.py:113-186 | With a sequence ratio in [0, 1], the 0.25/0.35/0.25/0.15 weighted similarity lies in [0, 1]. |
| Matching.QuestionSimilaritySelf | prediction_arbitrage/enhanced_matching_engine.py:133-174 | A question with keywords compared with itself at ratio 1 scores exactly 1. |
| Matching.QuestionSimilaritySymmetric | prediction_arbitrage/enhanced_matching_engine.py:133-174 | For the same sequence ratio, question similarity does not depend on which question is first. |
| Matching.OverallScore | prediction_arbitrage/enhanced_matching_engine.py:543-555 | The 0.35/0.30/0.25/0.10 overall score lies in [0, 1] when its parts do, and is 1 when all parts are 1. |
| Matching.OverallScoreMonotone | prediction_arbitrage/enhanced_matching_engine.py:543-555 | Raising any sub-score never lowers the overall score. |
| Matching.MatchConfidence | prediction_arbitrage/enhanced_matching_engine.py:593-609 | Confidence lies in [0, 1]. It never exceeds the overall score while the penalty factors stay non-negative, and equals it when there are no risks or warnings. |
| Matching.RiskFactors | prediction_arbitrage/enhanced_matching_engine.py:500-531 | Each of the three risk factors is present exactly when its sub-score falls below the configured minimum. |
| Matching.MatchMarkets | prediction_arbitrage/enhanced_matching_engine.py:468-591 | A match is acceptable exactly when the overall score reaches the minimum (0.70 by default). It is recommended exactly when acceptable with confidence above 0.7 and at most two risk factors. Risk factors mirror the thresholds. The overall score is the 0.35/0.30/0.25/0.10 blend of the four sub-scores. The confidence is that score less 10% per risk factor and 5% per warning, clamped to [0, 1]. |
| Matching.MatchMarketsScores | prediction_arbitrage/enhanced_matching_engine.py:468-591 | A match carries the four sub-scores of its markets and the concatenated source, expiry and timezone warnings, at most five. Its overall score lies in [0, 1] and its confidence never exceeds it. |
| Matching.PairMatch | prediction_arbitrage/enhanced_matching_engine.py:629-640 | A pair yields a match only across different platforms, and only if acceptable (or recommended, when only recommended matches are wanted). Every such pair yields one. |
| Matching.MatchPickSound | prediction_arbitrage/enhanced_matching_engine.py:629-640 | Every collected match is the match of some pair i < j of the list. It is a cross-platform match that passes the filter. |
| Matching.MatchPickComplete | prediction_arbitrage/enhanced_matching_engine.py:629-640 | Every qualifying pair i < j is collected. |
| Matching.FindMatches | prediction_arbitrage/enhanced_matching_engine.py:611-650 | The result is sorted by overall score, highest first. Each match occurs exactly as many times as there are pairs i < j that produce it, so the result is a permutation of the scan's picks. No element pairs two markets of one platform, and every qualifying pair's match is in it. |
| Matching.MatchCount | prediction_arbitrage/enhanced_matching_engine.py:627-645 | The scan collects a match once for every pair i < j that produces it. |
| Slippage.Depth | prediction_arbitrage/slippage_management.py:161-170 | The depth of a book side with non-negative sizes is non-negative. |
| Slippage.DepthPrefix | prediction_arbitrage/slippage_management.py:161-170 | The leading levels of a side hold no more than the whole side. |
| Slippage.Walk | prediction_arbitrage/slippage_management.py:85-97 | The walk never fills more than wanted. With non-negative sizes it fills the smaller of the wanted size and the side's depth. |
| Slippage.Filled | prediction_arbitrage/slippage_management.py:85-97 | A fresh walk fills at most the order size, and exactly min(order size, depth). |
| Slippage.WalkCostAtLeast | prediction_arbitrage/slippage_management.py:85-97 | When every level is priced at least p, the cost is at least p per filled unit. |
| Slippage.WalkCostAtMost | prediction_arbitrage/slippage_management.py:85-97 | When every level is priced at most p, the cost is at most p per filled unit. |
| Slippage.BandPrefix | prediction_arbitrage/slippage_management.py:161-170 | The band is the longest leading run of levels within the allowed deviation of the best price; the first level outside it stops the walk. |
| Slippage.RecommendedSize | prediction_arbitrage/slippage_management.py:152-170 | An empty side recommends 0. Otherwise the size is the depth of the in-band prefix, between 0 and the side's depth. |
| Slippage.SplitPlan | prediction_arbitrage/slippage_management.py:172-200 | Slippage below the maximum gives one market order for the full size. Otherwise the plan has ceil(slippage/max) equal slices. The first slice is a market order, later slices are limits 1000 ms apart with offsets i·0.001, and the slices sum to the total. |
| Slippage.SumConstant | prediction_arbitrage/slippage_management.py:181-200 | n equal slices of c sum to n·c. |
| Slippage.Estimate | prediction_arbitrage/slippage_management.py:110-139 | The average price is cost over filled size. Slippage is average minus best for a buy and best minus average for a sell, with its percentage of the best price. Effective profit is max(0, 2 − slippage%). The recommended size and split plan come from the book. |
| Slippage.MarketImpact | prediction_arbitrage/slippage_management.py:54-139 | An empty side or a zero fill gives the all-zero estimate with no split orders. A zero best price, where the source divides by zero, gives none. Otherwise the average price is cost over filled size and slippage is signed by side. Its percentage, effective profit, recommended size and split plan follow as in the estimate. |
| Slippage.AverageBounds | prediction_arbitrage/slippage_management.py:110-115 | Cost bounds per unit carry over to the average price. |
| Slippage.MarketImpactNonNegative | prediction_arbitrage/slippage_management.py:54-139 | On a side ordered from the best price outwards with positive prices and sizes, slippage and its percentage are never negative. |
| Slippage.SideDepth | prediction_arbitrage/slippage_management.py:436-467 | At most the top ten levels of a side are analysed. Each keeps its depth index and its own price, and has a non-negative offset when the best price is positive. |
| Slippage.AnalysedLevels | prediction_arbitrage/slippage_management.py:436-467 | The analysis holds the top ten levels of each side, with non-negative offsets when both best prices are positive. |
| Slippage.LiquidityDepth | prediction_arbitrage/slippage_management.py:436-467 | The analysis fails exactly when a side's best price is zero. Otherwise it is a permutation of the analysed levels, nearest to the best price first. |
| Slippage.Place | prediction_arbitrage/slippage_management.py:403-428 | One level's slice keeps the order staggered with the first slice a market order. Slice plus remainder is conserved, the remainder never grows, and a kept slice is at least the minimum order and draws at most 30% of the level and at most the remainder. |
| Slippage.SplitAcross | prediction_arbitrage/slippage_management.py:403-428 | Across all levels, the plan only grows and the slices plus the remainder stay equal to the total. Every added slice is drawn from its level. |
| Slippage.PlanSplits | prediction_arbitrage/slippage_management.py:386-434 | Slices are at least the minimum order and 500 ms apart, and the first is a market order. They sum to the total less a dropped leftover of at most the minimum order. |
| Slippage.OptimizeOrderSplits | prediction_arbitrage/slippage_management.py:386-434 | Splitting fails exactly when the book has no analysable level (the source's undefined fallback) or a zero best price. Otherwise it gives the liquidity-proportional plan with the properties above. |
| Slippage.AvailableLiquidity | prediction_arbitrage/slippage_management.py:496-505 | The liquidity of the top five levels of each side is non-negative and never exceeds the depth of the whole book. |
| Slippage.AdjustOrderSize | prediction_arbitrage/slippage_management.py:469-494 | The natural size is the planned slice cut to what is still wanted and to half the available liquidity. The result is max(min, min(natural, max)): the natural size when it lies in [min, max], the minimum when it is below the minimum or when min > max, and the maximum when it is above a maximum no smaller than the minimum. |
| Slippage.AdjustOrderSizeMonotone | prediction_arbitrage/slippage_management.py:469-494 | A larger planned slice never gives a smaller adjusted order. |
| Slippage.LimitPrice | prediction_arbitrage/slippage_management.py:507-522 | There is no price without a best level. A buy is priced at best ask·(1 − offset), never above the ask; a sell at best bid·(1 + offset), never below the bid. |
| Slippage.TestSizes | prediction_arbitrage/slippage_management.py:558-560 | The seven test sizes are the base size times the fixed multipliers. |
| Slippage.TrialAt | prediction_arbitrage/slippage_management.py:572-590 | A trial's net profit is the gross profit percentage minus both legs' slippage, and its absolute profit is size·net/100. |
| Slippage.SizerConfidence | prediction_arbitrage/slippage_management.py:606-627 | The confidence is the blend 0.5·min(net/5, 1) + 0.3·max(0, 1 − slippage/2) + 0.2·(1.0 when size/base lies in [0.5, 1.5], else 0.7), clamped to [0, 1]. For non-negative net profit and slippage no clamping happens. |
| Slippage.SizerConfidenceMonotone | prediction_arbitrage/slippage_management.py:606-627 | At the same size, more net profit or less slippage never lowers the confidence. |
| Slippage.PositionOf | prediction_arbitrage/slippage_management.py:592-602 | The reported position copies the trial's size, absolute profit, both slippages and net profit, with the sizer confidence of that trial. |
| Slippage.BoundedCons | prediction_arbitrage/slippage_management.py:572-604 | A profit bound holds over the trial sizes exactly when it holds for the first and over the rest. |
| Slippage.PickedShift | prediction_arbitrage/slippage_management.py:592 | A first-best pick among the later sizes stays the first-best pick of the whole list when the first size earns less. |
| Slippage.PickedStep | prediction_arbitrage/slippage_management.py:572-604 | A position the rest of the scan picks after weighing the first trial against the best so far, when it differs from that best, is a first-best pick of the whole list. |
| Slippage.SizerScan | prediction_arbitrage/slippage_management.py:572-604 | The scan keeps an admissible best. It succeeds whenever every trial can be computed. No clearing trial earns more than the result, and when none earns more than the initial best, the result is that best. Otherwise the result earns strictly more than the initial best and is the position of some clearing trial k — its size, profit, both slippages, net profit and sizer confidence — while every clearing trial before k earns strictly less (the first of the best, by the strict comparison). |
| Slippage.OptimalPositionSize | prediction_arbitrage/slippage_management.py:540-604 | The chosen size is 0 or one of the seven test sizes. A nonzero choice clears the minimum net profit after slippage, with positive expected profit and confidence in [0, 1]. It is the position of the first trial size with the largest expected profit: no clearing trial earns more, and every earlier clearing trial earns strictly less. When no clearing trial earns more than 0, there is no position. |
| Positions.GapAdjustment | prediction_arbitrage/dynamic_position_management.py:154-173 | The multiplier is 0 exactly below the minimum gap, and otherwise lies in [0.5, 2.0]. Between the minimum and optimal gap it ramps linearly: with r = (gap − min)/(optimal − min), the multiplier is 0.5 + 0.5·r and the score r. At or above the optimal gap it is min(2, 1 + 0.2·(gap − optimal)) with score 1. |
| Positions.GapAdjustmentMonotone | prediction_arbitrage/dynamic_position_management.py:154-173 | A wider gap never lowers the multiplier. |
| Positions.LiquidityAdjustment | prediction_arbitrage/dynamic_position_management.py:175-203 | Four tiers, checked in order: a score above 0.8 with visible depth above 100000 gives multiplier 1.5 and score 1.0; else a score above 0.5 with depth above 50000 gives 1.0 and 0.7; else a score above 0.3 with depth above 10000 gives 0.7 and 0.5; otherwise 0.3 and 0.2. |
| Positions.LiquidityAdjustmentMonotone | prediction_arbitrage/dynamic_position_management.py:175-203 | A deeper visible book with a higher liquidity score never gets a smaller multiplier. |
| Positions.VolatilityAdjustment | prediction_arbitrage/dynamic_position_management.py:205-222 | Volatility below 0.1 gives multiplier 1.2 and score 0.9; from 0.1 below 0.3 gives 1.0 and 0.7; from 0.3 below 0.5 gives 0.7 and 0.5; from 0.5 up gives 0.4 and 0.2. |
| Positions.VolatilityAdjustmentAntitone | prediction_arbitrage/dynamic_position_management.py:205-222 | Higher volatility never raises the multiplier. |
| Positions.ExposureAdjustment | prediction_arbitrage/dynamic_position_management.py:224-246 | With ratio = exposure in use / maximum exposure: below 0.3 the multiplier is 1.2 with score 1.0; from 0.3 below 0.6 it is 1.0 with 0.8; from 0.6 below 0.8 it is 0.6 with 0.5; from 0.8 up it is 0.2 with 0.2. |
| Positions.ExposureAdjustmentAntitone | prediction_arbitrage/dynamic_position_management.py:224-246 | Against a positive budget, more exposure in use never gets a larger multiplier. |
| Positions.EstimateSlippage | prediction_arbitrage/dynamic_position_management.py:248-284 | An empty book, no levels or no fill estimates 5.0. Otherwise it is the non-negative absolute percentage gap between the average fill price and the first price, over asks then bids. |
| Positions.AbsPercent | prediction_arbitrage/dynamic_position_management.py:281-284 | The estimate is the absolute difference as a percentage of the absolute base, hence non-negative. |
| Positions.GeometricSum | prediction_arbitrage/dynamic_position_management.py:340-364 | The n decaying slices sum to first·(1 − 0.7ⁿ)/(1 − 0.7). |
| Positions.FirstSlice | prediction_arbitrage/dynamic_position_management.py:347-352 | The first slice is the one whose geometric series sums to the total, and it is non-negative for a non-negative total. |
| Positions.ExponentialSplits | prediction_arbitrage/dynamic_position_management.py:340-364 | There are n slices, each 0.7 times the one before, and they sum exactly to the total. |
| Positions.ExponentialSplitsNonIncreasing | prediction_arbitrage/dynamic_position_management.py:340-364 | For a non-negative total, no slice is larger than an earlier one and none is negative. |
| Positions.SplitCount | prediction_arbitrage/dynamic_position_management.py:316-319 | With t = trunc(slippage/max) + 1: the count is the maximum number of splits when t reaches it or the maximum is at most 2; it is 2 when t ≤ 2 < maximum; and it is t when 2 ≤ t < maximum. It always lies between 1 and the maximum. |
| Positions.SplitStrategyFor | prediction_arbitrage/dynamic_position_management.py:286-338 | Splitting happens exactly when it is enabled and slippage or volatility is high; otherwise there is one market order of the total. A split plan has the split count of orders whose sizes are exactly the exponential split of the total. The orders are staggered by the configured delay, the first is a market order, offsets are i·0.001, and the slices sum to the total. |
| Positions.PositionConfidence | prediction_arbitrage/dynamic_position_management.py:366-397 | The confidence is the 0.3/0.25/0.2/0.15/0.1 blend of the gap, liquidity, volatility, exposure and slippage scores, clamped to [0, 1]. For scores in [0, 1] and non-negative slippage no clamping happens. |
| Positions.SlippageScore | prediction_arbitrage/dynamic_position_management.py:386 | The slippage score is max(0, 1 − s/5): 1 at no slippage, 0 exactly from 5% up, and linear in between. |
| Positions.PositionConfidenceAntitone | prediction_arbitrage/dynamic_position_management.py:366-397 | More expected slippage never raises the confidence. |
| Positions.RiskScore | prediction_arbitrage/dynamic_position_management.py:399-424 | The risk score is 0.3·size/max size + 0.3·volatility + 0.2·exposure/max exposure + 0.2·(1 − liquidity score), capped at 1. It never exceeds 1, and is non-negative for non-negative inputs. |
| Positions.RiskScoreMonotone | prediction_arbitrage/dynamic_position_management.py:399-424 | With positive size and exposure limits, a larger size, higher volatility, more exposure or a lower liquidity score never lowers the risk score. |
| Positions.SlippageReduced | prediction_arbitrage/dynamic_position_management.py:115-121 | Slippage within the maximum leaves the size unchanged; larger slippage shrinks it without making it negative. |
| Positions.DynamicPositionSize | prediction_arbitrage/dynamic_position_management.py:64-152 | Sizing fails only where the slippage estimate divides by a zero price. The recommended size is the product of the base size and the gap, liquidity, volatility and exposure multipliers, reduced when the estimated slippage of that size exceeds the maximum, then clamped to [min, max]. It is exactly the minimum when the gap is below the minimum gap. The split is the split strategy for that size. The confidence is the position confidence of the four adjustment scores and the slippage. The risk score is the one computed for the recommended size. A fifth adjustment note appears exactly when the size was reduced for slippage, and the split orders sum to the recommended size. |
| RiskControl.DailyLossCheckAsWritten | prediction_arbitrage/dynamic_position_management.py:507-522 | As written, the check passes exactly when the absolute daily result is under the limit. |
| RiskControl.DailyLossCheckBlocksProfit | prediction_arbitrage/dynamic_position_management.py:510 | A daily profit of 6000 fails the check as written but passes the corrected one. |
| RiskControl.DailyLossCheck | prediction_arbitrage/dynamic_position_management.py:507-522 | The corrected check fails exactly when the day's loss reaches the limit. It agrees with the source on losing days and never blocks a profitable one. |
| RiskControl.PairCorrelation | prediction_arbitrage/dynamic_position_management.py:632-656 | With c₀ = (0.6 on the same platform, else 0.2) + (0.2 for the same category): the correlation is c₀ for the same side and −0.5·c₀ for opposite sides, so the clamp to [−1, 1] never bites. It is at least 0.2 for the same side and negative for opposite sides. |
| RiskControl.PairCorrelationSymmetric | prediction_arbitrage/dynamic_position_management.py:632-656 | Correlation does not depend on the order of the two positions. |
| RiskControl.CorrelationCheck | prediction_arbitrage/dynamic_position_management.py:524-545 | The check passes exactly when no existing position correlates above the maximum; a failure names a correlation that does. |
| RiskControl.DefaultCorrelationRefusesTwins | prediction_arbitrage/dynamic_position_management.py:632-656 | Under the default 0.7 limit, the correlation check fails exactly when some open position has the same platform, category and side as the new one. |
| RiskControl.VarCheck | prediction_arbitrage/dynamic_position_management.py:547-573 | The check passes exactly when portfolio VaR is at most 5000. |
| RiskControl.SinglePlatformExposure | prediction_arbitrage/dynamic_position_management.py:585-600 | When every position is on one platform, that platform holds the whole exposure. |
| RiskControl.FirstConcentrated | prediction_arbitrage/dynamic_position_management.py:585-600 | It finds a position whose platform holds over 40% of the total exactly when one exists. |
| RiskControl.ConcentrationCheck | prediction_arbitrage/dynamic_position_management.py:575-606 | The check fails exactly when some platform holds more than 40% of the exposure including the new position. |
| RiskControl.SinglePlatformFailsConcentration | prediction_arbitrage/dynamic_position_management.py:575-606 | A positive portfolio on a single platform always fails the concentration check. |
| RiskControl.MarketCheck | prediction_arbitrage/dynamic_position_management.py:608-630 | The market passes exactly when volatility is at most 0.8 and the liquidity score at least 0.2, with missing readings defaulting to 0 and 1. |
| RiskControl.WeightsSumToOne | prediction_arbitrage/dynamic_position_management.py:712-718 | The five check weights sum to 1. |
| RiskControl.LevelOf | prediction_arbitrage/dynamic_position_management.py:732-741 | The level is LOW exactly below 0.2, MEDIUM exactly in [0.2, 0.5), HIGH exactly in [0.5, 0.8) and CRITICAL exactly from 0.8. |
| RiskControl.Score | prediction_arbitrage/dynamic_position_management.py:706-718 | A check scores 0 exactly when it passed. |
| RiskControl.TotalRiskScore | prediction_arbitrage/dynamic_position_management.py:689-730 | The weighted score lies in [0, 1]. It is 0 exactly when every check passed and 1 when every check failed. |
| RiskControl.TotalRiskScoreMonotone | prediction_arbitrage/dynamic_position_management.py:710-730 | When every check failing in one verdict also fails in another, the first score is no larger. |
| RiskControl.LoneFailureScore | prediction_arbitrage/dynamic_position_management.py:710-741 | When exactly one check fails, the score is its weight: 0.3 daily loss, 0.2 correlation, 0.25 value at risk, 0.15 concentration, 0.1 market conditions. The first three alone give MEDIUM, the last two alone LOW. |
| RiskControl.Recommendations | prediction_arbitrage/dynamic_position_management.py:743-763 | There are no recommendations exactly when every check passed. Each recommendation is the one for some failed check's metric, and every failed check's recommendation appears. |
| RiskControl.FailedReasons | prediction_arbitrage/dynamic_position_management.py:493-495 | There are no failure reasons exactly when every check passed. The reasons are exactly the failures of the failed checks. |
| RiskControl.FailureCountsAgree | prediction_arbitrage/dynamic_position_management.py:743-763 | There is exactly one recommendation per failed check. |
| RiskControl.EvaluateEntry | prediction_arbitrage/dynamic_position_management.py:448-505 | Entry is allowed exactly when all five checks pass, which is exactly when the risk score is 0. A rejection lists the failure reasons of the failed checks, in check order. The score is the weighted sum of failed checks and the level is derived from it. There is one recommendation per failed check. |
| RiskControl.ChecksAgreeOnLosingDays | prediction_arbitrage/dynamic_position_management.py:464 | On a day without profit, the gate's daily-loss check is the one the source writes. |
| RiskControl.AllFailedIsCritical | prediction_arbitrage/dynamic_position_management.py:689-741 | When every check fails the score is 1 and the level is CRITICAL. |
| RiskControl.RealTimePnl | prediction_arbitrage/dynamic_position_management.py:808-824 | A buy earns (current − entry)·size, with a missing current price counted as 0. |
| RiskControl.RealTimePnlMirror | prediction_arbitrage/dynamic_position_management.py:808-824 | Any side other than buy earns exactly the negation of the buy's PnL. |
| Legacy.Similarity | prediction-arbitrage-bot.py:448-460 | Similarity lies in [0, 1] and is 0 when either question has no words. |
| Legacy.SimilaritySymmetric | prediction-arbitrage-bot.py:448-460 | Similarity does not depend on argument order. |
| Legacy.SimilarityOne | prediction-arbitrage-bot.py:448-460 | Similarity is 1 exactly for two questions with the same non-empty word set. |
| Legacy.PickedIsSimilar | prediction-arbitrage-bot.py:434-446 | Every collected pair is two markets i < j on different platforms whose similarity reaches the threshold. |
| Legacy.SimilarIsPicked | prediction-arbitrage-bot.py:434-446 | Every such pair is collected. |
| Legacy.FindSimilarMarkets | prediction-arbitrage-bot.py:426-446 | The result holds exactly the cross-platform pairs i < j whose similarity reaches the threshold. Each pair of markets occurs exactly as many times as there are index pairs i < j that give it, so every accepted index pair contributes one entry. |
| Legacy.SimilarCount | prediction-arbitrage-bot.py:426-446 | The scan collects a pair of markets once for every index pair i < j it accepts with them. |
| Legacy.EndDateGapDaysAsWritten | prediction-arbitrage-bot.py:531 | The as-written day count is non-negative. |
| Legacy.EndDateGapAsWrittenIsAsymmetric | prediction-arbitrage-bot.py:531 | A 25-hour gap counts as 2 days in one order and 1 day in the other. |
| Legacy.EndDateGapDays | prediction-arbitrage-bot.py:531-532 | The corrected count is the number of whole days in the absolute gap. |
| Legacy.EndDateGapDaysSymmetric | prediction-arbitrage-bot.py:531-532 | The corrected count does not depend on the order of the dates. |
| Legacy.EndDateGapAgreesForward | prediction-arbitrage-bot.py:531 | When the first date is the later one, the corrected and as-written counts agree. |
| Legacy.Factors | prediction-arbitrage-bot.py:514-543 | There is at most one factor per kind, each present exactly when its condition holds, in source order. |
| Legacy.AssessRiskFactors | prediction-arbitrage-bot.py:514-543 | A factor is listed exactly when its condition holds: different resolution sources, liquidity below 10000 on a leg, an end-date gap of more than one whole day (two or more days), or similarity below 0.95. The list is in source order with at most four entries. |
| Legacy.AssessRiskFactorsSymmetric | prediction-arbitrage-bot.py:514-543 | The factors do not depend on which market is first. |
| Legacy.AssessRiskFactorsAgreesForward | prediction-arbitrage-bot.py:514-543 | When the first market closes no earlier than the second, the factor list equals the one computed with the source's own end-date gap. |
| Legacy.Saturation | prediction-arbitrage-bot.py:558-571 | The min(x1/full, x2/full, 1) factor is at most 1, non-negative for non-negative inputs, and 1 exactly when both reach full. |
| Legacy.ConfidenceScore | prediction-arbitrage-bot.py:545-573 | The confidence score always lies in [0, 1]. |
| Legacy.ConfidenceScoreFull | prediction-arbitrage-bot.py:545-573 | Without risk factors and with full liquidity and volume on both legs, confidence is 1. |
| Legacy.ConfidenceScoreEmptyLeg | prediction-arbitrage-bot.py:545-573 | A leg without liquidity or volume gives confidence 0. |
| Legacy.ConfidenceScoreAntitone | prediction-arbitrage-bot.py:545-573 | More risk factors never raise the confidence. |
| Legacy.ProfitPercent | prediction-arbitrage-bot.py:490-491 | Profit percent is (1 − cost)/cost·100, and is positive exactly when the cost is below 1. |
| Legacy.PricedAt | prediction-arbitrage-bot.py:493-510 | An opportunity is reported exactly when profit reaches the minimum. It carries capital cost·1000, expected profit profit·10, the assessed factors, and the confidence score of both markets and those factors, which lies in [0, 1]. |
| Legacy.Priced | prediction-arbitrage-bot.py:490-510 | A strategy is reported exactly when its cost is positive and its profit reaches the minimum. |
| Legacy.CalculateArbitrageOpportunity | prediction-arbitrage-bot.py:462-512 | YES on the first market is chosen whenever yes₁ + no₂ < 1, and NO on the first only otherwise. Nothing is reported when neither sum is below 1. A reported opportunity has cost below 1 and positive profit. Its confidence is the confidence score of the two markets and its risk factors. |
| Legacy.CanTakePosition | prediction-arbitrage-bot.py:732-757 | A position is approved exactly when the total, size, single-market, confidence and risk-factor limits all hold. The first violated limit in that order is the one reported: each refusal implies that every earlier limit held. |
| Legacy.UpdateExposure | prediction-arbitrage-bot.py:759-776 | Adding raises the market and the total by the amount. Removing lowers both, floored at zero. Other markets and unknown operations change nothing. |
| Legacy.UpdateKeepsNonNegative | prediction-arbitrage-bot.py:759-776 | Updates with non-negative amounts keep every exposure non-negative. |
| Legacy.AddThenRemove | prediction-arbitrage-bot.py:759-776 | On a non-negative ledger, adding and then removing the same amount restores every market's exposure and the total. |
| Legacy.ApprovedAddStaysWithinLimits | prediction-arbitrage-bot.py:732-776 | Recording an approved position keeps the total and that market within their limits. |
| Hedge.MarkPrice | delta_hedge_api.py:118-126 | The current price is used when quoted and nonzero; otherwise the entry price. |
| Hedge.OppositeSide | delta_hedge_api.py:138 | The hedge side is NO exactly for a YES leg, and YES otherwise. |
| Hedge.OppositeSideInvolution | delta_hedge_api.py:138 | Taking the opposite side twice returns a YES or NO leg to itself. |
| Hedge.HedgePrice | delta_hedge_api.py:141-149 | A YES leg is hedged at 1 − mark and any other at the mark, so a price in [0, 1] stays there. |
| Hedge.LegOrder | delta_hedge_api.py:136-154 | A hedge order is on the leg's platform and market, on the opposite side, for the hedge size, at the hedge price, costing size·price. |
| Hedge.Pnl | delta_hedge_api.py:288-300 | PnL is size·(current sum − entry sum) when both legs are quoted with a nonzero price, and 0 otherwise. |
| Hedge.PnlMonotoneInQuote | delta_hedge_api.py:288-300 | A higher nonzero quote on a leg never lowers PnL. |
| Hedge.CalculateHedge | delta_hedge_api.py:94-172 | The plan has one opposite order per leg for size·percentage/100. Its cost is the sum of both orders. Locked profit is PnL minus that cost, and the plan recommends execution exactly when locked profit is positive. |
| Hedge.HedgeCostProportional | delta_hedge_api.py:131-157 | Hedge cost is proportional to the hedge percentage. |
| Hedge.FullHedgeOfYesNo | delta_hedge_api.py:131-157 | Fully hedging a YES/NO position costs size·(1 − price_a) + size·price_b. |
| Hedge.AutoHedgePercentage | delta_hedge_api.py:302-326 | A full hedge happens exactly when PnL reaches the profit threshold. A 50% hedge happens exactly when PnL is below it and at or under the loss threshold. Nothing happens in between. |
| Hedge.AutoHedgePlan | delta_hedge_api.py:302-326 | A plan exists exactly when a percentage is chosen, and it is the hedge calculation of the position at that chosen percentage. |
| Hedge.UnquotedIsNotAutoHedged | delta_hedge_api.py:296-326 | A position without both quotes has PnL 0 and is never auto-hedged at the default thresholds. |
| Hedge.EmptyStoreValid | delta_hedge_api.py:335-336 | The empty store is well formed. |
| Hedge.Put | delta_hedge_api.py:338-352 | Adding or updating a position stores it under its id and leaves every other id untouched. A new id is appended to the listing order; a known id keeps its place. |
| Hedge.Get | delta_hedge_api.py:342-344 | A lookup finds a position exactly when its id is stored. |
| Hedge.GetAfterPut | delta_hedge_api.py:338-344 | Looking up right after a store returns the stored position for its id and the earlier answer for any other id. |
| Hedge.PutIdempotent | delta_hedge_api.py:338-340 | Storing the same position twice is the same as storing it once. |
| Hedge.GetAll | delta_hedge_api.py:346-348 | The listing holds every stored position once, in insertion order. |
| Hedge.GetAllAfterPut | delta_hedge_api.py:338-348 | Storing grows the listing by one exactly for a new id, and the stored position is listed. |
| Compliance.PolicyFor | compliance_checker.py:41-67 | Exactly Polymarket, Kalshi and Manifold have a policy. |
| Compliance.CheckGeographic | compliance_checker.py:291-320 | The check fails exactly for a blocked country, critically, or for a country outside a present allow-list, with high severity. |
| Compliance.CheckVpn | compliance_checker.py:322-357 | The check fails, critically, exactly when an anonymiser is used under a blocking policy. A warning policy passes at medium severity and an allowing one at low. |
| Compliance.CheckKyc | compliance_checker.py:359-375 | The check fails, with high severity, exactly when KYC is required and missing. |
| Compliance.CheckAge | compliance_checker.py:377-405 | The check fails, critically, exactly when a stated age is under the minimum. An unstated age passes at low severity. |
| Compliance.FailedReasons | compliance_checker.py:259-265 | The restrictions are exactly the reasons of the failed checks, and are empty exactly when all pass. |
| Compliance.RiskLevel | compliance_checker.py:407-428 | The level is the gravest severity among failed checks (critical, then high, then medium) and low otherwise. |
| Compliance.RiskLevelIsGravest | compliance_checker.py:407-428 | No failed check is graver than the level, and a level of medium or above is carried by some failed check. |
| Compliance.FormatReason | compliance_checker.py:430-443 | The summary denies with the failed reasons exactly when some check failed. Otherwise it allows from the user's country and city. |
| Compliance.CheckPlatformAccess | compliance_checker.py:206-289 | An unknown platform is denied critically. Otherwise access is allowed exactly when all four checks pass, with no restrictions and a low level. |
| Compliance.CheckAndRecord | compliance_checker.py:206-289 | The verdict is the access check's. A verdict on a known platform is appended to the history. A verdict on an unknown platform is returned early and leaves the history unchanged, so a history of known platforms stays one. |
| Compliance.AccessConditions | compliance_checker.py:258-269 | For a known platform, access is allowed exactly when the country is not blocked and is allowed, no blocked anonymiser is used, KYC is met and the age suffices. |
| Compliance.KalshiIsUsOnly | compliance_checker.py:50-58 | Outside the US, Kalshi is always denied at high or critical level. |
| Compliance.PolymarketBlocksUs | compliance_checker.py:42-49 | From the US, Polymarket is always denied critically. |
| Compliance.VerdictNeverMedium | compliance_checker.py:258-262 | The verdict level is never medium: the only medium outcome, a VPN warning, does not fail its check. |
| Compliance.LevelCountsCoverHistory | compliance_checker.py:485-487 | The per-level counts add up to the number of checks. |
| Compliance.PlatformCounts | compliance_checker.py:489-498 | A platform's allowed and denied counts never exceed the history, and its allowed count never exceeds the overall allowed count. |
| Compliance.Recent | compliance_checker.py:507-516 | The recent list is the last ten checks, in order, or all of them when there are fewer. |
| Compliance.ComplianceReport | compliance_checker.py:469-517 | Total, allowed and denied counts agree with the history, and the approval rate is the allowed percentage in [0, 100]. The risk distribution and platform statistics count exactly the levels and platforms that occur. The recent list is the last ten checks. |
| Compliance.RateAtMostHundred | compliance_checker.py:504 | A part of a whole is at most 100 percent of it. |
| Alerts.CheckSlippage | alert_system.py:480-533 | An alert is raised exactly from 1% actual slippage. From 2% it is critical, action-required, to Slack and Telegram; below that it is high priority to Slack. |
| Alerts.CheckSlippageEscalates | alert_system.py:488-531 | Worse slippage never yields a less urgent alert. |
| Alerts.FillPercentage | alert_system.py:544-546 | The fill percentage is filled over target times 100, and 0 for a non-positive target. |
| Alerts.CheckPartialFill | alert_system.py:535-569 | An action-required alert to Slack and Telegram is raised exactly below an 80% fill. It is high priority exactly below 50% and medium otherwise. |
| Alerts.PartialFillThreshold | alert_system.py:535-569 | For a positive target, the alert is raised exactly when less than 80% of it was filled, and is high priority below half. |
| Alerts.NoTargetIsHighPriority | alert_system.py:544-569 | A non-positive target always raises a high-priority alert. |
| Alerts.CheckOracleUpdate | alert_system.py:571-609 | A dispute is a critical, action-required dispute alert. A resolution is high priority, a price update low, and anything else medium, always to Slack. |
| Alerts.Divergence | alert_system.py:619-620 | Divergence is the price gap as a percentage of the mean price. It is undefined when the prices sum to 0, and non-negative for a positive sum. |
| Alerts.DivergenceSymmetric | alert_system.py:619-620 | Divergence does not depend on price order. |
| Alerts.DivergenceOfEqualPrices | alert_system.py:619-620 | Equal nonzero prices have divergence 0. |
| Alerts.CheckPriceDivergence | alert_system.py:611-644 | A medium-priority alert to Slack is raised exactly when the divergence is defined and at least 5%. |
| Alerts.DivergenceAlertThreshold | alert_system.py:619-622 | For positive prices, the alert is raised exactly when the gap is at least 2.5% of their sum. |
| Alerts.AddChannel | alert_system.py:361-364 | Adding a channel registers it and keeps the other channels, the history and the statistics. |
| Alerts.Bump | alert_system.py:425-429 | Bumping a counter raises that key by one and leaves every other key unchanged. |
| Alerts.Targets | alert_system.py:389 | The targets are the explicit list if non-empty, else the alert's channels if non-empty, else every registered channel. |
| Alerts.AttemptsAreCounted | alert_system.py:403-422 | Sent plus failed counts exactly the targets that are registered channels. |
| Alerts.Results | alert_system.py:403-422 | There is a result for exactly the targets, true exactly for a registered channel that delivered. |
| Alerts.SendAlert | alert_system.py:372-431 | The alert is appended to the history. Sent and failed grow by the deliveries and failures on registered targets. Its type and priority counters grow by one and no other counter changes. |
| Alerts.SendAlertCountsAttempts | alert_system.py:403-422 | Sent plus failed grows by exactly the number of registered targets. |
| Alerts.DefaultTargetsAreAllChannels | alert_system.py:389 | An alert without channels of its own, sent without a list, is attempted on every registered channel. |
| Alerts.UnregisteredTargetsCountNothing | alert_system.py:420-422 | Sending only to unregistered channels changes neither sent nor failed. |

## Left out

- Network clients, websockets, order execution, the dashboard and database back end: I/O with no decision logic of its own.
- The random draws of the Monte-Carlo VaR estimate are not modelled. `RiskControl.VarCheck` takes the estimated portfolio VaR as an input.
- `SequenceMatcher.ratio`, the regular-expression question normaliser and number extraction are inputs. The model takes the sequence ratio and the normalised text and number sets as given.
- Timezone offsets looked up through `pytz` are inputs, and instants are UTC seconds.
- The geolocation and VPN-detection lookup of `check_platform_access` is an input `Location`. `check_all_platforms` only repeats the per-platform check.
- Timestamps, identifiers, titles and message texts of alerts, checks and orders are left out. Reasons are kept as structured values, and the `" | "` join of risk-gate reasons is not modelled.
- Alert handlers registered by `register_handler` run arbitrary callbacks, so send_alert's handler loop is left out. `get_stats` and channel initialisation/closing are also left out.
- Async execution, logging, printing helpers and example drivers are left out.
- The ledger, position store, alert manager and compliance history are values returned updated, not mutable objects. Concurrent use is not modelled.
- `Slippage.OptimizeOrderSplits`: a book with no analysable level calls `_create_minimal_splits`, which the source never defines. The model returns no plan for that case.
- `Positions.ExponentialSplits`, `Positions.SplitStrategyFor`, `Positions.DynamicPositionSize`: the source multiplies a Decimal by a float in the exponential split, which raises at run time. So every plan that splits raises in the source, and `calculate_dynamic_position_size` raises with it. The model computes the geometric split that code evidently intends, with exact reals.
- `Positions.Workable`: the sizing code divides by `max_size`, `max_total_exposure` and `max_slippage_percent` without a guard. The sizing members require `max_size` and `max_total_exposure` nonzero, `max_slippage_percent` positive, and at least one split. A negative maximum slippage, which the source accepts, is not modelled.
- `Slippage.SplitPlan`, `Slippage.MarketImpact`, `Slippage.TrialAt`, `Slippage.SizerScan`, `Slippage.OptimalPositionSize`: the source divides by the maximum slippage without a guard, so these require it to be positive.
- `Slippage.LiquidityDepth` and `Positions.EstimateSlippage` return nothing for a zero best or first price, where the source divides by zero.
- `Alerts.Divergence` is undefined when the two prices sum to 0, where the source divides by zero.
- `MarketConditions` keeps only the volatility and liquidity score that sizing reads; spread, volume and trend are left out.
- Orders carry no `execution_type`, since the source fixes it to "market" for hedges.
- `Compliance.ComplianceReport`: the source's empty report has no approval rate, and the model reports 0 for it.
- `Common.LowerChar`, `Common.Words`, `Legacy.Similarity`: lower-casing covers ASCII, Latin-1 and the basic Cyrillic capitals only. Python's full Unicode lower-casing is not modelled, for example Greek capitals with the final-sigma rule, Latin Extended letters or the two-character lower case of U+0130.
- `RiskControl.EvaluateEntry`: the gate uses the corrected daily-loss check, so a daily profit at or above the limit is allowed where the source rejects it. On days without profit it agrees with the source (`RiskControl.ChecksAgreeOnLosingDays`).
- `Legacy.AssessRiskFactors`: it uses the corrected end-date gap. When the first market closes earlier and the gap's day count rounds differently, the source's factor can differ. With the first market closing no earlier, it agrees with the source (`Legacy.AssessRiskFactorsAgreesForward`).
- `Legacy.AssessRiskFactorsSymmetric`: it holds for the corrected gap only. The source's factors can depend on argument order, as `Legacy.EndDateGapAsWrittenIsAsymmetric` shows.
- `Legacy.PricedAt`: its risk factors and confidence are computed from the corrected end-date gap, so they differ from the source's as `AssessRiskFactors` does.
- `Legacy.CalculateArbitrageOpportunity`: it inherits the corrected end-date gap through `PricedAt`. Its choice of strategy, cost and profit are as in the source.
- `Hedge.PnlMonotoneInQuote` requires the raised quote to be nonzero, because a zero quote counts as missing and gives PnL 0.
- `Legacy.ConfidenceScoreAntitone` requires non-negative liquidity and volume, because a negative saturation factor would reverse the order.
- `Matching.QuestionSimilaritySymmetric`: it holds for one given sequence ratio. `SequenceMatcher(None, q1, q2).ratio()` can depend on argument order, so the source's similarity can too.
- `Matching.MatchConfidence`: the bound by the overall score needs at most 10 risks and 20 warnings, because more would make the penalty factors negative.
- `Matching.QuestionSimilarity` states its bound only for a sequence ratio in [0, 1], which is the range of `SequenceMatcher.ratio`.

## Findings

| source | as written | input that shows it | evidently intended | confidence | as-written member | corrected member |
|---|---|---|---|---|---|---|
| prediction_arbitrage/dynamic_position_management.py:510 | `abs(self.daily_pnl) >= self.max_daily_loss` blocks entry when the day's result is large either way | a daily profit of 6000 against the 5000 limit fails the "daily loss limit" check | only a loss of at least the limit blocks entry | medium, not executed | RiskControl.DailyLossCheckAsWritten, RiskControl.DailyLossCheckBlocksProfit | RiskControl.DailyLossCheck |
| prediction-arbitrage-bot.py:531 | `abs((end1 - end2).days)` takes the day field of a signed difference, which floors toward minus infinity | end dates 25 hours apart: 1 day when the first is later, 2 days when it is earlier | the whole days of the absolute gap, the same in either order | medium, not executed | Legacy.EndDateGapDaysAsWritten, Legacy.EndDateGapAsWrittenIsAsymmetric | Legacy.EndDateGapDays, Legacy.EndDateGapDaysSymmetric |

=== FILE: alerts.dfy ===
/** Alerting (alert_system.py): the threshold rules of `EdgeCaseDetector` that
    decide whether, and how urgently, to raise slippage, partial-fill, oracle
    and price-divergence alerts, and the bookkeeping `AlertManager.send_alert`
    does when it routes an alert to its channels. Delivery itself is I/O: what
    a channel does with an alert arrives as a `Delivery` per channel name. */
module Alerts {
  import opened Common

  datatype AlertType =
    | CriticalSlippage
    | PartialFillFailed
    | OracleDispute
    | SystemFailure
    | HighSlippage
    | PartialFillWarning
    | OracleUpdate
    | PriceDivergence
    | ResolutionMismatch
    | OpportunityFound
    | TradeExecuted
    | PositionClosed
    | MarketUpdate

  /** `AlertPriority`, most urgent first. */
  datatype Priority = Critical | High | Medium | Low

  /** The figures each kind of alert carries. */
  datatype Detail =
    | SlippageDetail(expected: real, actual: real, profitImpact: real)
    | PartialFillDetail(target: real, filled: real, fillPercentage: real, unfilledMarkets: seq<string>)
    | OracleDetail(marketId: string, oracleSource: string, updateType: string, previousValue: Option<string>, newValue: Option<string>)
    | DivergenceDetail(marketA: string, marketB: string, priceA: real, priceB: real, divergence: real)

  datatype Alert = Alert(
    alertType: AlertType,
    priority: Priority,
    channels: seq<string>,
    actionRequired: bool,
    detail: Detail)

  const CriticalSlippagePercent := 2.0
  const HighSlippagePercent := 1.0
  const MinFillPercentage := 80.0
  const HighPriorityFillBelow := 50.0
  const PriceDivergencePercent := 5.0

  // ---------------------------------------------------------------------------
  // Edge-case rules
  // ---------------------------------------------------------------------------

  /** `check_slippage`: a critical alert to Slack and Telegram from 2%, a
      high-priority one to Slack from 1%, nothing below. Only the critical
      alert carries the trade's profit impact; the other keeps the default 0. */
  function CheckSlippage(expected: real, actual: real, profitImpact: real): (r: Option<Alert>)
    ensures r.Some? <==> actual >= HighSlippagePercent
    ensures actual >= CriticalSlippagePercent ==>
              r == Some(Alert(CriticalSlippage, Critical, ["slack", "telegram"], true, SlippageDetail(expected, actual, profitImpact)))
    ensures HighSlippagePercent <= actual < CriticalSlippagePercent ==>
              r == Some(Alert(HighSlippage, High, ["slack"], false, SlippageDetail(expected, actual, 0.0)))
  {
    if actual >= CriticalSlippagePercent then
      Some(Alert(CriticalSlippage, Critical, ["slack", "telegram"], true, SlippageDetail(expected, actual, profitImpact)))
    else if actual >= HighSlippagePercent then
      Some(Alert(HighSlippage, High, ["slack"], false, SlippageDetail(expected, actual, 0.0)))
    else None
  }

  /** How urgent a possibly absent alert is: 0 for none, up to 4 for critical. */
  function Urgency(a: Option<Alert>): nat
  {
    match a
    case None => 0
    case Some(x) =>
      match x.priority
      case Low => 1
      case Medium => 2
      case High => 3
      case Critical => 4
  }

  /** Worse slippage never makes the slippage alert less urgent. */
  lemma CheckSlippageEscalates(expected: real, actual: real, worse: real, impact: real)
    requires actual <= worse
    ensures Urgency(CheckSlippage(expected, actual, impact)) <= Urgency(CheckSlippage(expected, worse, impact))
  {
  }

  /** `filled / target * 100`, and 0 when the target is not positive. */
  function FillPercentage(target: real, filled: real): (r: real)
    ensures PercentOf(r, filled, target)
  {
    Percent(filled, target)
  }

  /** `check_partial_fill`: an alert to Slack and Telegram below an 80% fill,
      high priority below 50% and medium otherwise. */
  function CheckPartialFill(target: real, filled: real, unfilled: seq<string>): (r: Option<Alert>)
    ensures r.Some? <==> FillPercentage(target, filled) < MinFillPercentage
    ensures r.Some? ==> r.value.alertType == PartialFillWarning && r.value.actionRequired
    ensures r.Some? ==> r.value.channels == ["slack", "telegram"]
    ensures r.Some? ==> (r.value.priority == High <==> FillPercentage(target, filled) < HighPriorityFillBelow)
    ensures r.Some? ==> r.value.priority in {High, Medium}
    ensures r.Some? ==> r.value.detail == PartialFillDetail(target, filled, FillPercentage(target, filled), unfilled)
  {
    var pct := FillPercentage(target, filled);
    if pct < MinFillPercentage then
      Some(Alert(PartialFillWarning, if pct < HighPriorityFillBelow then High else Medium,
                 ["slack", "telegram"], true, PartialFillDetail(target, filled, pct, unfilled)))
    else None
  }

  /** For a positive target, the alert is raised exactly when less than 80% of it was filled. */
  lemma PartialFillThreshold(target: real, filled: real, unfilled: seq<string>)
    requires target > 0.0
    ensures CheckPartialFill(target, filled, unfilled).Some? <==> filled < 0.8 * target
    ensures CheckPartialFill(target, filled, unfilled).Some? && filled < 0.5 * target ==>
              CheckPartialFill(target, filled, unfilled).value.priority == High
  {
    var pct := FillPercentage(target, filled);
    assert pct * target == filled * 100.0;
    if pct < MinFillPercentage {
      assert pct * target < 80.0 * target;
    } else {
      assert pct * target >= 80.0 * target;
    }
    if filled < 0.5 * target {
      assert pct * target < 50.0 * target;
    }
  }

  /** A zero or negative target counts as a 0% fill, so it always raises a high-priority alert. */
  lemma NoTargetIsHighPriority(target: real, filled: real, unfilled: seq<string>)
    requires target <= 0.0
    ensures CheckPartialFill(target, filled, unfilled).Some?
    ensures CheckPartialFill(target, filled, unfilled).value.priority == High
  {
  }

  /** `check_oracle_update`: always an alert to Slack; a dispute is critical
      and needs action, a resolution is high, a price update low, and any other
      update medium. */
  function CheckOracleUpdate(marketId: string, source: string, updateType: string,
                             previous: Option<string>, current: Option<string>): (r: Alert)
    ensures r.alertType == (if updateType == "dispute" then OracleDispute else OracleUpdate)
    ensures r.actionRequired <==> updateType == "dispute"
    ensures r.priority == Critical <==> updateType == "dispute"
    ensures r.priority == High <==> updateType == "resolution"
    ensures r.priority == Low <==> updateType == "price_update"
    ensures r.priority == Medium <==> updateType !in {"dispute", "resolution", "price_update"}
    ensures r.channels == ["slack"]
    ensures r.detail == OracleDetail(marketId, source, updateType, previous, current)
  {
    var priority :=
      if updateType == "dispute" then Critical
      else if updateType == "resolution" then High
      else if updateType == "price_update" then Low
      else Medium;
    Alert(if updateType != "dispute" then OracleUpdate else OracleDispute, priority, ["slack"],
          updateType == "dispute", OracleDetail(marketId, source, updateType, previous, current))
  }

  /** `|a - b| / ((a + b) / 2) * 100`; absent when `a + b` is 0, where the source divides by zero. */
  function Divergence(a: real, b: real): (r: Option<real>)
    ensures r.None? <==> a + b == 0.0
    ensures r.Some? ==> r.value * (a + b) == 200.0 * Abs(a - b)
    ensures r.Some? && a + b > 0.0 ==> r.value >= 0.0
  {
    if a + b == 0.0 then None
    else
      var d := Abs(a - b) / ((a + b) / 2.0) * 100.0;
      assert d * (a + b) == 200.0 * Abs(a - b);
      Some(d)
  }

  lemma DivergenceSymmetric(a: real, b: real)
    ensures Divergence(a, b) == Divergence(b, a)
  {
  }

  /** Equal prices do not diverge. */
  lemma DivergenceOfEqualPrices(a: real)
    requires a != 0.0
    ensures Divergence(a, a) == Some(0.0)
  {
  }

  /** What the divergence rule concludes: nothing to compute, no alert, or an alert. */
  datatype DivergenceOutcome = Undefined | Quiet | Raised(alert: Alert)

  /** `check_price_divergence`: a medium-priority alert to Slack from a 5% divergence. */
  function CheckPriceDivergence(a: real, b: real, marketA: string, marketB: string): (r: DivergenceOutcome)
    ensures r.Undefined? <==> Divergence(a, b).None?
    ensures r.Raised? <==> Divergence(a, b).Some? && Divergence(a, b).value >= PriceDivergencePercent
    ensures r.Raised? ==> r.alert.alertType == PriceDivergence && r.alert.priority == Medium && r.alert.channels == ["slack"]
    ensures r.Raised? ==> r.alert.detail == DivergenceDetail(marketA, marketB, a, b, Divergence(a, b).value)
  {
    match Divergence(a, b)
    case None => Undefined
    case Some(d) =>
      if d >= PriceDivergencePercent then
        Raised(Alert(PriceDivergence, Medium, ["slack"], false, DivergenceDetail(marketA, marketB, a, b, d)))
      else Quiet
  }

  /** A percentage `d` of `s` equal to `200 * g` reaches 5% exactly when `40 * g` reaches `s`. */
  lemma ThresholdScaling(d: real, s: real, g: real)
    requires s > 0.0 && d * s == 200.0 * g
    ensures d >= 5.0 <==> 40.0 * g >= s
  {
    if d >= 5.0 {
      ProductNonNegative(d - 5.0, s);
      assert (d - 5.0) * s == d * s - 5.0 * s;
    } else {
      ProductPositive(5.0 - d, s);
      assert (5.0 - d) * s == 5.0 * s - d * s;
    }
  }

  /** For positive prices, an alert is raised exactly when the gap is at least 2.5% of their sum. */
  lemma DivergenceAlertThreshold(a: real, b: real, marketA: string, marketB: string)
    requires a > 0.0 && b > 0.0
    ensures CheckPriceDivergence(a, b, marketA, marketB).Raised? <==> 40.0 * Abs(a - b) >= a + b
  {
    ThresholdScaling(Divergence(a, b).value, a + b, Abs(a - b));
  }

  // ---------------------------------------------------------------------------
  // Alert manager
  // ---------------------------------------------------------------------------

  /** What a channel did with an alert. */
  datatype Delivery = Delivered | Refused | Threw

  datatype Stats = Stats(totalSent: nat, byType: map<AlertType, nat>, byPriority: map<Priority, nat>, failed: nat)

  /** `AlertManager`: the registered channel names in registration order, every alert ever sent, and the counters. */
  datatype Manager = Manager(registered: seq<string>, history: seq<Alert>, stats: Stats)

  const NewManager := Manager([], [], Stats(0, map[], map[], 0))

  /** `add_channel`: a name already registered keeps its place. */
  function AddChannel(m: Manager, name: string): (r: Manager)
    ensures name in r.registered
    ensures forall c :: c in m.registered ==> c in r.registered
    ensures forall c :: c in r.registered ==> c == name || c in m.registered
    ensures r.history == m.history && r.stats == m.stats
  {
    if name in m.registered then m else m.(registered := m.registered + [name])
  }

  /** `counts.get(key, 0)`. */
  function CountOf<K>(counts: map<K, nat>, key: K): nat
  {
    if key in counts then counts[key] else 0
  }

  /** `counts[key] = counts.get(key, 0) + 1`. */
  function Bump<K(!new)>(counts: map<K, nat>, key: K): (r: map<K, nat>)
    ensures CountOf(r, key) == CountOf(counts, key) + 1
    ensures forall k :: k != key ==> CountOf(r, k) == CountOf(counts, k)
    ensures r.Keys == counts.Keys + {key}
  {
    counts[key := CountOf(counts, key) + 1]
  }

  /** `channels or alert.channels or list(self.channels.keys())`: the first non-empty list. */
  function Targets(explicit: seq<string>, a: Alert, registered: seq<string>): (r: seq<string>)
    ensures |explicit| > 0 ==> r == explicit
    ensures |explicit| == 0 && |a.channels| > 0 ==> r == a.channels
    ensures |explicit| == 0 && |a.channels| == 0 ==> r == registered
  {
    if |explicit| > 0 then explicit else if |a.channels| > 0 then a.channels else registered
  }

  /** How many of `targets` are registered channels that delivered. */
  function DeliveredCount(targets: seq<string>, registered: seq<string>, delivery: string -> Delivery): (n: nat)
    ensures n <= |targets|
  {
    if |targets| == 0 then 0
    else (if targets[0] in registered && delivery(targets[0]) == Delivered then 1 else 0)
         + DeliveredCount(targets[1..], registered, delivery)
  }

  /** How many of `targets` are registered channels that refused or raised. */
  function FailedCount(targets: seq<string>, registered: seq<string>, delivery: string -> Delivery): (n: nat)
    ensures n <= |targets|
  {
    if |targets| == 0 then 0
    else (if targets[0] in registered && delivery(targets[0]) != Delivered then 1 else 0)
         + FailedCount(targets[1..], registered, delivery)
  }

  /** How many of `targets` are registered at all. */
  function RegisteredCount(targets: seq<string>, registered: seq<string>): (n: nat)
    ensures n <= |targets|
  {
    if |targets| == 0 then 0
    else (if targets[0] in registered then 1 else 0) + RegisteredCount(targets[1..], registered)
  }

  /** Every attempt on a registered channel counts once, as sent or as failed;
      unregistered targets count nowhere. */
  lemma {:induction false} AttemptsAreCounted(targets: seq<string>, registered: seq<string>, delivery: string -> Delivery)
    ensures DeliveredCount(targets, registered, delivery) + FailedCount(targets, registered, delivery)
            == RegisteredCount(targets, registered)
  {
    if |targets| > 0 {
      AttemptsAreCounted(targets[1..], registered, delivery);
    }
  }

  /** The per-channel results of one send: a later entry for the same name overwrites an earlier one. */
  function Results(targets: seq<string>, registered: seq<string>, delivery: string -> Delivery): (r: map<string, bool>)
    ensures r.Keys == set k | 0 <= k < |targets| :: targets[k]
    ensures forall c :: c in r ==> (r[c] <==> c in registered && delivery(c) == Delivered)
  {
    if |targets| == 0 then map[]
    else
      var last := targets[|targets| - 1];
      var front := targets[..|targets| - 1];
      var r := Results(front, registered, delivery)[last := last in registered && delivery(last) == Delivered];
      assert (set k | 0 <= k < |targets| :: targets[k]) == (set k | 0 <= k < |front| :: front[k]) + {last} by {
        forall k | 0 <= k < |front|
          ensures targets[k] == front[k]
        {
        }
      }
      r
  }

  /** `send_alert`: the alert joins the history, its type and priority counters
      each go up by one, and every target channel that is registered is tried
      once, counting as sent or as failed. */
  function SendAlert(m: Manager, a: Alert, explicit: seq<string>, delivery: string -> Delivery): (r: (Manager, map<string, bool>))
    ensures r.0.registered == m.registered && r.0.history == m.history + [a]
    ensures r.0.stats.totalSent == m.stats.totalSent + DeliveredCount(Targets(explicit, a, m.registered), m.registered, delivery)
    ensures r.0.stats.failed == m.stats.failed + FailedCount(Targets(explicit, a, m.registered), m.registered, delivery)
    ensures r.1.Keys == set k | 0 <= k < |Targets(explicit, a, m.registered)| :: Targets(explicit, a, m.registered)[k]
    ensures forall c :: c in r.1 ==> (r.1[c] <==> c in m.registered && delivery(c) == Delivered)
    ensures CountOf(r.0.stats.byType, a.alertType) == CountOf(m.stats.byType, a.alertType) + 1
    ensures forall t :: t != a.alertType ==> CountOf(r.0.stats.byType, t) == CountOf(m.stats.byType, t)
    ensures CountOf(r.0.stats.byPriority, a.priority) == CountOf(m.stats.byPriority, a.priority) + 1
    ensures forall p :: p != a.priority ==> CountOf(r.0.stats.byPriority, p) == CountOf(m.stats.byPriority, p)
  {
    var targets := Targets(explicit, a, m.registered);
    var stats := Stats(m.stats.totalSent + DeliveredCount(targets, m.registered, delivery),
                       Bump(m.stats.byType, a.alertType),
                       Bump(m.stats.byPriority, a.priority),
                       m.stats.failed + FailedCount(targets, m.registered, delivery));
    (Manager(m.registered, m.history + [a], stats), Results(targets, m.registered, delivery))
  }

  /** Sent plus failed grows by exactly the number of registered targets. */
  lemma SendAlertCountsAttempts(m: Manager, a: Alert, explicit: seq<string>, delivery: string -> Delivery)
    ensures var after := SendAlert(m, a, explicit, delivery).0;
            after.stats.totalSent + after.stats.failed
            == m.stats.totalSent + m.stats.failed + RegisteredCount(Targets(explicit, a, m.registered), m.registered)
  {
    AttemptsAreCounted(Targets(explicit, a, m.registered), m.registered, delivery);
  }

  /** An alert with no channels of its own, sent without a list, goes to every registered channel. */
  lemma DefaultTargetsAreAllChannels(m: Manager, a: Alert, delivery: string -> Delivery)
    requires |a.channels| == 0
    ensures SendAlert(m, a, [], delivery).1.Keys == set k | 0 <= k < |m.registered| :: m.registered[k]
  {
  }

  /** Unregistered channels change no counter. */
  lemma UnregisteredTargetsCountNothing(m: Manager, a: Alert, explicit: seq<string>, delivery: string -> Delivery)
    requires |explicit| > 0 && forall k :: 0 <= k < |explicit| ==> explicit[k] !in m.registered
    ensures SendAlert(m, a, explicit, delivery).0.stats.totalSent == m.stats.totalSent
    ensures SendAlert(m, a, explicit, delivery).0.stats.failed == m.stats.failed
  {
    NoneRegistered(explicit, m.registered, delivery);
  }

  lemma {:induction false} NoneRegistered(targets: seq<string>, registered: seq<string>, delivery: string -> Delivery)
    requires forall k :: 0 <= k < |targets| ==> targets[k] !in registered
    ensures DeliveredCount(targets, registered, delivery) == 0 && FailedCount(targets, registered, delivery) == 0
  {
    if |targets| > 0 {
      NoneRegistered(targets[1..], registered, delivery);
    }
  }
}

=== FILE: common.dfy ===
/** Shared vocabulary of the arbitrage model: an optional value, the small real-number
    helpers the source spells with Python's `min`, `max` and `abs`, sums and powers,
    the Jaccard index of two token sets, Python's `str.lower().split()`,
    the `(i, j)` pair enumeration of a nested `for i / for j > i` loop, and a stable
    descending sort by a real-valued key (Python's `sort(key=..., reverse=True)`). */
module Common {

  datatype Option<+T> = None | Some(value: T)

  /** The trading venues. A name the repository does not list is kept verbatim,
      so that equality between platforms is equality between their names. */
  datatype Platform = Polymarket | Kalshi | Manifold | Unlisted(name: string)

  function Min(a: real, b: real): (r: real)
    ensures r <= a && r <= b && (r == a || r == b)
  {
    if a <= b then a else b
  }

  function Max(a: real, b: real): (r: real)
    ensures r >= a && r >= b && (r == a || r == b)
  {
    if a >= b then a else b
  }

  function Abs(x: real): (r: real)
    ensures r >= 0.0 && (r == x || r == -x)
  {
    if x < 0.0 then -x else x
  }

  /** `max(lo, min(x, hi))`, the clamp the source writes inline. */
  function Clamp(x: real, lo: real, hi: real): (r: real)
    ensures r >= lo
    ensures lo <= hi ==> r <= hi
    ensures lo <= x <= hi ==> r == x
  {
    Max(lo, Min(x, hi))
  }

  /** The product of two non-negative reals is non-negative (the solver does not find this by itself). */
  lemma ProductNonNegative(x: real, y: real)
    requires x >= 0.0 && y >= 0.0
    ensures x * y >= 0.0
  {
  }

  lemma ProductPositive(x: real, y: real)
    requires x > 0.0 && y > 0.0
    ensures x * y > 0.0
  {
  }

  /** Scaling a non-negative number by a factor in [0, 1] keeps it between 0 and itself. */
  lemma ScaleWithinUnit(x: real, f: real)
    requires x >= 0.0 && 0.0 <= f <= 1.0
    ensures 0.0 <= x * f <= x
  {
    assert x - x * f == x * (1.0 - f);
  }

  /** `pct` is `part` as a percentage of `whole`, and 0 when `whole` is not positive. */
  predicate PercentOf(pct: real, part: real, whole: real)
  {
    if whole > 0.0 then pct * whole == part * 100.0 else pct == 0.0
  }

  /** The guarded `part / whole * 100` the source writes. */
  function Percent(part: real, whole: real): (pct: real)
    ensures PercentOf(pct, part, whole)
  {
    if whole > 0.0 then part / whole * 100.0 else 0.0
  }

  function Sum(s: seq<real>): real
  {
    if |s| == 0 then 0.0 else s[0] + Sum(s[1..])
  }

  lemma {:induction false} SumAppend(a: seq<real>, b: seq<real>)
    ensures Sum(a + b) == Sum(a) + Sum(b)
  {
    if |a| == 0 {
      assert a + b == b;
    } else {
      assert (a + b)[1..] == a[1..] + b;
      SumAppend(a[1..], b);
    }
  }

  lemma SumSingleton(x: real)
    ensures Sum([x]) == x
  {
    assert [x][1..] == [];
  }

  /** Raising the last element of a sequence by `d` raises its sum by `d`. */
  lemma SumBumpLast(a: seq<real>, x: real, d: real)
    ensures Sum(a + [x + d]) == Sum(a + [x]) + d
  {
    SumAppend(a, [x]);
    SumAppend(a, [x + d]);
    SumSingleton(x);
    SumSingleton(x + d);
  }

  function Pow(x: real, n: nat): real
  {
    if n == 0 then 1.0 else x * Pow(x, n - 1)
  }

  /** Python's `math.ceil` on a real. */
  function Ceil(x: real): (r: int)
    ensures r as real >= x && (r - 1) as real < x
  {
    if x.Floor as real == x then x.Floor else x.Floor + 1
  }

  /** Python's `int()` on a real: truncation toward zero. */
  function Trunc(x: real): (r: int)
    ensures x >= 0.0 ==> r == x.Floor
    ensures Abs(r as real) <= Abs(x) && Abs(x) < Abs(r as real) + 1.0
  {
    if x >= 0.0 then x.Floor else -((-x).Floor)
  }

  // ---------------------------------------------------------------------------
  // Jaccard index
  // ---------------------------------------------------------------------------

  lemma SubsetCard<T>(a: set<T>, b: set<T>)
    requires a <= b
    ensures |a| <= |b|
    ensures |a| == |b| ==> a == b
  {
    assert b == a + (b - a);
    assert |b| == |a| + |b - a|;
    if |a| == |b| {
      assert |b - a| == 0;
      assert b - a == {};
    }
  }

  /** `len(a & b) / len(a | b)`, and 0 when either set is empty. */
  function Jaccard<T>(a: set<T>, b: set<T>): (r: real)
    ensures 0.0 <= r <= 1.0
    ensures (a == {} || b == {}) ==> r == 0.0
  {
    if a == {} || b == {} then 0.0
    else
      SubsetCard(a * b, a + b);
      assert a <= a + b;
      SubsetCard(a, a + b);
      (|a * b| as real) / (|a + b| as real)
  }

  lemma JaccardSymmetric<T>(a: set<T>, b: set<T>)
    ensures Jaccard(a, b) == Jaccard(b, a)
  {
    assert a * b == b * a && a + b == b + a;
  }

  /** The index reaches 1 exactly on two equal non-empty sets. */
  lemma JaccardOne<T>(a: set<T>, b: set<T>)
    ensures Jaccard(a, b) == 1.0 <==> (a != {} && a == b)
  {
    if a != {} && b != {} {
      SubsetCard(a * b, a + b);
      var i, u := |a * b| as real, |a + b| as real;
      assert u > 0.0 by { assert a <= a + b; SubsetCard(a, a + b); }
      if Jaccard(a, b) == 1.0 {
        assert i / u == 1.0;
        assert i == u;
        assert a * b == a + b;
        assert a == b by {
          forall x | x in a ensures x in b { assert x in a + b; }
          forall x | x in b ensures x in a { assert x in a + b; }
        }
      }
      if a == b {
        assert a * b == a + b;
      }
    }
  }

  // ---------------------------------------------------------------------------
  // Python's str.lower().split()
  // ---------------------------------------------------------------------------

  /** The characters `str.split()` with no argument splits at (those for which
      `str.isspace()` holds): the ASCII controls TAB to CR and FS to US, the
      space, NEL, NO-BREAK SPACE, OGHAM SPACE MARK, the spaces EN QUAD to HAIR
      SPACE, the line and paragraph separators, NARROW NO-BREAK SPACE, MEDIUM
      MATHEMATICAL SPACE and IDEOGRAPHIC SPACE. */
  predicate IsSpace(c: char)
  {
    var n := c as int;
    (0x09 <= n <= 0x0D) || (0x1C <= n <= 0x20) || n == 0x85 || n == 0xA0 || n == 0x1680
    || (0x2000 <= n <= 0x200A) || n == 0x2028 || n == 0x2029 || n == 0x202F || n == 0x205F || n == 0x3000
  }

  /** Capital letters whose lower-case form is one code point a fixed distance
      above: ASCII A-Z, the Latin-1 capitals U+00C0-U+00DE except the
      multiplication sign, and the Cyrillic capitals U+0400-U+042F. */
  predicate IsSimpleCapital(c: char)
  {
    var n := c as int;
    (0x41 <= n <= 0x5A) || (0xC0 <= n <= 0xDE && n != 0xD7) || (0x400 <= n <= 0x42F)
  }

  function LowerChar(c: char): (d: char)
    ensures 'A' <= c <= 'Z' ==> 'a' <= d <= 'z' && d as int == c as int + 32
    ensures (0xC0 <= c as int <= 0xDE && c as int != 0xD7) || (0x410 <= c as int <= 0x42F) ==> d as int == c as int + 32
    ensures 0x400 <= c as int <= 0x40F ==> d as int == c as int + 80
    ensures !IsSimpleCapital(c) ==> d == c
    ensures !IsSimpleCapital(d)
    ensures IsSpace(d) <==> IsSpace(c)
  {
    var n := c as int;
    if 0x400 <= n <= 0x40F then (n + 80) as char
    else if IsSimpleCapital(c) then (n + 32) as char
    else c
  }

  function Lower(s: string): (r: string)
    ensures |r| == |s| && forall i :: 0 <= i < |s| ==> r[i] == LowerChar(s[i])
  {
    seq(|s|, i requires 0 <= i < |s| => LowerChar(s[i]))
  }

  predicate NoSpace(s: string)
  {
    forall i :: 0 <= i < |s| ==> !IsSpace(s[i])
  }

  function Concat(ts: seq<string>): string
  {
    if |ts| == 0 then [] else ts[0] + Concat(ts[1..])
  }

  function DropSpaces(s: string): (r: string)
    ensures NoSpace(r)
  {
    if |s| == 0 then []
    else if IsSpace(s[0]) then DropSpaces(s[1..])
    else [s[0]] + DropSpaces(s[1..])
  }

  /** Splits `s` at runs of white space, with `cur` the word read so far.
      Every word is non-empty and free of white space, and the words joined
      back together give the input with its white space removed. */
  function SplitFrom(s: string, cur: string): (ws: seq<string>)
    requires NoSpace(cur)
    ensures forall k :: 0 <= k < |ws| ==> |ws[k]| > 0 && NoSpace(ws[k])
    ensures Concat(ws) == cur + DropSpaces(s)
    decreases |s|
  {
    if |s| == 0 then
      (if cur == [] then [] else assert Concat([cur]) == cur + Concat([]); [cur])
    else if IsSpace(s[0]) then
      var rest := SplitFrom(s[1..], []);
      if cur == [] then rest
      else
        assert ([cur] + rest)[1..] == rest;
        [cur] + rest
    else
      SplitFrom(s[1..], cur + [s[0]])
  }

  function Split(s: string): (ws: seq<string>)
    ensures forall k :: 0 <= k < |ws| ==> |ws[k]| > 0 && NoSpace(ws[k])
    ensures Concat(ws) == DropSpaces(s)
  {
    SplitFrom(s, [])
  }

  /** `set(text.split())`. */
  function SplitSet(text: string): (w: set<string>)
    ensures forall t :: t in w ==> |t| > 0 && NoSpace(t)
  {
    var ws := Split(text);
    set k | 0 <= k < |ws| :: ws[k]
  }

  /** `set(text.lower().split())`. */
  function Words(text: string): (w: set<string>)
    ensures forall t :: t in w ==> |t| > 0 && NoSpace(t)
  {
    SplitSet(Lower(text))
  }

  // ---------------------------------------------------------------------------
  // Index pairs i < j, in the order of `for i in range(n): for j in range(i+1, n)`
  // ---------------------------------------------------------------------------

  predicate PairBefore(p: (nat, nat), q: (nat, nat))
  {
    p.0 < q.0 || (p.0 == q.0 && p.1 < q.1)
  }

  function Row(i: nat, j: nat, n: nat): (ps: seq<(nat, nat)>)
    ensures forall k :: 0 <= k < |ps| ==> ps[k].0 == i && j <= ps[k].1 < n
    ensures forall p :: p in ps <==> p.0 == i && j <= p.1 < n
    ensures forall k, l :: 0 <= k < l < |ps| ==> ps[k].1 < ps[l].1
    decreases n - j
  {
    if j >= n then [] else [(i, j)] + Row(i, j + 1, n)
  }

  /** All pairs `(i', j)` with `i <= i' < j < n`, row after row. */
  function PairsFrom(i: nat, n: nat): (ps: seq<(nat, nat)>)
    ensures forall p :: p in ps <==> i <= p.0 < p.1 < n
    ensures forall k :: 0 <= k < |ps| ==> i <= ps[k].0 < ps[k].1 < n
    ensures forall k, l :: 0 <= k < l < |ps| ==> PairBefore(ps[k], ps[l])
    decreases n - i
  {
    if i >= n then []
    else
      var row, rest := Row(i, i + 1, n), PairsFrom(i + 1, n);
      assert forall k :: 0 <= k < |row| ==> row[k] in row;
      row + rest
  }

  function Pairs(n: nat): (ps: seq<(nat, nat)>)
    ensures forall p :: p in ps <==> p.0 < p.1 < n
    ensures forall k :: 0 <= k < |ps| ==> ps[k].0 < ps[k].1 < n
    ensures forall k, l :: 0 <= k < l < |ps| ==> PairBefore(ps[k], ps[l])
  {
    PairsFrom(0, n)
  }

  /** The defined results of `pick` over `ps`, in the order of `ps`: the
      `if ...: results.append(...)` body of a scan over index pairs. */
  function CollectSome<T>(ps: seq<(nat, nat)>, pick: ((nat, nat)) -> Option<T>): (r: seq<T>)
    ensures |r| <= |ps|
    ensures forall x :: x in r ==> exists p :: p in ps && pick(p) == Some(x)
  {
    if |ps| == 0 then []
    else
      var rest := CollectSome(ps[1..], pick);
      assert forall p :: p in ps[1..] ==> p in ps;
      match pick(ps[0])
      case Some(x) => [x] + rest
      case None => rest
  }

  /** Nothing the scan picks is dropped. */
  lemma {:induction false} CollectSomeComplete<T>(ps: seq<(nat, nat)>, pick: ((nat, nat)) -> Option<T>, p: (nat, nat))
    requires p in ps && pick(p).Some?
    ensures pick(p).value in CollectSome(ps, pick)
  {
    if ps[0] != p {
      assert p in ps[1..];
      CollectSomeComplete(ps[1..], pick, p);
    }
  }

  /** Everything collected is some pair's pick. */
  lemma CollectedIsPicked<T>(ps: seq<(nat, nat)>, pick: ((nat, nat)) -> Option<T>, x: T) returns (p: (nat, nat))
    requires x in CollectSome(ps, pick)
    ensures p in ps && pick(p) == Some(x)
  {
    p :| p in ps && pick(p) == Some(x);
  }

  /** Every defined pick of a pair `i < j < n` is collected from `Pairs(n)`. */
  lemma PickedIsCollected<T>(n: nat, pick: ((nat, nat)) -> Option<T>, i: nat, j: nat)
    requires i < j < n && pick((i, j)).Some?
    ensures pick((i, j)).value in CollectSome(Pairs(n), pick)
  {
    CollectSomeComplete(Pairs(n), pick, (i, j));
  }

  /** No pair occurs twice in `ps`. */
  predicate Distinct(ps: seq<(nat, nat)>)
  {
    forall k, l :: 0 <= k < l < |ps| ==> ps[k] != ps[l]
  }

  /** On distinct pairs, the scan collects `x` once for every pair whose pick is `x`. */
  lemma DistinctTail(ps: seq<(nat, nat)>)
    requires Distinct(ps) && |ps| > 0
    ensures Distinct(ps[1..]) && ps[0] !in ps[1..]
  {
    assert forall l :: 0 <= l < |ps| - 1 ==> ps[1..][l] == ps[l + 1];
  }

  /** The pairs of `ps` whose pick is `x`. */
  ghost function PickersOf<T>(ps: seq<(nat, nat)>, pick: ((nat, nat)) -> Option<T>, x: T): set<(nat, nat)>
  {
    set p | p in ps && pick(p) == Some(x)
  }

  lemma PickersCons<T>(ps: seq<(nat, nat)>, pick: ((nat, nat)) -> Option<T>, x: T)
    requires |ps| > 0
    ensures PickersOf(ps, pick, x) == PickersOf(ps[1..], pick, x) + (if pick(ps[0]) == Some(x) then {ps[0]} else {})
  {
    assert ps == [ps[0]] + ps[1..];
  }

  /** On distinct pairs, the scan collects `x` once for every pair whose pick is `x`. */
  lemma {:induction false} CollectSomeCount<T>(ps: seq<(nat, nat)>, pick: ((nat, nat)) -> Option<T>, x: T)
    requires Distinct(ps)
    ensures multiset(CollectSome(ps, pick))[x] == |PickersOf(ps, pick, x)|
  {
    if |ps| > 0 {
      DistinctTail(ps);
      CollectSomeCount(ps[1..], pick, x);
      PickersCons(ps, pick, x);
      var tail := PickersOf(ps[1..], pick, x);
      assert ps[0] !in tail;
      var rest := CollectSome(ps[1..], pick);
      match pick(ps[0])
      case None =>
      case Some(y) =>
        assert CollectSome(ps, pick) == [y] + rest;
        assert multiset([y] + rest) == multiset{y} + multiset(rest);
    }
  }

  /** Pairs come in strictly increasing order, so none repeats. */
  lemma PairsDistinct(n: nat)
    ensures Distinct(Pairs(n))
  {
    var ps := Pairs(n);
    forall k, l | 0 <= k < l < |ps|
      ensures ps[k] != ps[l]
    {
      assert PairBefore(ps[k], ps[l]);
    }
  }

  /** Scanning the index pairs `i < j < n` collects `x` once for every pair whose pick is `x`. */
  lemma PairsCount<T>(n: nat, pick: ((nat, nat)) -> Option<T>, x: T)
    ensures multiset(CollectSome(Pairs(n), pick))[x] == |set i: nat, j: nat | i < j < n && pick((i, j)) == Some(x) :: (i, j)|
  {
    PairsDistinct(n);
    CollectSomeCount(Pairs(n), pick, x);
    var a := PickersOf(Pairs(n), pick, x);
    var b := set i: nat, j: nat | i < j < n && pick((i, j)) == Some(x) :: (i, j);
    assert forall p :: p in a <==> p in b;
    assert a == b;
  }

  // ---------------------------------------------------------------------------
  // Stable descending sort by a real key
  // ---------------------------------------------------------------------------

  ghost predicate SortedDesc<T>(s: seq<T>, key: T -> real)
  {
    forall i, j :: 0 <= i < j < |s| ==> key(s[i]) >= key(s[j])
  }

  /** Inserts `x` in front of the first element whose key is not larger than
      its own, so that `x` stays ahead of the elements it tied with. */
  function InsertDesc<T>(x: T, s: seq<T>, key: T -> real): (r: seq<T>)
    requires SortedDesc(s, key)
    ensures SortedDesc(r, key)
    ensures multiset(r) == multiset(s) + multiset{x}
    ensures |r| == |s| + 1
    ensures r[0] == x || (|s| > 0 && r[0] == s[0])
  {
    if |s| == 0 then [x]
    else if key(x) >= key(s[0]) then [x] + s
    else
      var t := InsertDesc(x, s[1..], key);
      assert s == [s[0]] + s[1..];
      assert key(t[0]) <= key(s[0]);
      [s[0]] + t
  }

  lemma SortDescKeeps<T>(s: seq<T>, key: T -> real, x: T)
    requires x in s
    ensures x in SortDesc(s, key)
  {
    assert x in multiset(s);
  }

  /** `sorted(s, key=key, reverse=True)`: a permutation of `s` ordered by
      non-increasing key. */
  function SortDesc<T>(s: seq<T>, key: T -> real): (r: seq<T>)
    ensures SortedDesc(r, key)
    ensures multiset(r) == multiset(s)
    ensures |r| == |s|
  {
    if |s| == 0 then []
    else
      assert s == [s[0]] + s[1..];
      InsertDesc(s[0], SortDesc(s[1..], key), key)
  }
}

=== FILE: compliance.dfy ===
/** Access control per venue (compliance_checker.py): a static policy table,
    four independent checks of a user's location, anonymiser use, identity
    verification and age against that policy, the verdict that combines them,
    and the tally over all verdicts given so far. Where the user is and
    whether an anonymiser is in use arrive as a `Location`; looking them up is
    not part of this model. */
module Compliance {
  import opened Common

  datatype VpnPolicy = Allow | Warning | Block

  /** A venue's rules. An empty `allowedCountries` means no whitelist, as an
      absent or empty list does in the source. */
  datatype Policy = Policy(
    blockedCountries: seq<string>,
    allowedCountries: seq<string>,
    requiresKyc: bool,
    minAge: int,
    vpnPolicy: VpnPolicy)

  /** `PLATFORM_RESTRICTIONS`; any other name has no policy. */
  function PolicyFor(platform: string): (r: Option<Policy>)
    ensures r.Some? <==> platform in {"polymarket", "kalshi", "manifold"}
  {
    if platform == "polymarket" then Some(Policy(["US", "KP", "IR", "SY", "CU"], [], false, 18, Warning))
    else if platform == "kalshi" then Some(Policy(["KP", "IR", "SY", "CU", "RU"], ["US"], true, 18, Block))
    else if platform == "manifold" then Some(Policy(["KP", "IR", "SY"], [], false, 13, Allow))
    else None
  }

  datatype Location = Location(
    country: string,
    countryCode: string,
    region: string,
    city: string,
    isVpn: bool,
    isProxy: bool,
    isTor: bool)

  /** Ordered from harmless to fatal; `Clear` is the source's 'none'. */
  datatype Severity = Clear | Low | Medium | High | Critical

  /** What a check found, with the figures the source prints. */
  datatype Reason =
    | CountryBlocked(country: string, code: string)
    | CountryNotAllowed(country: string)
    | GeographicPassed(country: string)
    | NoAnonymiser
    | AnonymiserBlocked
    | AnonymiserWarned
    | AnonymiserAllowed
    | KycMissing
    | KycSatisfied
    | AgeSkipped(minAge: int)
    | AgeBelow(age: int, minAge: int)
    | AgeSatisfied(age: int, minAge: int)
    | PlatformNotSupported

  datatype CheckOutcome = CheckOutcome(passed: bool, reason: Reason, severity: Severity)

  /** `_check_geographic_restrictions`: the blacklist first, then the whitelist if there is one. */
  function CheckGeographic(loc: Location, policy: Policy): (r: CheckOutcome)
    ensures !r.passed <==>
              loc.countryCode in policy.blockedCountries
              || (|policy.allowedCountries| > 0 && loc.countryCode !in policy.allowedCountries)
    ensures loc.countryCode in policy.blockedCountries ==> r.severity == Critical
    ensures loc.countryCode !in policy.blockedCountries && !r.passed ==> r.severity == High
    ensures r.passed ==> r.severity == Clear
  {
    if loc.countryCode in policy.blockedCountries then
      CheckOutcome(false, CountryBlocked(loc.country, loc.countryCode), Critical)
    else if |policy.allowedCountries| > 0 && loc.countryCode !in policy.allowedCountries then
      CheckOutcome(false, CountryNotAllowed(loc.country), High)
    else CheckOutcome(true, GeographicPassed(loc.country), Clear)
  }

  predicate UsesAnonymiser(loc: Location)
  {
    loc.isVpn || loc.isProxy || loc.isTor
  }

  /** `_check_vpn_policy`: only a blocking policy turns an anonymiser away. */
  function CheckVpn(loc: Location, policy: Policy): (r: CheckOutcome)
    ensures !r.passed <==> UsesAnonymiser(loc) && policy.vpnPolicy == Block
    ensures !UsesAnonymiser(loc) ==> r.severity == Clear
    ensures UsesAnonymiser(loc) ==>
              r.severity == (match policy.vpnPolicy case Block => Critical case Warning => Medium case Allow => Low)
  {
    if !UsesAnonymiser(loc) then CheckOutcome(true, NoAnonymiser, Clear)
    else match policy.vpnPolicy
      case Block => CheckOutcome(false, AnonymiserBlocked, Critical)
      case Warning => CheckOutcome(true, AnonymiserWarned, Medium)
      case Allow => CheckOutcome(true, AnonymiserAllowed, Low)
  }

  /** `_check_kyc_requirements`. */
  function CheckKyc(kycVerified: bool, policy: Policy): (r: CheckOutcome)
    ensures !r.passed <==> policy.requiresKyc && !kycVerified
    ensures r.severity == (if r.passed then Clear else High)
  {
    if policy.requiresKyc && !kycVerified then CheckOutcome(false, KycMissing, High)
    else CheckOutcome(true, KycSatisfied, Clear)
  }

  /** `_check_age_requirements`: an unknown age passes with a low-severity note. */
  function CheckAge(age: Option<int>, policy: Policy): (r: CheckOutcome)
    ensures !r.passed <==> age.Some? && age.value < policy.minAge
    ensures age.None? ==> r.severity == Low
    ensures age.Some? ==> r.severity == (if r.passed then Clear else Critical)
  {
    match age
    case None => CheckOutcome(true, AgeSkipped(policy.minAge), Low)
    case Some(a) =>
      if a < policy.minAge then CheckOutcome(false, AgeBelow(a, policy.minAge), Critical)
      else CheckOutcome(true, AgeSatisfied(a, policy.minAge), Clear)
  }

  /** The four checks, in the order the source runs them. */
  function Checks(loc: Location, age: Option<int>, kycVerified: bool, policy: Policy): (r: seq<CheckOutcome>)
    ensures |r| == 4
    ensures r[0] == CheckGeographic(loc, policy) && r[1] == CheckVpn(loc, policy)
    ensures r[2] == CheckKyc(kycVerified, policy) && r[3] == CheckAge(age, policy)
  {
    [CheckGeographic(loc, policy), CheckVpn(loc, policy), CheckKyc(kycVerified, policy), CheckAge(age, policy)]
  }

  predicate AllPassed(checks: seq<CheckOutcome>)
  {
    forall k :: 0 <= k < |checks| ==> checks[k].passed
  }

  /** The reasons of the failed checks, in check order. */
  function FailedReasons(checks: seq<CheckOutcome>): (r: seq<Reason>)
    ensures |r| <= |checks|
    ensures |r| == 0 <==> AllPassed(checks)
    ensures forall k :: 0 <= k < |checks| && !checks[k].passed ==> checks[k].reason in r
    ensures forall x :: x in r ==> exists k :: 0 <= k < |checks| && !checks[k].passed && checks[k].reason == x
  {
    if |checks| == 0 then []
    else
      var rest := FailedReasons(checks[1..]);
      assert forall k :: 1 <= k < |checks| ==> checks[k] == checks[1..][k - 1];
      if checks[0].passed then rest else [checks[0].reason] + rest
  }

  /** Whether some failed check has severity `s`. */
  predicate FailedWith(checks: seq<CheckOutcome>, s: Severity)
  {
    exists k :: 0 <= k < |checks| && !checks[k].passed && checks[k].severity == s
  }

  /** `_calculate_risk_level`: the gravest of critical, high and medium among
      the failed checks; low when there is none. */
  function RiskLevel(checks: seq<CheckOutcome>): (r: Severity)
    ensures r != Clear
    ensures r == Critical <==> FailedWith(checks, Critical)
    ensures r == High <==> !FailedWith(checks, Critical) && FailedWith(checks, High)
    ensures r == Medium <==> !FailedWith(checks, Critical) && !FailedWith(checks, High) && FailedWith(checks, Medium)
    ensures AllPassed(checks) ==> r == Low
  {
    if FailedWith(checks, Critical) then Critical
    else if FailedWith(checks, High) then High
    else if FailedWith(checks, Medium) then Medium
    else Low
  }

  function SeverityRank(s: Severity): nat
  {
    match s
    case Clear => 0
    case Low => 1
    case Medium => 2
    case High => 3
    case Critical => 4
  }

  /** The risk level is the gravest severity, from medium up, among the failed
      checks, and it is one that some failed check carries. */
  lemma RiskLevelIsGravest(checks: seq<CheckOutcome>)
    ensures forall k :: 0 <= k < |checks| && !checks[k].passed && SeverityRank(checks[k].severity) >= 2 ==>
              SeverityRank(checks[k].severity) <= SeverityRank(RiskLevel(checks))
    ensures SeverityRank(RiskLevel(checks)) >= 2 ==> FailedWith(checks, RiskLevel(checks))
  {
    forall k | 0 <= k < |checks| && !checks[k].passed && SeverityRank(checks[k].severity) >= 2
      ensures SeverityRank(checks[k].severity) <= SeverityRank(RiskLevel(checks))
    {
      assert FailedWith(checks, checks[k].severity);
    }
  }

  /** How the verdict is explained: the failed reasons, or where the user connected from. */
  datatype Summary = Denied(reasons: seq<Reason>) | AllowedFrom(country: string, city: string) | UnknownPlatform(name: string)

  /** `_format_compliance_reason`. */
  function FormatReason(checks: seq<CheckOutcome>, loc: Location): (r: Summary)
    ensures r.AllowedFrom? <==> AllPassed(checks)
    ensures r.Denied? ==> r.reasons == FailedReasons(checks) && |r.reasons| > 0
    ensures r.AllowedFrom? ==> r.country == loc.country && r.city == loc.city
  {
    var failed := FailedReasons(checks);
    if |failed| > 0 then Denied(failed) else AllowedFrom(loc.country, loc.city)
  }

  datatype ComplianceResult = ComplianceResult(
    platform: string,
    allowed: bool,
    summary: Summary,
    riskLevel: Severity,
    restrictions: seq<Reason>)

  /** The verdict of `check_platform_access` for a user at `loc`. */
  function CheckPlatformAccess(platform: string, loc: Location, age: Option<int>, kycVerified: bool): (r: ComplianceResult)
    ensures r.platform == platform
    ensures PolicyFor(platform).None? ==>
              !r.allowed && r.riskLevel == Critical && r.restrictions == [PlatformNotSupported]
              && r.summary == UnknownPlatform(platform)
    ensures PolicyFor(platform).Some? ==>
              var checks := Checks(loc, age, kycVerified, PolicyFor(platform).value);
              (r.allowed <==> AllPassed(checks))
              && r.restrictions == FailedReasons(checks)
              && r.riskLevel == RiskLevel(checks)
              && r.summary == FormatReason(checks, loc)
    ensures r.allowed <==> r.restrictions == []
    ensures r.allowed ==> r.riskLevel == Low
  {
    match PolicyFor(platform)
    case None => ComplianceResult(platform, false, UnknownPlatform(platform), Critical, [PlatformNotSupported])
    case Some(policy) =>
      var checks := Checks(loc, age, kycVerified, policy);
      ComplianceResult(platform, AllPassed(checks), FormatReason(checks, loc), RiskLevel(checks), FailedReasons(checks))
  }

  /** Access is granted exactly when each of the four policy conditions holds. */
  lemma AccessConditions(platform: string, loc: Location, age: Option<int>, kycVerified: bool)
    requires PolicyFor(platform).Some?
    ensures var p := PolicyFor(platform).value;
            CheckPlatformAccess(platform, loc, age, kycVerified).allowed <==>
              loc.countryCode !in p.blockedCountries
              && (|p.allowedCountries| == 0 || loc.countryCode in p.allowedCountries)
              && !(UsesAnonymiser(loc) && p.vpnPolicy == Block)
              && !(p.requiresKyc && !kycVerified)
              && !(age.Some? && age.value < p.minAge)
  {
    var checks := Checks(loc, age, kycVerified, PolicyFor(platform).value);
    assert AllPassed(checks) <==> checks[0].passed && checks[1].passed && checks[2].passed && checks[3].passed;
  }

  /** Kalshi admits only users connecting from the United States. */
  lemma KalshiIsUsOnly(loc: Location, age: Option<int>, kycVerified: bool)
    requires loc.countryCode != "US"
    ensures !CheckPlatformAccess("kalshi", loc, age, kycVerified).allowed
    ensures CheckPlatformAccess("kalshi", loc, age, kycVerified).riskLevel in {High, Critical}
  {
    var checks := Checks(loc, age, kycVerified, PolicyFor("kalshi").value);
    assert !checks[0].passed;
    assert checks[0].severity in {High, Critical};
  }

  /** Polymarket turns away users connecting from the United States, with critical risk. */
  lemma PolymarketBlocksUs(loc: Location, age: Option<int>, kycVerified: bool)
    requires loc.countryCode == "US"
    ensures !CheckPlatformAccess("polymarket", loc, age, kycVerified).allowed
    ensures CheckPlatformAccess("polymarket", loc, age, kycVerified).riskLevel == Critical
  {
    var checks := Checks(loc, age, kycVerified, PolicyFor("polymarket").value);
    assert !checks[0].passed && checks[0].severity == Critical;
  }

  /** No check fails with medium severity (the anonymiser warning passes), so a
      verdict is never rated medium. */
  lemma VerdictNeverMedium(platform: string, loc: Location, age: Option<int>, kycVerified: bool)
    ensures CheckPlatformAccess(platform, loc, age, kycVerified).riskLevel in {Low, High, Critical}
  {
    if PolicyFor(platform).Some? {
      var checks := Checks(loc, age, kycVerified, PolicyFor(platform).value);
      assert !FailedWith(checks, Medium) by {
        forall k | 0 <= k < 4 && !checks[k].passed
          ensures checks[k].severity != Medium
        {
        }
      }
    }
  }

  // ---------------------------------------------------------------------------
  // Report
  // ---------------------------------------------------------------------------

  /** Every recorded verdict is about a platform with a policy. */
  predicate KnownPlatformsOnly(history: seq<ComplianceResult>)
  {
    forall k :: 0 <= k < |history| ==> PolicyFor(history[k].platform).Some?
  }

  /** `check_platform_access` with its bookkeeping: the verdict, and the
      checker's history with that verdict appended. A verdict on an unknown
      platform is returned before anything is recorded. */
  function CheckAndRecord(history: seq<ComplianceResult>, platform: string, loc: Location, age: Option<int>, kycVerified: bool)
    : (r: (ComplianceResult, seq<ComplianceResult>))
    ensures r.0 == CheckPlatformAccess(platform, loc, age, kycVerified)
    ensures PolicyFor(platform).Some? ==> r.1 == history + [r.0]
    ensures PolicyFor(platform).None? ==> r.1 == history
    ensures KnownPlatformsOnly(history) ==> KnownPlatformsOnly(r.1)
  {
    var verdict := CheckPlatformAccess(platform, loc, age, kycVerified);
    if PolicyFor(platform).Some? then (verdict, history + [verdict]) else (verdict, history)
  }

  function AllowedCount(history: seq<ComplianceResult>): (r: nat)
    ensures r <= |history|
  {
    if |history| == 0 then 0 else (if history[0].allowed then 1 else 0) + AllowedCount(history[1..])
  }

  /** How many verdicts carry risk level `level`. */
  function LevelCount(history: seq<ComplianceResult>, level: Severity): (r: nat)
    ensures r <= |history|
  {
    if |history| == 0 then 0 else (if history[0].riskLevel == level then 1 else 0) + LevelCount(history[1..], level)
  }

  /** Every verdict is counted under exactly one risk level. */
  lemma {:induction false} LevelCountsCoverHistory(history: seq<ComplianceResult>)
    ensures LevelCount(history, Clear) + LevelCount(history, Low) + LevelCount(history, Medium)
            + LevelCount(history, High) + LevelCount(history, Critical) == |history|
  {
    if |history| > 0 {
      LevelCountsCoverHistory(history[1..]);
    }
  }

  /** Allowed and denied verdicts for one venue. */
  function PlatformCounts(history: seq<ComplianceResult>, platform: string): (r: (nat, nat))
    ensures r.0 + r.1 <= |history|
    ensures r.0 <= AllowedCount(history)
  {
    if |history| == 0 then (0, 0)
    else
      var rest := PlatformCounts(history[1..], platform);
      if history[0].platform != platform then rest
      else if history[0].allowed then (rest.0 + 1, rest.1)
      else (rest.0, rest.1 + 1)
  }

  datatype Report = Report(
    totalChecks: nat,
    allowedCount: nat,
    deniedCount: nat,
    approvalRate: real,
    riskDistribution: map<Severity, nat>,
    platformStats: map<string, (nat, nat)>,
    recent: seq<ComplianceResult>)

  const RecentShown := 10

  /** The last (up to) ten verdicts. */
  function Recent(history: seq<ComplianceResult>): (r: seq<ComplianceResult>)
    ensures |r| == if |history| < RecentShown then |history| else RecentShown
    ensures forall k :: 0 <= k < |r| ==> r[k] == history[|history| - |r| + k]
  {
    if |history| < RecentShown then history else history[|history| - RecentShown..]
  }

  /** `get_compliance_report`. */
  function ComplianceReport(history: seq<ComplianceResult>): (r: Report)
    ensures r.totalChecks == |history|
    ensures r.allowedCount + r.deniedCount == r.totalChecks
    ensures r.allowedCount == AllowedCount(history)
    ensures PercentOf(r.approvalRate, r.allowedCount as real, r.totalChecks as real)
    ensures 0.0 <= r.approvalRate <= 100.0
    ensures forall level :: level in r.riskDistribution <==> LevelCount(history, level) > 0
    ensures forall level :: level in r.riskDistribution ==> r.riskDistribution[level] == LevelCount(history, level)
    ensures forall p :: p in r.platformStats <==> exists k :: 0 <= k < |history| && history[k].platform == p
    ensures forall p :: p in r.platformStats ==> r.platformStats[p] == PlatformCounts(history, p)
    ensures |history| == 0 ==> r.riskDistribution == map[] && r.recent == []
    ensures r.recent == Recent(history)
  {
    var total := |history|;
    var allowed := AllowedCount(history);
    var rate := Percent(allowed as real, total as real);
    assert rate <= 100.0 by {
      if total > 0 {
        RateAtMostHundred(allowed as real, total as real, rate);
      }
    }
    var dist := map level | level in {Clear, Low, Medium, High, Critical} && LevelCount(history, level) > 0 :: LevelCount(history, level);
    var stats := map p | p in (set k | 0 <= k < |history| :: history[k].platform) :: PlatformCounts(history, p);
    Report(total, allowed, total - allowed, rate, dist, stats, Recent(history))
  }

  lemma RateAtMostHundred(part: real, whole: real, pct: real)
    requires 0.0 <= part <= whole && whole > 0.0
    requires pct * whole == part * 100.0
    ensures 0.0 <= pct <= 100.0
  {
    if pct > 100.0 {
      assert false;
    }
    if pct < 0.0 {
      assert false;
    }
  }
}

=== FILE: fees.dfy ===
/** Fee-aware profitability of a two-leg arbitrage (fee_aware_calculator.py).
    A leg buys one outcome on one platform; buying YES on one market and NO on
    an equivalent market pays out exactly one unit whatever happens, so the
    trade is worth taking when both prices plus the per-unit fees stay below 1. */
module Fees {
  import opened Common

  // ---------------------------------------------------------------------------
  // Fee table
  // ---------------------------------------------------------------------------

  /** One row of the static fee table; a key the source's dictionary lacks is `None`. */
  datatype FeeSchedule = FeeSchedule(
    tradingFeePercent: real,
    withdrawalFeeUsd: Option<real>,
    gasFeeAvgUsdc: Option<real>,
    gasFeeMaxUsdc: Option<real>,
    maxFeePerContract: Option<real>)

  /** The fee table; an unlisted platform gets the empty row (no fee at all). */
  function Schedule(p: Platform): FeeSchedule
  {
    match p
    case Polymarket => FeeSchedule(0.0, None, Some(0.05), Some(0.20), None)
    case Kalshi => FeeSchedule(0.70, Some(2.00), None, None, Some(1.00))
    case Manifold => FeeSchedule(0.0, None, None, None, None)
    case Unlisted(_) => FeeSchedule(0.0, None, None, None, None)
  }

  datatype FeeStructure = FeeStructure(
    platform: Platform,
    tradingFee: real,
    fixedFee: real,
    gasFee: real,
    totalFeePercent: real,
    totalFeeAbsolute: real)

  /** Upper bound on the gas fee: the table's maximum, else four times the average. */
  function GasCap(s: FeeSchedule): real
    requires s.gasFeeAvgUsdc.Some?
  {
    match s.gasFeeMaxUsdc
    case Some(m) => m
    case None => s.gasFeeAvgUsdc.value * 4.0
  }

  /** The fee one leg pays: a percentage of the notional (capped per contract on
      Kalshi), half of a withdrawal fee, and a gas fee bounded by the table. */
  function PlatformFee(platform: Platform, size: real, price: real, gasMultiplier: real): (f: FeeStructure)
    ensures f.platform == platform
    ensures platform == Kalshi ==> f.tradingFee <= 1.00
    ensures platform == Kalshi ==> f.tradingFee == Min(size * price * 0.70 / 100.0, 1.00)
    ensures platform != Kalshi ==> f.tradingFee == size * price * Schedule(platform).tradingFeePercent / 100.0
    ensures Schedule(platform).gasFeeAvgUsdc.None? ==> f.gasFee == 0.0
    ensures Schedule(platform).gasFeeAvgUsdc.Some? ==> f.gasFee <= GasCap(Schedule(platform))
    ensures Schedule(platform).gasFeeAvgUsdc.Some? ==>
              f.gasFee == Min(Schedule(platform).gasFeeAvgUsdc.value * gasMultiplier, GasCap(Schedule(platform)))
    ensures f.fixedFee == (match Schedule(platform).withdrawalFeeUsd case Some(w) => w / 2.0 case None => 0.0)
    ensures f.totalFeeAbsolute == f.tradingFee + f.fixedFee + f.gasFee
    ensures size >= 0.0 && price >= 0.0 && gasMultiplier >= 0.0 ==> f.totalFeeAbsolute >= 0.0
    ensures PercentOf(f.totalFeePercent, f.totalFeeAbsolute, size * price)
  {
    var cfg := Schedule(platform);
    var rawTrading := size * price * (cfg.tradingFeePercent / 100.0);
    var fixed := match cfg.withdrawalFeeUsd case Some(w) => w / 2.0 case None => 0.0;
    var gas := match cfg.gasFeeAvgUsdc
      case Some(avg) => Min(avg * gasMultiplier, GasCap(cfg))
      case None => 0.0;
    var trading := if platform == Kalshi
      then Min(rawTrading, match cfg.maxFeePerContract case Some(m) => m case None => 1.0)
      else rawTrading;
    var total := trading + fixed + gas;
    var invested := size * price;
    var percent := Percent(total, invested);
    assert size >= 0.0 && price >= 0.0 ==> invested >= 0.0;
    FeeStructure(platform, trading, fixed, gas, percent, total)
  }

  // ---------------------------------------------------------------------------
  // Two-leg strategies
  // ---------------------------------------------------------------------------

  datatype Side = Yes | No

  /** A market snapshot as the calculator reads it; a missing price reads as 0. */
  datatype FeeMarket = FeeMarket(
    platform: Platform,
    question: string,
    yesPrice: real,
    noPrice: real,
    liquidity: real)

  function PriceOf(m: FeeMarket, s: Side): real
  {
    match s
    case Yes => m.yesPrice
    case No => m.noPrice
  }

  datatype CalculatorConfig = CalculatorConfig(
    minRoiPercent: real,
    maxTotalFeePercent: real,
    gasMultiplier: real)

  /** The defaults of `FeeAwareArbitrageCalculator.__init__`. */
  const DefaultCalculator := CalculatorConfig(1.0, 2.0, 1.0)

  datatype Opportunity = Opportunity(
    marketA: FeeMarket,
    marketB: FeeMarket,
    sideA: Side,
    sideB: Side,
    priceA: real,
    priceB: real,
    rawCost: real,
    feeA: FeeStructure,
    feeB: FeeStructure,
    totalFees: real,
    totalCost: real,
    expectedReturn: real,
    grossProfit: real,
    netProfit: real,
    roiPercent: real,
    isValid: bool,
    meetsMinRoi: bool,
    confidence: real)

  /** Confidence of an opportunity: an ROI factor (full marks at 5%), a fee
      penalty (largest at 2% average fee) and a min-leg liquidity factor. */
  function FeeConfidence(liquidityA: real, liquidityB: real, feePercentA: real, feePercentB: real, roi: real): (c: real)
    ensures 0.0 <= c <= 1.0
  {
    Clamp(ConfidenceBase(feePercentA, feePercentB, roi) * LiquidityFactor(Min(liquidityA, liquidityB)), 0.0, 1.0)
  }

  function ConfidenceBase(feePercentA: real, feePercentB: real, roi: real): real
  {
    var roiScore := Min(roi / 5.0, 1.0);
    var feePenalty := Min((feePercentA + feePercentB) / 2.0 / 2.0, 1.0);
    (0.5 + roiScore * 0.5) * (1.0 - feePenalty * 0.3)
  }

  function LiquidityFactor(minLiquidity: real): real
  {
    if minLiquidity < 10000.0 then 0.7
    else if minLiquidity < 50000.0 then 0.85
    else 1.0
  }

  /** With non-negative fees the unclamped confidence is at most the liquidity
      factor: thin books cap it at 0.7 (under 10000) or 0.85 (under 50000), and
      more liquidity never lowers it. */
  lemma FeeConfidenceLiquidityTiers(liquidityA: real, liquidityB: real, feePercentA: real, feePercentB: real, roi: real)
    requires feePercentA + feePercentB >= 0.0
    ensures Min(liquidityA, liquidityB) < 10000.0 ==> FeeConfidence(liquidityA, liquidityB, feePercentA, feePercentB, roi) <= 0.7
    ensures Min(liquidityA, liquidityB) < 50000.0 ==> FeeConfidence(liquidityA, liquidityB, feePercentA, feePercentB, roi) <= 0.85
  {
    var roiScore := Min(roi / 5.0, 1.0);
    var feePenalty := Min((feePercentA + feePercentB) / 2.0 / 2.0, 1.0);
    var x, y := 0.5 + roiScore * 0.5, 1.0 - feePenalty * 0.3;
    assert x <= 1.0 && 0.7 <= y <= 1.0;
    var b := ConfidenceBase(feePercentA, feePercentB, roi);
    assert b == x * y;
    assert b <= 1.0 by {
      if x >= 0.0 { assert x * y <= x * 1.0; } else { assert x * y <= 0.0; }
    }
  }

  lemma FeeConfidenceMonotoneInLiquidity(l1: real, l2: real, feePercentA: real, feePercentB: real, roi: real, other: real)
    requires l1 <= l2
    requires ConfidenceBase(feePercentA, feePercentB, roi) >= 0.0
    ensures FeeConfidence(l1, other, feePercentA, feePercentB, roi) <= FeeConfidence(l2, other, feePercentA, feePercentB, roi)
  {
    assert LiquidityFactor(Min(l1, other)) <= LiquidityFactor(Min(l2, other));
    var b := ConfidenceBase(feePercentA, feePercentB, roi);
    assert b * LiquidityFactor(Min(l1, other)) <= b * LiquidityFactor(Min(l2, other));
  }

  lemma ValidIffProfitable(pa: real, pb: real, fees: real, size: real)
    ensures size > 0.0 ==> (pa + pb + fees / size < 1.0 <==> size - ((pa + pb) * size + fees) > 0.0)
  {
    if size > 0.0 {
    var q := fees / size;
    var m := 1.0 - pa - pb - q;
    assert q * size == fees;
    assert size - ((pa + pb) * size + fees) == size * m;
    if m > 0.0 { assert size * m > 0.0; }
    if m <= 0.0 { assert size * m <= 0.0; }
    }
  }

  /** The figures of one strategy once both legs' prices and fees are known. */
  function StrategyFigures(a: FeeMarket, b: FeeMarket, sideA: Side, sideB: Side, pa: real, pb: real,
                           feeA: FeeStructure, feeB: FeeStructure, size: real, cfg: CalculatorConfig): (o: Opportunity)
    requires size != 0.0
    ensures o.marketA == a && o.marketB == b && o.sideA == sideA && o.sideB == sideB
    ensures o.priceA == pa && o.priceB == pb && o.rawCost == pa + pb
    ensures o.feeA == feeA && o.feeB == feeB
    ensures o.totalFees == feeA.totalFeeAbsolute + feeB.totalFeeAbsolute
    ensures o.isValid <==> pa + pb + o.totalFees / size < 1.0
    ensures size > 0.0 ==> (o.isValid <==> o.netProfit > 0.0)
    ensures o.grossProfit - o.netProfit == o.totalFees
    ensures o.expectedReturn == size
    ensures o.totalCost == o.rawCost * size + o.totalFees
    ensures o.netProfit == o.expectedReturn - o.totalCost
    ensures o.meetsMinRoi <==> o.roiPercent >= cfg.minRoiPercent
    ensures PercentOf(o.roiPercent, o.netProfit, o.totalCost)
    ensures 0.0 <= o.confidence <= 1.0
    ensures o.confidence == FeeConfidence(a.liquidity, b.liquidity, feeA.totalFeePercent, feeB.totalFeePercent, o.roiPercent)
  {
    var totalFees := feeA.totalFeeAbsolute + feeB.totalFeeAbsolute;
    var totalCost := (pa + pb) * size + totalFees;
    var expectedReturn := size * 1.0;
    var gross := expectedReturn - (pa + pb) * size;
    var net := expectedReturn - totalCost;
    var roi := Percent(net, totalCost);
    var valid := pa + pb + totalFees / size < 1.0;
    ValidIffProfitable(pa, pb, totalFees, size);
    Opportunity(a, b, sideA, sideB, pa, pb, pa + pb, feeA, feeB, totalFees, totalCost,
      expectedReturn, gross, net, roi, valid, roi >= cfg.minRoiPercent,
      FeeConfidence(a.liquidity, b.liquidity, feeA.totalFeePercent, feeB.totalFeePercent, roi))
  }

  /** One strategy: buy `sideA` on market A and `sideB` on market B. A zero leg
      price, or a zero size (the per-unit fee divides by it and the source's
      exception handler swallows the error), yields no opportunity. */
  function EvaluateStrategy(a: FeeMarket, b: FeeMarket, sideA: Side, sideB: Side, size: real, cfg: CalculatorConfig): (r: Option<Opportunity>)
    ensures PriceOf(a, sideA) == 0.0 || PriceOf(b, sideB) == 0.0 || size == 0.0 <==> r.None?
    ensures r.Some? ==> r.value.marketA == a && r.value.marketB == b
    ensures r.Some? ==> r.value.sideA == sideA && r.value.sideB == sideB
    ensures r.Some? ==> r.value.priceA == PriceOf(a, sideA) && r.value.priceB == PriceOf(b, sideB)
    ensures r.Some? ==> r.value.feeA == PlatformFee(a.platform, size, PriceOf(a, sideA), cfg.gasMultiplier)
    ensures r.Some? ==> r.value.feeB == PlatformFee(b.platform, size, PriceOf(b, sideB), cfg.gasMultiplier)
    ensures r.Some? ==> (r.value.isValid <==> r.value.priceA + r.value.priceB + r.value.totalFees / size < 1.0)
    ensures r.Some? && size > 0.0 ==> (r.value.isValid <==> r.value.netProfit > 0.0)
    ensures r.Some? ==> r.value.grossProfit - r.value.netProfit == r.value.totalFees
    ensures r.Some? ==> r.value.netProfit == size - r.value.totalCost
    ensures r.Some? ==> (r.value.meetsMinRoi <==> r.value.roiPercent >= cfg.minRoiPercent)
    ensures r.Some? ==> PercentOf(r.value.roiPercent, r.value.netProfit, r.value.totalCost)
    ensures r.Some? ==> 0.0 <= r.value.confidence <= 1.0
    ensures r.Some? ==>
              r.value.confidence == FeeConfidence(a.liquidity, b.liquidity, r.value.feeA.totalFeePercent, r.value.feeB.totalFeePercent, r.value.roiPercent)
  {
    var pa, pb := PriceOf(a, sideA), PriceOf(b, sideB);
    if pa == 0.0 || pb == 0.0 || size == 0.0 then None
    else
      var feeA := PlatformFee(a.platform, size, pa, cfg.gasMultiplier);
      var feeB := PlatformFee(b.platform, size, pb, cfg.gasMultiplier);
      var o := StrategyFigures(a, b, sideA, sideB, pa, pb, feeA, feeB, size, cfg);
      Some(o)
  }

  /** The starting "best ROI" of the selection loop. */
  const RoiSentinel: real := -999999.0

  predicate Qualifies(o: Option<Opportunity>)
  {
    o.Some? && o.value.isValid && o.value.roiPercent > RoiSentinel
  }

  /** Evaluates (yes on A, no on B) and then (no on A, yes on B) and keeps the
      valid one with the strictly highest ROI, so a tie goes to the first. */
  function CalculateOpportunity(a: FeeMarket, b: FeeMarket, size: real, cfg: CalculatorConfig): (r: Option<Opportunity>)
    ensures r.Some? ==> r.value.isValid
    ensures r.Some? <==> Qualifies(EvaluateStrategy(a, b, Yes, No, size, cfg)) || Qualifies(EvaluateStrategy(a, b, No, Yes, size, cfg))
    ensures r.Some? ==> r == EvaluateStrategy(a, b, Yes, No, size, cfg) || r == EvaluateStrategy(a, b, No, Yes, size, cfg)
    ensures r.Some? && Qualifies(EvaluateStrategy(a, b, Yes, No, size, cfg)) ==>
              r.value.roiPercent >= EvaluateStrategy(a, b, Yes, No, size, cfg).value.roiPercent
    ensures r.Some? && Qualifies(EvaluateStrategy(a, b, No, Yes, size, cfg)) ==>
              r.value.roiPercent >= EvaluateStrategy(a, b, No, Yes, size, cfg).value.roiPercent
    ensures r.Some? && r.value.sideA == No ==>
              !Qualifies(EvaluateStrategy(a, b, Yes, No, size, cfg)) ||
              r.value.roiPercent > EvaluateStrategy(a, b, Yes, No, size, cfg).value.roiPercent
  {
    var first := EvaluateStrategy(a, b, Yes, No, size, cfg);
    var second := EvaluateStrategy(a, b, No, Yes, size, cfg);
    var best := if Qualifies(first) then first else None;
    var bestRoi := if Qualifies(first) then first.value.roiPercent else RoiSentinel;
    if Qualifies(second) && second.value.roiPercent > bestRoi then second else best
  }

  // ---------------------------------------------------------------------------
  // Batch scan
  // ---------------------------------------------------------------------------

  /** `_are_similar_markets`: word-set Jaccard above one half. */
  predicate SimilarMarkets(a: FeeMarket, b: FeeMarket)
  {
    Jaccard(Words(a.question), Words(b.question)) > 0.5
  }

  lemma SimilarMarketsHaveWords(a: FeeMarket, b: FeeMarket)
    requires SimilarMarkets(a, b)
    ensures Words(a.question) != {} && Words(b.question) != {}
  {
  }

  /** The opportunity a pair contributes to the batch, if any. */
  function PairOpportunity(a: FeeMarket, b: FeeMarket, size: real, cfg: CalculatorConfig): (r: Option<Opportunity>)
    ensures r.Some? ==> a.platform != b.platform && SimilarMarkets(a, b)
    ensures r.Some? ==> r.value.isValid && r.value.meetsMinRoi
    ensures r.Some? ==> r.value.marketA == a && r.value.marketB == b
  {
    if a.platform == b.platform || !SimilarMarkets(a, b) then None
    else
      var o := CalculateOpportunity(a, b, size, cfg);
      if o.Some? && o.value.isValid && o.value.meetsMinRoi then o else None
  }

  /** What the batch scan reports: a valid opportunity between similar markets
      on different platforms that meets the minimum ROI. */
  predicate Reportable(o: Opportunity)
  {
    o.isValid && o.meetsMinRoi && o.marketA.platform != o.marketB.platform && SimilarMarkets(o.marketA, o.marketB)
  }

  /** The scan's view of pair `(i, j)` of `markets`. */
  function PairPick(markets: seq<FeeMarket>, size: real, cfg: CalculatorConfig): ((nat, nat)) -> Option<Opportunity>
  {
    (p: (nat, nat)) => if p.0 < p.1 < |markets| then PairOpportunity(markets[p.0], markets[p.1], size, cfg) else None
  }

  function Roi(o: Opportunity): real
  {
    o.roiPercent
  }

  lemma PickedIsReportable(markets: seq<FeeMarket>, size: real, cfg: CalculatorConfig, o: Opportunity)
    requires o in CollectSome(Pairs(|markets|), PairPick(markets, size, cfg))
    ensures Reportable(o)
    ensures exists i, j :: 0 <= i < j < |markets| && PairOpportunity(markets[i], markets[j], size, cfg) == Some(o)
  {
    var pick := PairPick(markets, size, cfg);
    var p := CollectedIsPicked(Pairs(|markets|), pick, o);
    assert PairOpportunity(markets[p.0], markets[p.1], size, cfg) == Some(o);
  }

  lemma PairIsPicked(markets: seq<FeeMarket>, size: real, cfg: CalculatorConfig, i: nat, j: nat)
    requires i < j < |markets| && PairOpportunity(markets[i], markets[j], size, cfg).Some?
    ensures PairOpportunity(markets[i], markets[j], size, cfg).value in CollectSome(Pairs(|markets|), PairPick(markets, size, cfg))
  {
    var pick := PairPick(markets, size, cfg);
    assert pick((i, j)) == PairOpportunity(markets[i], markets[j], size, cfg);
    PickedIsCollected(|markets|, pick, i, j);
  }

  /** `find_opportunities_batch`: every cross-platform, similar pair `i < j`
      with a valid opportunity meeting the minimum ROI, best ROI first. */
  /** The index pairs `i < j` whose opportunity is `o`. */
  function PairsGiving(markets: seq<FeeMarket>, size: real, cfg: CalculatorConfig, o: Opportunity): set<(nat, nat)>
  {
    set i: nat, j: nat | i < j < |markets| && PairOpportunity(markets[i], markets[j], size, cfg) == Some(o) :: (i, j)
  }

  /** The scan collects `o` once for every pair whose opportunity it is. */
  lemma PairCount(markets: seq<FeeMarket>, size: real, cfg: CalculatorConfig, o: Opportunity)
    ensures multiset(CollectSome(Pairs(|markets|), PairPick(markets, size, cfg)))[o] == |PairsGiving(markets, size, cfg, o)|
  {
    var pick := PairPick(markets, size, cfg);
    PairsCount(|markets|, pick, o);
    forall i: nat, j: nat | i < j < |markets|
      ensures pick((i, j)) == PairOpportunity(markets[i], markets[j], size, cfg)
    {
    }
    assert (set i: nat, j: nat | i < j < |markets| && pick((i, j)) == Some(o) :: (i, j))
           == PairsGiving(markets, size, cfg, o);
  }

  /** What the pair scan collects, before sorting: each qualifying pair's
      opportunity, once per pair, and nothing else. */
  lemma CollectedPairs(markets: seq<FeeMarket>, size: real, cfg: CalculatorConfig)
    ensures var found := CollectSome(Pairs(|markets|), PairPick(markets, size, cfg));
      && (forall o :: multiset(found)[o] == |PairsGiving(markets, size, cfg, o)|)
      && (forall o :: o in found ==> Reportable(o))
      && (forall o :: o in found ==>
            exists i, j :: 0 <= i < j < |markets| && PairOpportunity(markets[i], markets[j], size, cfg) == Some(o))
      && (forall i, j :: 0 <= i < j < |markets| && PairOpportunity(markets[i], markets[j], size, cfg).Some? ==>
            PairOpportunity(markets[i], markets[j], size, cfg).value in found)
  {
    var found := CollectSome(Pairs(|markets|), PairPick(markets, size, cfg));
    forall o | o in found
      ensures Reportable(o)
      ensures exists i, j :: 0 <= i < j < |markets| && PairOpportunity(markets[i], markets[j], size, cfg) == Some(o)
    {
      PickedIsReportable(markets, size, cfg, o);
    }
    forall i, j | 0 <= i < j < |markets| && PairOpportunity(markets[i], markets[j], size, cfg).Some?
      ensures PairOpportunity(markets[i], markets[j], size, cfg).value in found
    {
      PairIsPicked(markets, size, cfg, i, j);
    }
    forall o
      ensures multiset(found)[o] == |PairsGiving(markets, size, cfg, o)|
    {
      PairCount(markets, size, cfg, o);
    }
  }

  function FindOpportunitiesBatch(markets: seq<FeeMarket>, size: real, cfg: CalculatorConfig): (r: seq<Opportunity>)
    ensures SortedDesc(r, Roi)
    ensures forall o :: multiset(r)[o] == |PairsGiving(markets, size, cfg, o)|
    ensures forall o :: o in r ==> Reportable(o)
    ensures forall o :: o in r ==>
              exists i, j :: 0 <= i < j < |markets| && PairOpportunity(markets[i], markets[j], size, cfg) == Some(o)
    ensures forall i, j :: 0 <= i < j < |markets| && PairOpportunity(markets[i], markets[j], size, cfg).Some? ==>
              PairOpportunity(markets[i], markets[j], size, cfg).value in r
  {
    var found := CollectSome(Pairs(|markets|), PairPick(markets, size, cfg));
    var r := SortDesc(found, Roi);
    CollectedPairs(markets, size, cfg);
    assert forall o :: o in r <==> o in found by {
      forall o
        ensures o in r <==> o in found
      {
        assert o in r <==> o in multiset(r);
      }
    }
    r
  }
}

=== FILE: hedge.dfy ===
/** Delta hedging of an open two-leg position (`DeltaHedgeEngine` and
    `PositionManager` in delta_hedge_api.py): one opposite-side order per leg
    sized as a percentage of the position, its estimated cost, the
    mark-to-market profit and loss, the threshold rule that picks a full or a
    half hedge, and the keyed store of positions. */
module Hedge {
  import opened Common

  /** An open position: the same `size` on leg A and leg B. A current price is
      absent until the first quote arrives. */
  datatype HedgePosition = HedgePosition(
    positionId: string,
    marketA: string,
    marketB: string,
    platformA: string,
    platformB: string,
    sideA: string,
    sideB: string,
    size: real,
    entryPriceA: real,
    entryPriceB: real,
    currentPriceA: Option<real>,
    currentPriceB: Option<real>,
    isHedged: bool)

  /** Python's truthiness of an optional price: absent and 0.0 are both false. */
  predicate Quoted(p: Option<real>)
  {
    p.Some? && p.value != 0.0
  }

  /** `current or entry`: the quote when it is truthy, otherwise the entry price. */
  function MarkPrice(current: Option<real>, entry: real): (r: real)
    ensures Quoted(current) ==> r == current.value
    ensures !Quoted(current) ==> r == entry
  {
    if Quoted(current) then current.value else entry
  }

  /** The side that offsets `side`: "no" for "yes", and "yes" for anything else. */
  function OppositeSide(side: string): (r: string)
    ensures r == "yes" || r == "no"
    ensures r == "no" <==> side == "yes"
  {
    if side == "yes" then "no" else "yes"
  }

  /** On the two sides the source uses, taking the opposite twice is the identity. */
  lemma OppositeSideInvolution(side: string)
    requires side == "yes" || side == "no"
    ensures OppositeSide(OppositeSide(side)) == side
  {
  }

  /** The price of the offsetting contract: one minus the mark for a "yes" leg, the mark otherwise. */
  function HedgePrice(side: string, mark: real): (r: real)
    ensures side == "yes" ==> r + mark == 1.0
    ensures side != "yes" ==> r == mark
    ensures 0.0 <= mark <= 1.0 ==> 0.0 <= r <= 1.0
  {
    if side == "yes" then 1.0 - mark else mark
  }

  datatype HedgeOrder = HedgeOrder(
    platform: string,
    marketId: string,
    side: string,
    size: real,
    estimatedPrice: real,
    estimatedCost: real)

  datatype Recommendation = Execute | Hold

  datatype HedgePlan = HedgePlan(
    orders: seq<HedgeOrder>,
    totalCost: real,
    currentPnl: real,
    lockedProfit: real,
    hedgePercentage: real,
    recommendation: Recommendation)

  /** `o` offsets `hedgeSize` contracts of a leg held on `side` at mark `mark`:
      same venue and market, the opposite side, priced at the offsetting
      contract's price. */
  predicate Offsets(o: HedgeOrder, platform: string, market: string, side: string, mark: real, hedgeSize: real)
  {
    o.platform == platform && o.marketId == market && o.size == hedgeSize
    && o.side == OppositeSide(side) && o.estimatedPrice == HedgePrice(side, mark)
    && o.estimatedCost == hedgeSize * o.estimatedPrice
  }

  /** The order offsetting one leg held on `side` at mark `mark`. */
  function LegOrder(platform: string, market: string, side: string, mark: real, hedgeSize: real): (o: HedgeOrder)
    ensures Offsets(o, platform, market, side, mark, hedgeSize)
  {
    HedgeOrder(platform, market, OppositeSide(side), hedgeSize, HedgePrice(side, mark), hedgeSize * HedgePrice(side, mark))
  }

  function OrderA(p: HedgePosition, hedgeSize: real): HedgeOrder
  {
    LegOrder(p.platformA, p.marketA, p.sideA, MarkPrice(p.currentPriceA, p.entryPriceA), hedgeSize)
  }

  function OrderB(p: HedgePosition, hedgeSize: real): HedgeOrder
  {
    LegOrder(p.platformB, p.marketB, p.sideB, MarkPrice(p.currentPriceB, p.entryPriceB), hedgeSize)
  }

  /** `_calculate_pnl`: the change in value of both legs since entry, or 0
      unless both legs have a truthy current price. */
  function Pnl(p: HedgePosition): (r: real)
    ensures !(Quoted(p.currentPriceA) && Quoted(p.currentPriceB)) ==> r == 0.0
    ensures Quoted(p.currentPriceA) && Quoted(p.currentPriceB) ==>
              r == p.size * (p.currentPriceA.value - p.entryPriceA) + p.size * (p.currentPriceB.value - p.entryPriceB)
  {
    var invested := p.size * (p.entryPriceA + p.entryPriceB);
    if Quoted(p.currentPriceA) && Quoted(p.currentPriceB) then
      p.size * (p.currentPriceA.value + p.currentPriceB.value) - invested
    else 0.0
  }

  /** For a position of non-negative size, a higher quote on a leg never lowers the profit and loss. */
  lemma PnlMonotoneInQuote(p: HedgePosition, higher: real)
    requires p.size >= 0.0 && Quoted(p.currentPriceA) && Quoted(p.currentPriceB)
    requires higher >= p.currentPriceA.value && higher != 0.0
    ensures Pnl(p.(currentPriceA := Some(higher))) >= Pnl(p)
  {
    ProductNonNegative(p.size, higher - p.currentPriceA.value);
    assert p.size * (higher - p.entryPriceA) == p.size * (higher - p.currentPriceA.value) + p.size * (p.currentPriceA.value - p.entryPriceA);
  }

  /** `calculate_hedge`: one order per leg, in leg order, each for
      `size * percentage / 100` contracts on the opposite side; the plan is
      worth executing exactly when the current profit exceeds the hedge cost. */
  function CalculateHedge(p: HedgePosition, percentage: real): (plan: HedgePlan)
    ensures |plan.orders| == 2
    ensures Offsets(plan.orders[0], p.platformA, p.marketA, p.sideA, MarkPrice(p.currentPriceA, p.entryPriceA), p.size * (percentage / 100.0))
    ensures Offsets(plan.orders[1], p.platformB, p.marketB, p.sideB, MarkPrice(p.currentPriceB, p.entryPriceB), p.size * (percentage / 100.0))
    ensures plan.totalCost == plan.orders[0].estimatedCost + plan.orders[1].estimatedCost
    ensures plan.currentPnl == Pnl(p) && plan.lockedProfit + plan.totalCost == plan.currentPnl
    ensures plan.hedgePercentage == percentage
    ensures plan.recommendation == Execute <==> plan.lockedProfit > 0.0
  {
    var hedgeSize := p.size * (percentage / 100.0);
    var orders := [OrderA(p, hedgeSize), OrderB(p, hedgeSize)];
    var total := orders[0].estimatedCost + orders[1].estimatedCost;
    var locked := Pnl(p) - total;
    HedgePlan(orders, total, Pnl(p), locked, percentage, if locked > 0.0 then Execute else Hold)
  }

  /** Hedge cost scales with the percentage: a partial hedge costs that fraction of a full one. */
  lemma HedgeCostProportional(p: HedgePosition, percentage: real)
    ensures CalculateHedge(p, percentage).totalCost * 100.0 == CalculateHedge(p, 100.0).totalCost * percentage
  {
    var pa := HedgePrice(p.sideA, MarkPrice(p.currentPriceA, p.entryPriceA));
    var pb := HedgePrice(p.sideB, MarkPrice(p.currentPriceB, p.entryPriceB));
    var full := CalculateHedge(p, 100.0);
    var part := CalculateHedge(p, percentage);
    var q, whole := percentage / 100.0, p.size * pa + p.size * pb;
    assert q * 100.0 == percentage;
    assert full.totalCost == whole;
    assert part.totalCost == p.size * q * pa + p.size * q * pb;
    assert p.size * q * pa + p.size * q * pb == q * whole;
    assert q * whole * 100.0 == whole * (q * 100.0);
  }

  /** A full hedge of a "yes"/"no" position with both quotes present buys "no"
      on leg A at one minus its quote and "yes" on leg B at its quote. */
  lemma FullHedgeOfYesNo(p: HedgePosition)
    requires p.sideA == "yes" && p.sideB == "no"
    requires Quoted(p.currentPriceA) && Quoted(p.currentPriceB)
    ensures CalculateHedge(p, 100.0).totalCost == p.size * (1.0 - p.currentPriceA.value) + p.size * p.currentPriceB.value
  {
  }

  // ---------------------------------------------------------------------------
  // Threshold-driven hedging
  // ---------------------------------------------------------------------------

  const DefaultProfitThreshold := 50.0
  const DefaultLossThreshold := -20.0
  const FullHedge := 100.0
  const PartialHedge := 50.0

  /** The decision part of `auto_hedge_on_threshold`: the percentage to hedge,
      if any. Profit is checked first, so a profit that also meets the loss
      threshold is fully hedged. */
  function AutoHedgePercentage(p: HedgePosition, profitThreshold: real, lossThreshold: real): (r: Option<real>)
    ensures r == Some(FullHedge) <==> Pnl(p) >= profitThreshold
    ensures r == Some(PartialHedge) <==> Pnl(p) < profitThreshold && Pnl(p) <= lossThreshold
    ensures r.None? <==> lossThreshold < Pnl(p) < profitThreshold
  {
    var pnl := Pnl(p);
    if pnl >= profitThreshold then Some(FullHedge)
    else if pnl <= lossThreshold then Some(PartialHedge)
    else None
  }

  /** The hedge plan the threshold rule asks for. */
  function AutoHedgePlan(p: HedgePosition, profitThreshold: real, lossThreshold: real): (r: Option<HedgePlan>)
    ensures r.Some? <==> AutoHedgePercentage(p, profitThreshold, lossThreshold).Some?
    ensures r.Some? ==> r.value.hedgePercentage == AutoHedgePercentage(p, profitThreshold, lossThreshold).value
    ensures r.Some? ==> r.value.currentPnl == Pnl(p) && |r.value.orders| == 2
    ensures r.Some? ==> r.value == CalculateHedge(p, AutoHedgePercentage(p, profitThreshold, lossThreshold).value)
  {
    match AutoHedgePercentage(p, profitThreshold, lossThreshold)
    case None => None
    case Some(pct) => Some(CalculateHedge(p, pct))
  }

  /** A position without a full pair of quotes has zero profit and loss, so
      with the default thresholds it is never hedged automatically. */
  lemma UnquotedIsNotAutoHedged(p: HedgePosition)
    requires !(Quoted(p.currentPriceA) && Quoted(p.currentPriceB))
    ensures AutoHedgePlan(p, DefaultProfitThreshold, DefaultLossThreshold).None?
  {
  }

  // ---------------------------------------------------------------------------
  // Position store
  // ---------------------------------------------------------------------------

  /** `PositionManager.positions`: a dictionary keyed by position id, which
      remembers the order in which ids were first inserted. */
  datatype Store = Store(order: seq<string>, byId: map<string, HedgePosition>)

  /** The insertion order lists every key exactly once. */
  predicate Valid(s: Store)
  {
    (forall i, j :: 0 <= i < j < |s.order| ==> s.order[i] != s.order[j])
    && s.byId.Keys == set i | 0 <= i < |s.order| :: s.order[i]
  }

  const EmptyStore := Store([], map[])

  lemma EmptyStoreValid()
    ensures Valid(EmptyStore)
  {
  }

  /** `add_position` and `update_position`: store `p` under its id, replacing
      any earlier position with that id and keeping that id's place. */
  function Put(s: Store, p: HedgePosition): (r: Store)
    ensures Valid(s) ==> Valid(r)
    ensures p.positionId in r.byId && r.byId[p.positionId] == p
    ensures forall id :: id != p.positionId ==> (id in r.byId <==> id in s.byId)
    ensures forall id :: id != p.positionId && id in s.byId ==> r.byId[id] == s.byId[id]
    ensures p.positionId in s.byId ==> r.order == s.order
    ensures p.positionId !in s.byId ==> r.order == s.order + [p.positionId]
  {
    if p.positionId in s.byId then Store(s.order, s.byId[p.positionId := p])
    else
      var order := s.order + [p.positionId];
      assert (set i | 0 <= i < |order| :: order[i]) == (set i | 0 <= i < |s.order| :: s.order[i]) + {p.positionId} by {
        assert order[|s.order|] == p.positionId;
        forall i | 0 <= i < |s.order|
          ensures order[i] == s.order[i]
        {
        }
      }
      Store(order, s.byId[p.positionId := p])
  }

  /** `get_position`: the stored position, absent when the id is unknown. */
  function Get(s: Store, id: string): (r: Option<HedgePosition>)
    ensures r.Some? <==> id in s.byId
    ensures r.Some? ==> r.value == s.byId[id]
  {
    if id in s.byId then Some(s.byId[id]) else None
  }

  /** A position just put is the one got back; other ids are unaffected. */
  lemma GetAfterPut(s: Store, p: HedgePosition, id: string)
    ensures Get(Put(s, p), id) == if id == p.positionId then Some(p) else Get(s, id)
  {
  }

  /** Putting the same position twice is the same as putting it once. */
  lemma PutIdempotent(s: Store, p: HedgePosition)
    ensures Put(Put(s, p), p) == Put(s, p)
  {
  }

  /** `get_all_positions`: every stored position once, in insertion order of ids. */
  function GetAll(s: Store): (r: seq<HedgePosition>)
    requires Valid(s)
    ensures |r| == |s.order|
    ensures forall i :: 0 <= i < |r| ==> r[i] == s.byId[s.order[i]]
    ensures forall id :: id in s.byId ==> s.byId[id] in r
  {
    var r := seq(|s.order|, i requires 0 <= i < |s.order| => s.byId[s.order[i]]);
    assert forall id :: id in s.byId ==> s.byId[id] in r by {
      forall id | id in s.byId
        ensures s.byId[id] in r
      {
        var i :| 0 <= i < |s.order| && s.order[i] == id;
        assert r[i] == s.byId[id];
      }
    }
    r
  }

  /** After a put, the listing has one entry per distinct id ever put. */
  lemma GetAllAfterPut(s: Store, p: HedgePosition)
    requires Valid(s)
    ensures |GetAll(Put(s, p))| == |GetAll(s)| + (if p.positionId in s.byId then 0 else 1)
    ensures p in GetAll(Put(s, p))
  {
  }
}

=== FILE: legacy.dfy ===
/** The first-generation engine in prediction-arbitrage-bot.py: pairing markets
    across venues by the Jaccard index of their questions, the fee-blind
    two-leg arbitrage test, the risk-factor list and confidence score attached
    to an opportunity, and the `RiskManager` exposure ledger with its ordered
    approval checks. */
module Legacy {
  import opened Common
  import Fees

  /** A venue's market as the scanner records it. `endDate` is the close time
      in whole seconds since an epoch; only differences of it matter. */
  datatype LegacyMarket = LegacyMarket(
    platform: string,
    marketId: string,
    question: string,
    yesPrice: real,
    noPrice: real,
    volume: real,
    liquidity: real,
    endDate: int,
    resolutionSource: string)

  // ---------------------------------------------------------------------------
  // Question similarity and pairing
  // ---------------------------------------------------------------------------

  /** `_calculate_similarity`: the Jaccard index of the lower-cased,
      whitespace-separated word sets of the two questions. */
  function Similarity(t1: string, t2: string): (r: real)
    ensures 0.0 <= r <= 1.0
    ensures (Words(t1) == {} || Words(t2) == {}) ==> r == 0.0
  {
    Jaccard(Words(t1), Words(t2))
  }

  lemma SimilaritySymmetric(t1: string, t2: string)
    ensures Similarity(t1, t2) == Similarity(t2, t1)
  {
    JaccardSymmetric(Words(t1), Words(t2));
  }

  /** Similarity is 1 exactly when both questions have the same non-empty word set. */
  lemma SimilarityOne(t1: string, t2: string)
    ensures Similarity(t1, t2) == 1.0 <==> (Words(t1) != {} && Words(t1) == Words(t2))
  {
    JaccardOne(Words(t1), Words(t2));
  }

  const DefaultSimilarityThreshold := 0.8

  /** Whether the pair `(i, j)` of `markets` is reported by the pairing scan. */
  predicate SimilarPair(a: LegacyMarket, b: LegacyMarket, threshold: real)
  {
    a.platform != b.platform && Similarity(a.question, b.question) >= threshold
  }

  function SimilarPick(markets: seq<LegacyMarket>, threshold: real): ((nat, nat)) -> Option<(LegacyMarket, LegacyMarket)>
  {
    (p: (nat, nat)) =>
      if p.0 < p.1 < |markets| && SimilarPair(markets[p.0], markets[p.1], threshold)
      then Some((markets[p.0], markets[p.1])) else None
  }

  /** `pr` is the pair `(markets[i], markets[j])` for some `i < j` the scan accepts. */
  predicate PairedFrom(pr: (LegacyMarket, LegacyMarket), markets: seq<LegacyMarket>, threshold: real)
  {
    exists i, j :: 0 <= i < j < |markets| && pr == (markets[i], markets[j]) && SimilarPair(markets[i], markets[j], threshold)
  }

  lemma PickedIsSimilar(markets: seq<LegacyMarket>, threshold: real, pr: (LegacyMarket, LegacyMarket))
    requires pr in CollectSome(Pairs(|markets|), SimilarPick(markets, threshold))
    ensures PairedFrom(pr, markets, threshold)
  {
    var pick := SimilarPick(markets, threshold);
    var p :| p in Pairs(|markets|) && pick(p) == Some(pr);
    assert pr == (markets[p.0], markets[p.1]) && SimilarPair(markets[p.0], markets[p.1], threshold);
  }

  lemma SimilarIsPicked(markets: seq<LegacyMarket>, threshold: real, i: nat, j: nat)
    requires i < j < |markets| && SimilarPair(markets[i], markets[j], threshold)
    ensures (markets[i], markets[j]) in CollectSome(Pairs(|markets|), SimilarPick(markets, threshold))
  {
    var pick := SimilarPick(markets, threshold);
    assert pick((i, j)) == Some((markets[i], markets[j]));
    CollectSomeComplete(Pairs(|markets|), pick, (i, j));
  }

  /** `find_similar_markets`: every pair `i < j` on different venues whose
      questions are at least `threshold` similar, in loop order. */
  /** The index pairs `i < j` the scan accepts with the markets `pr`. */
  function SimilarPairsGiving(markets: seq<LegacyMarket>, threshold: real, pr: (LegacyMarket, LegacyMarket)): set<(nat, nat)>
  {
    set i: nat, j: nat | i < j < |markets| && SimilarPair(markets[i], markets[j], threshold) && (markets[i], markets[j]) == pr
      :: (i, j)
  }

  /** The scan collects `pr` once for every pair it accepts with those markets. */
  lemma SimilarCount(markets: seq<LegacyMarket>, threshold: real, pr: (LegacyMarket, LegacyMarket))
    ensures multiset(CollectSome(Pairs(|markets|), SimilarPick(markets, threshold)))[pr]
            == |SimilarPairsGiving(markets, threshold, pr)|
  {
    var pick := SimilarPick(markets, threshold);
    PairsCount(|markets|, pick, pr);
    forall i: nat, j: nat | i < j < |markets|
      ensures pick((i, j)) == Some(pr) <==> SimilarPair(markets[i], markets[j], threshold) && (markets[i], markets[j]) == pr
    {
    }
    assert (set i: nat, j: nat | i < j < |markets| && pick((i, j)) == Some(pr) :: (i, j))
           == SimilarPairsGiving(markets, threshold, pr);
  }

  function FindSimilarMarkets(markets: seq<LegacyMarket>, threshold: real): (r: seq<(LegacyMarket, LegacyMarket)>)
    ensures forall pr :: pr in r ==> PairedFrom(pr, markets, threshold)
    ensures forall pr :: multiset(r)[pr] == |SimilarPairsGiving(markets, threshold, pr)|
    ensures forall i, j :: 0 <= i < j < |markets| && SimilarPair(markets[i], markets[j], threshold) ==>
              (markets[i], markets[j]) in r
  {
    var r := CollectSome(Pairs(|markets|), SimilarPick(markets, threshold));
    assert forall pr :: pr in r ==> PairedFrom(pr, markets, threshold) by {
      forall pr | pr in r
        ensures PairedFrom(pr, markets, threshold)
      {
        PickedIsSimilar(markets, threshold, pr);
      }
    }
    assert forall i, j :: 0 <= i < j < |markets| && SimilarPair(markets[i], markets[j], threshold) ==>
             (markets[i], markets[j]) in r by {
      forall i, j | 0 <= i < j < |markets| && SimilarPair(markets[i], markets[j], threshold)
        ensures (markets[i], markets[j]) in r
      {
        SimilarIsPicked(markets, threshold, i, j);
      }
    }
    assert forall pr :: multiset(r)[pr] == |SimilarPairsGiving(markets, threshold, pr)| by {
      forall pr
        ensures multiset(r)[pr] == |SimilarPairsGiving(markets, threshold, pr)|
      {
        SimilarCount(markets, threshold, pr);
      }
    }
    r
  }

  // ---------------------------------------------------------------------------
  // Risk factors
  // ---------------------------------------------------------------------------

  const SecondsPerDay := 86400

  /** The end-date gap as the source computes it: Python's `timedelta.days` of
      `end1 - end2` rounds toward negative infinity before `abs` is taken, so a
      gap of a little over a day counts as two days in one order of the
      arguments and as one day in the other. */
  function EndDateGapDaysAsWritten(end1: int, end2: int): (r: int)
    ensures r >= 0
  {
    var d := (end1 - end2) / SecondsPerDay;
    if d < 0 then -d else d
  }

  /** A 25-hour gap is a two-day risk when the first market closes first and
      no risk at all the other way round. */
  lemma EndDateGapAsWrittenIsAsymmetric()
    ensures EndDateGapDaysAsWritten(0, 90000) == 2
    ensures EndDateGapDaysAsWritten(90000, 0) == 1
    ensures EndDateGapDaysAsWritten(0, 90000) != EndDateGapDaysAsWritten(90000, 0)
  {
  }

  /** The intended gap: whole days in the absolute difference of the close times. */
  function EndDateGapDays(end1: int, end2: int): (r: int)
    ensures r >= 0
    ensures r * SecondsPerDay <= (if end1 >= end2 then end1 - end2 else end2 - end1) < (r + 1) * SecondsPerDay
  {
    (if end1 >= end2 then end1 - end2 else end2 - end1) / SecondsPerDay
  }

  lemma EndDateGapDaysSymmetric(end1: int, end2: int)
    ensures EndDateGapDays(end1, end2) == EndDateGapDays(end2, end1)
  {
  }

  /** Both gaps agree whenever the first market closes no earlier than the second. */
  lemma EndDateGapAgreesForward(end1: int, end2: int)
    requires end1 >= end2
    ensures EndDateGapDaysAsWritten(end1, end2) == EndDateGapDays(end1, end2)
  {
  }

  datatype RiskFactor =
    | DifferentResolutionSources
    | LowLiquidity
    | EndDateDifference(days: int)
    | QuestionSimilarity(similarity: real)

  /** The position of each kind of factor in the order the source checks them. */
  function Rank(f: RiskFactor): nat
  {
    match f
    case DifferentResolutionSources => 0
    case LowLiquidity => 1
    case EndDateDifference(_) => 2
    case QuestionSimilarity(_) => 3
  }

  const LowLiquidityBelow := 10000.0
  const SimilarityWanted := 0.95

  /** Whether `f` belongs in the factor list of a pair with these four readings. */
  predicate Wanted(f: RiskFactor, differentSources: bool, lowLiquidity: bool, gap: int, sim: real)
  {
    match f
    case DifferentResolutionSources => differentSources
    case LowLiquidity => lowLiquidity
    case EndDateDifference(days) => gap > 1 && days == gap
    case QuestionSimilarity(s) => sim < SimilarityWanted && s == sim
  }

  /** The factor list for the four readings the source takes of a pair: exactly
      the wanted factors, in check order. */
  function Factors(differentSources: bool, lowLiquidity: bool, gap: int, sim: real): (r: seq<RiskFactor>)
    ensures |r| <= 4
    ensures forall i, j :: 0 <= i < j < |r| ==> Rank(r[i]) < Rank(r[j])
    ensures forall f :: f in r <==> Wanted(f, differentSources, lowLiquidity, gap, sim)
  {
    (if differentSources then [DifferentResolutionSources] else [])
    + LaterFactors(lowLiquidity, gap, sim)
  }

  function LaterFactors(lowLiquidity: bool, gap: int, sim: real): (r: seq<RiskFactor>)
    ensures |r| <= 3
    ensures forall i, j :: 0 <= i < j < |r| ==> 1 <= Rank(r[i]) < Rank(r[j])
    ensures forall k :: 0 <= k < |r| ==> Rank(r[k]) >= 1
    ensures forall f :: f in r <==> Rank(f) >= 1 && Wanted(f, false, lowLiquidity, gap, sim)
  {
    (if lowLiquidity then [LowLiquidity] else []) + DateAndWording(gap, sim)
  }

  function DateAndWording(gap: int, sim: real): (r: seq<RiskFactor>)
    ensures |r| <= 2
    ensures forall i, j :: 0 <= i < j < |r| ==> 2 <= Rank(r[i]) < Rank(r[j])
    ensures forall k :: 0 <= k < |r| ==> Rank(r[k]) >= 2
    ensures forall f :: f in r <==> Rank(f) >= 2 && Wanted(f, false, false, gap, sim)
  {
    if gap > 1 && sim < SimilarityWanted then
      var r := [EndDateDifference(gap), QuestionSimilarity(sim)];
      assert Rank(r[0]) == 2 && Rank(r[1]) == 3;
      r
    else if gap > 1 then [EndDateDifference(gap)]
    else if sim < SimilarityWanted then [QuestionSimilarity(sim)]
    else []
  }

  /** `_assess_risk_factors`: one factor for each of a different resolution
      source, a thin leg, an end-date gap of more than a day and a similarity
      below 0.95, and no others, in that order. */
  function AssessRiskFactors(m1: LegacyMarket, m2: LegacyMarket): (r: seq<RiskFactor>)
    ensures |r| <= 4
    ensures forall i, j :: 0 <= i < j < |r| ==> Rank(r[i]) < Rank(r[j])
    ensures forall f :: f in r <==>
              Wanted(f, m1.resolutionSource != m2.resolutionSource,
                     m1.liquidity < LowLiquidityBelow || m2.liquidity < LowLiquidityBelow,
                     EndDateGapDays(m1.endDate, m2.endDate), Similarity(m1.question, m2.question))
  {
    Factors(m1.resolutionSource != m2.resolutionSource,
            m1.liquidity < LowLiquidityBelow || m2.liquidity < LowLiquidityBelow,
            EndDateGapDays(m1.endDate, m2.endDate),
            Similarity(m1.question, m2.question))
  }

  /** With the intended end-date gap the factor list does not depend on which market comes first. */
  lemma AssessRiskFactorsSymmetric(m1: LegacyMarket, m2: LegacyMarket)
    ensures AssessRiskFactors(m1, m2) == AssessRiskFactors(m2, m1)
  {
    SimilaritySymmetric(m1.question, m2.question);
    EndDateGapDaysSymmetric(m1.endDate, m2.endDate);
  }

  /** When the first market closes no earlier than the second, the factor list
      is the one the source computes with its own end-date gap. */
  lemma AssessRiskFactorsAgreesForward(m1: LegacyMarket, m2: LegacyMarket)
    requires m1.endDate >= m2.endDate
    ensures AssessRiskFactors(m1, m2)
         == Factors(m1.resolutionSource != m2.resolutionSource,
                    m1.liquidity < LowLiquidityBelow || m2.liquidity < LowLiquidityBelow,
                    EndDateGapDaysAsWritten(m1.endDate, m2.endDate),
                    Similarity(m1.question, m2.question))
  {
    EndDateGapAgreesForward(m1.endDate, m2.endDate);
  }

  // ---------------------------------------------------------------------------
  // Confidence score
  // ---------------------------------------------------------------------------

  const FullLiquidity := 100000.0
  const FullVolume := 1000000.0

  /** `min(x1 / full, x2 / full, 1.0)`. */
  function Saturation(x1: real, x2: real, full: real): (r: real)
    requires full > 0.0
    ensures r <= 1.0
    ensures x1 >= 0.0 && x2 >= 0.0 ==> r >= 0.0
    ensures r == 1.0 <==> x1 >= full && x2 >= full
  {
    Min(Min(x1 / full, x2 / full), 1.0)
  }

  /** `_calculate_confidence_score`: one tenth off per risk factor, scaled by
      the thinner leg's liquidity and volume saturation, then clamped to [0, 1]. */
  function ConfidenceScore(m1: LegacyMarket, m2: LegacyMarket, factors: seq<RiskFactor>): (r: real)
    ensures 0.0 <= r <= 1.0
  {
    Scaled(1.0 - |factors| as real * 0.1,
           Saturation(m1.liquidity, m2.liquidity, FullLiquidity),
           Saturation(m1.volume, m2.volume, FullVolume))
  }

  /** `base` scaled by the two saturations and clamped to [0, 1]. */
  function Scaled(base: real, l: real, v: real): (r: real)
    ensures 0.0 <= r <= 1.0
  {
    Max(0.0, Min(1.0, base * l * v))
  }

  /** A factor-free pair with deep, heavily traded legs scores full confidence. */
  lemma ConfidenceScoreFull(m1: LegacyMarket, m2: LegacyMarket)
    requires m1.liquidity >= FullLiquidity && m2.liquidity >= FullLiquidity
    requires m1.volume >= FullVolume && m2.volume >= FullVolume
    ensures ConfidenceScore(m1, m2, []) == 1.0
  {
  }

  /** An empty leg, in liquidity or in volume, scores zero. */
  lemma ConfidenceScoreEmptyLeg(m1: LegacyMarket, m2: LegacyMarket, factors: seq<RiskFactor>)
    requires m1.liquidity >= 0.0 && m2.liquidity >= 0.0 && m1.volume >= 0.0 && m2.volume >= 0.0
    requires m1.liquidity == 0.0 || m1.volume == 0.0
    ensures ConfidenceScore(m1, m2, factors) == 0.0
  {
    var base := 1.0 - |factors| as real * 0.1;
    var l := Saturation(m1.liquidity, m2.liquidity, FullLiquidity);
    var v := Saturation(m1.volume, m2.volume, FullVolume);
    if m1.liquidity == 0.0 {
      assert l == 0.0;
      assert base * l * v == 0.0;
    } else {
      assert v == 0.0;
      assert base * l * v == 0.0;
    }
  }

  /** For non-negative liquidity and volume, more risk factors never raise confidence. */
  lemma ConfidenceScoreAntitone(m1: LegacyMarket, m2: LegacyMarket, fewer: seq<RiskFactor>, more: seq<RiskFactor>)
    requires m1.liquidity >= 0.0 && m2.liquidity >= 0.0 && m1.volume >= 0.0 && m2.volume >= 0.0
    requires |fewer| <= |more|
    ensures ConfidenceScore(m1, m2, more) <= ConfidenceScore(m1, m2, fewer)
  {
    var l := Saturation(m1.liquidity, m2.liquidity, FullLiquidity);
    var v := Saturation(m1.volume, m2.volume, FullVolume);
    var bf := 1.0 - |fewer| as real * 0.1;
    var bm := 1.0 - |more| as real * 0.1;
    ScaledMonotone(bm, bf, l, v);
  }

  /** Scaling by two non-negative factors, then clamping to [0, 1], is monotone. */
  lemma ScaledMonotone(x: real, y: real, l: real, v: real)
    requires x <= y && l >= 0.0 && v >= 0.0
    ensures Scaled(x, l, v) <= Scaled(y, l, v)
  {
    ProductNonNegative(y - x, l);
    assert (y - x) * l == y * l - x * l;
    ProductNonNegative(y * l - x * l, v);
    assert (y * l - x * l) * v == y * l * v - x * l * v;
    assert x * l * v <= y * l * v;
  }

  // ---------------------------------------------------------------------------
  // Arbitrage detection
  // ---------------------------------------------------------------------------

  datatype LegacyOpportunity = LegacyOpportunity(
    market1: LegacyMarket,
    market2: LegacyMarket,
    side1: Fees.Side,
    side2: Fees.Side,
    profitPercentage: real,
    requiredCapital: real,
    expectedProfit: real,
    confidence: real,
    riskFactors: seq<RiskFactor>)

  const DefaultMinProfitPercentage := 1.0

  /** What buying `side1` on the first market and the other side on the second costs. */
  function LegCost(m1: LegacyMarket, m2: LegacyMarket, side1: Fees.Side): real
  {
    if side1 == Fees.Yes then m1.yesPrice + m2.noPrice else m1.noPrice + m2.yesPrice
  }

  /** `(1 - cost) / cost * 100`, the return on a pair that pays out 1. */
  function ProfitPercent(cost: real): (r: real)
    requires cost > 0.0
    ensures r * cost == (1.0 - cost) * 100.0
    ensures r > 0.0 <==> cost < 1.0
  {
    var r := (1.0 - cost) / cost * 100.0;
    assert r * cost == (1.0 - cost) * 100.0;
    r
  }

  /** What an opportunity reported for `side1` on `(m1, m2)` carries. */
  predicate Reported(o: LegacyOpportunity, m1: LegacyMarket, m2: LegacyMarket, side1: Fees.Side, minProfit: real)
  {
    var cost := LegCost(m1, m2, side1);
    o.market1 == m1 && o.market2 == m2 && o.side1 == side1 && o.side2 != side1
    && cost > 0.0
    && o.profitPercentage == ProfitPercent(cost)
    && o.profitPercentage >= minProfit
    && o.requiredCapital == cost * 1000.0
    && o.expectedProfit == o.profitPercentage * 10.0
    && o.riskFactors == AssessRiskFactors(m1, m2)
    && o.confidence == ConfidenceScore(m1, m2, o.riskFactors)
    && 0.0 <= o.confidence <= 1.0
  }

  /** The opportunity for `side1` at a positive `cost` returning `profit` percent, if that is enough. */
  function PricedAt(m1: LegacyMarket, m2: LegacyMarket, side1: Fees.Side, cost: real, profit: real, minProfit: real): (r: Option<LegacyOpportunity>)
    ensures r.Some? <==> profit >= minProfit
    ensures r.Some? ==> r.value.market1 == m1 && r.value.market2 == m2 && r.value.side1 == side1 && r.value.side2 != side1
    ensures r.Some? ==> r.value.profitPercentage == profit && r.value.requiredCapital == cost * 1000.0
    ensures r.Some? ==> r.value.expectedProfit == profit * 10.0
    ensures r.Some? ==> r.value.riskFactors == AssessRiskFactors(m1, m2) && 0.0 <= r.value.confidence <= 1.0
    ensures r.Some? ==> r.value.confidence == ConfidenceScore(m1, m2, r.value.riskFactors)
  {
    if profit >= minProfit then
      var factors := AssessRiskFactors(m1, m2);
      Some(LegacyOpportunity(m1, m2, side1, if side1 == Fees.Yes then Fees.No else Fees.Yes,
                             profit, cost * 1000.0, profit * 10.0,
                             ConfidenceScore(m1, m2, factors), factors))
    else None
  }

  /** The opportunity the chosen strategy yields, when it is cheap and profitable enough. */
  function Priced(m1: LegacyMarket, m2: LegacyMarket, side1: Fees.Side, minProfit: real): (r: Option<LegacyOpportunity>)
    ensures r.Some? <==> LegCost(m1, m2, side1) > 0.0 && ProfitPercent(LegCost(m1, m2, side1)) >= minProfit
    ensures r.Some? ==> Reported(r.value, m1, m2, side1, minProfit)
  {
    var cost := LegCost(m1, m2, side1);
    if cost > 0.0 then PricedAt(m1, m2, side1, cost, ProfitPercent(cost), minProfit) else None
  }

  /** `calculate_arbitrage_opportunity`: try (yes, no) when it costs under 1, and
      (no, yes) only when (yes, no) does not; report the chosen strategy only
      if its cost is positive and its return reaches `minProfit` percent. */
  function CalculateArbitrageOpportunity(m1: LegacyMarket, m2: LegacyMarket, minProfit: real): (r: Option<LegacyOpportunity>)
    ensures r.Some? ==> (r.value.side1 == Fees.Yes <==> m1.yesPrice + m2.noPrice < 1.0)
    ensures r.Some? ==> Reported(r.value, m1, m2, r.value.side1, minProfit)
    ensures r.Some? ==> LegCost(m1, m2, r.value.side1) < 1.0 && r.value.profitPercentage > 0.0
    ensures m1.yesPrice + m2.noPrice < 1.0 ==>
              (r.Some? <==> m1.yesPrice + m2.noPrice > 0.0 && ProfitPercent(m1.yesPrice + m2.noPrice) >= minProfit)
    ensures !(m1.yesPrice + m2.noPrice < 1.0) && m1.noPrice + m2.yesPrice < 1.0 ==>
              (r.Some? <==> m1.noPrice + m2.yesPrice > 0.0 && ProfitPercent(m1.noPrice + m2.yesPrice) >= minProfit)
    ensures !(m1.yesPrice + m2.noPrice < 1.0) && !(m1.noPrice + m2.yesPrice < 1.0) ==> r.None?
  {
    if m1.yesPrice + m2.noPrice < 1.0 then Priced(m1, m2, Fees.Yes, minProfit)
    else if m1.noPrice + m2.yesPrice < 1.0 then Priced(m1, m2, Fees.No, minProfit)
    else None
  }

  // ---------------------------------------------------------------------------
  // Exposure ledger
  // ---------------------------------------------------------------------------

  /** `RiskManager`'s state: exposure per market id and the running total. */
  datatype Ledger = Ledger(exposure: map<string, real>, total: real)
  {
    /** `current_exposure.get(id, 0)`. */
    function Get(id: string): real
    {
      if id in exposure then exposure[id] else 0.0
    }
  }

  const EmptyLedger := Ledger(map[], 0.0)

  datatype Limits = Limits(
    maxPositionSize: real,
    maxTotalExposure: real,
    maxSingleMarketExposure: real,
    stopLossPercentage: real)

  const DefaultLimits := Limits(10000.0, 50000.0, 5000.0, 5.0)

  const MinConfidence := 0.7
  const MaxRiskFactors := 3

  /** The answer of `can_take_position`; only `Approved` lets the trade through. */
  datatype Decision =
    | ExceedsTotalExposure
    | PositionTooLarge
    | ExceedsSingleMarketExposure
    | ConfidenceTooLow
    | TooManyRiskFactors
    | Approved

  /** Exposure already held in the two markets of an opportunity. */
  function MarketExposure(l: Ledger, o: LegacyOpportunity): real
  {
    l.Get(o.market1.marketId) + l.Get(o.market2.marketId)
  }

  /** `can_take_position`: the five limits in order; the first that is broken is reported. */
  function CanTakePosition(l: Ledger, o: LegacyOpportunity, lim: Limits): (d: Decision)
    ensures d == Approved <==>
              l.total + o.requiredCapital <= lim.maxTotalExposure
              && o.requiredCapital <= lim.maxPositionSize
              && MarketExposure(l, o) + o.requiredCapital <= lim.maxSingleMarketExposure
              && o.confidence >= MinConfidence
              && |o.riskFactors| <= MaxRiskFactors
    ensures d == ExceedsTotalExposure <==> l.total + o.requiredCapital > lim.maxTotalExposure
    ensures d == PositionTooLarge ==> l.total + o.requiredCapital <= lim.maxTotalExposure && o.requiredCapital > lim.maxPositionSize
    ensures d == ExceedsSingleMarketExposure ==>
              l.total + o.requiredCapital <= lim.maxTotalExposure && o.requiredCapital <= lim.maxPositionSize
              && MarketExposure(l, o) + o.requiredCapital > lim.maxSingleMarketExposure
    ensures d == ConfidenceTooLow ==>
              l.total + o.requiredCapital <= lim.maxTotalExposure && o.requiredCapital <= lim.maxPositionSize
              && MarketExposure(l, o) + o.requiredCapital <= lim.maxSingleMarketExposure && o.confidence < MinConfidence
    ensures d == TooManyRiskFactors ==>
              l.total + o.requiredCapital <= lim.maxTotalExposure && o.requiredCapital <= lim.maxPositionSize
              && MarketExposure(l, o) + o.requiredCapital <= lim.maxSingleMarketExposure
              && o.confidence >= MinConfidence && |o.riskFactors| > MaxRiskFactors
  {
    if l.total + o.requiredCapital > lim.maxTotalExposure then ExceedsTotalExposure
    else if o.requiredCapital > lim.maxPositionSize then PositionTooLarge
    else if MarketExposure(l, o) + o.requiredCapital > lim.maxSingleMarketExposure then ExceedsSingleMarketExposure
    else if o.confidence < MinConfidence then ConfidenceTooLow
    else if |o.riskFactors| > MaxRiskFactors then TooManyRiskFactors
    else Approved
  }

  /** `update_exposure`: "add" raises the market's entry and the total,
      "remove" lowers both but not below zero, any other operation is ignored. */
  function UpdateExposure(l: Ledger, id: string, amount: real, op: string): (r: Ledger)
    ensures forall k :: k != id ==> r.Get(k) == l.Get(k)
    ensures op == "add" ==> r.Get(id) == l.Get(id) + amount && r.total == l.total + amount && id in r.exposure
    ensures op == "remove" ==> r.Get(id) >= 0.0 && r.total >= 0.0 && id in r.exposure
    ensures op == "remove" && l.Get(id) >= amount ==> r.Get(id) == l.Get(id) - amount
    ensures op == "remove" && l.Get(id) < amount ==> r.Get(id) == 0.0
    ensures op == "remove" && l.total >= amount ==> r.total == l.total - amount
    ensures op == "remove" && l.total < amount ==> r.total == 0.0
    ensures op != "add" && op != "remove" ==> r == l
  {
    if op == "add" then
      Ledger(l.exposure[id := l.Get(id) + amount], l.total + amount)
    else if op == "remove" then
      Ledger(l.exposure[id := Max(0.0, l.Get(id) - amount)], Max(0.0, l.total - amount))
    else l
  }

  /** No entry and no total below zero. */
  predicate NonNegative(l: Ledger)
  {
    l.total >= 0.0 && forall k :: k in l.exposure ==> l.exposure[k] >= 0.0
  }

  /** Adding a non-negative amount and removing anything keep a ledger non-negative. */
  lemma UpdateKeepsNonNegative(l: Ledger, id: string, amount: real, op: string)
    requires NonNegative(l)
    requires op == "add" ==> amount >= 0.0
    ensures NonNegative(UpdateExposure(l, id, amount, op))
  {
    var r := UpdateExposure(l, id, amount, op);
    forall k | k in r.exposure
      ensures r.exposure[k] >= 0.0
    {
      assert r.exposure[k] == r.Get(k);
      if k != id {
        assert l.Get(k) >= 0.0;
      }
    }
  }

  /** Removing what was just added restores the market's entry and the total. */
  lemma AddThenRemove(l: Ledger, id: string, amount: real)
    requires NonNegative(l) && amount >= 0.0
    ensures var r := UpdateExposure(UpdateExposure(l, id, amount, "add"), id, amount, "remove");
            r.total == l.total && forall k :: r.Get(k) == l.Get(k)
  {
    assert l.Get(id) >= 0.0;
  }

  /** Recording an approved position's capital against its first market keeps the
      total within the limit and that market within the single-market limit, as
      long as the ledger has no negative entry. */
  lemma ApprovedAddStaysWithinLimits(l: Ledger, o: LegacyOpportunity, lim: Limits)
    requires NonNegative(l)
    requires CanTakePosition(l, o, lim) == Approved
    ensures var r := UpdateExposure(l, o.market1.marketId, o.requiredCapital, "add");
            r.total <= lim.maxTotalExposure && r.Get(o.market1.marketId) <= lim.maxSingleMarketExposure
  {
    assert l.Get(o.market2.marketId) >= 0.0;
    assert l.Get(o.market1.marketId) >= 0.0;
  }
}

=== FILE: matching.dfy ===
/** Market-equivalence matching (prediction_arbitrage/enhanced_matching_engine.py):
    whether two markets on different venues ask the same question, resolve from
    compatible sources, expire together and are quoted in compatible time zones.
    Text normalisation, number extraction, the sequence-matcher ratio and time-zone
    offsets come from libraries and are inputs here. */
module Matching {
  import opened Common

  // ---------------------------------------------------------------------------
  // Resolution sources
  // ---------------------------------------------------------------------------

  datatype SourceInfo = SourceInfo(reliability: real, delayHours: real, platforms: seq<Platform>)

  /** The static table of known resolution sources. */
  function ResolutionSource(name: string): (r: Option<SourceInfo>)
    ensures r.Some? ==> 0.75 <= r.value.reliability <= 0.99 && 0.0 <= r.value.delayHours <= 2.0
  {
    if name == "UMA" then Some(SourceInfo(0.95, 2.0, [Polymarket]))
    else if name == "Kalshi" then Some(SourceInfo(0.98, 1.0, [Kalshi]))
    else if name == "Manifold" then Some(SourceInfo(0.75, 0.0, [Manifold]))
    else if name == "Reuters" then Some(SourceInfo(0.99, 0.5, [Polymarket, Kalshi]))
    else if name == "AP" then Some(SourceInfo(0.99, 0.5, [Polymarket, Kalshi]))
    else if name == "NYT" then Some(SourceInfo(0.97, 1.0, [Polymarket]))
    else if name == "CoinMarketCap" then Some(SourceInfo(0.95, 0.1, [Polymarket, Manifold]))
    else if name == "CoinGecko" then Some(SourceInfo(0.95, 0.1, [Polymarket, Manifold]))
    else None
  }

  /** What an unknown source is assumed to be: reliability 0.5, a day's delay, no venues. */
  const UnknownSource := SourceInfo(0.5, 24.0, [])

  function SourceOrDefault(name: string): SourceInfo
  {
    match ResolutionSource(name)
    case Some(info) => info
    case None => UnknownSource
  }

  datatype MatchWarning =
    | UnknownResolutionSource(source: string)
    | LargeResolutionDelayGap(hours: real)
    | SourcesOnDifferentPlatforms
    | ExpiryHoursApart(hours: real)
    | ExpiryDaysApart(days: real)
    | LargeExpiryGap(days: real)
    | DifferentExpiryDates(dateA: int, dateB: int)
    | MissingTimezone
    | TimezoneOffsetGap(hours: real)
    | LargeTimezoneOffsetGap(hours: real)
    | TimezoneLookupFailed

  /** A sub-score together with the warnings raised while computing it. */
  datatype Scored = Scored(score: real, warnings: seq<MatchWarning>)

  function UnknownWarnings(sourceA: string, sourceB: string): (ws: seq<MatchWarning>)
    ensures UnknownResolutionSource(sourceA) in ws <==> ResolutionSource(sourceA).None?
    ensures UnknownResolutionSource(sourceB) in ws <==> ResolutionSource(sourceB).None?
    ensures forall w :: w in ws ==> w == UnknownResolutionSource(sourceA) || w == UnknownResolutionSource(sourceB)
    ensures |ws| <= 2
  {
    (if ResolutionSource(sourceA).None? then [UnknownResolutionSource(sourceA)] else [])
    + (if ResolutionSource(sourceB).None? then [UnknownResolutionSource(sourceB)] else [])
  }

  /** Cross-use score of two known sources: 0.9 when either market's venue is
      among the venues of the other market's source, else 0.7 with a warning. */
  function PlatformScore(sourceA: string, sourceB: string, platformA: Platform, platformB: Platform): (r: Scored)
    ensures r.score == 0.5 || r.score == 0.7 || r.score == 0.9
    ensures |r.warnings| <= 1
    ensures r.score == 0.9 <==>
              ResolutionSource(sourceA).Some? && ResolutionSource(sourceB).Some? &&
              (platformA in ResolutionSource(sourceB).value.platforms || platformB in ResolutionSource(sourceA).value.platforms)
    ensures r.warnings != [] <==> r.score == 0.7
  {
    match (ResolutionSource(sourceA), ResolutionSource(sourceB))
    case (Some(infoA), Some(infoB)) =>
      if platformA in infoB.platforms || platformB in infoA.platforms then Scored(0.9, [])
      else Scored(0.7, [SourcesOnDifferentPlatforms])
    case _ => Scored(0.5, [])
  }

  /** `calculate_compatibility`: identical sources are fully compatible; otherwise
      0.4 of the reliability agreement, 0.3 of the delay agreement (flat 0.5 past
      a six-hour gap) and 0.3 of the venue cross-use score. */
  function SourceCompatibility(sourceA: string, sourceB: string, platformA: Platform, platformB: Platform): (r: Scored)
    ensures 0.0 <= r.score <= 1.0
    ensures sourceA == sourceB ==> r.score == 1.0 && r.warnings == UnknownWarnings(sourceA, sourceB)
    ensures UnknownWarnings(sourceA, sourceB) <= r.warnings
    ensures |r.warnings| <= 2
    ensures sourceA != sourceB ==>
              (LargeResolutionDelayGap(Abs(SourceOrDefault(sourceA).delayHours - SourceOrDefault(sourceB).delayHours)) in r.warnings
               <==> Abs(SourceOrDefault(sourceA).delayHours - SourceOrDefault(sourceB).delayHours) > 6.0)
    ensures sourceA != sourceB ==>
              var gap := Abs(SourceOrDefault(sourceA).delayHours - SourceOrDefault(sourceB).delayHours);
              r.score == 0.4 * (1.0 - Abs(SourceOrDefault(sourceA).reliability - SourceOrDefault(sourceB).reliability))
                         + 0.3 * (if gap > 6.0 then 0.5 else 1.0 - gap / 12.0)
                         + 0.3 * PlatformScore(sourceA, sourceB, platformA, platformB).score
  {
    var unknown := UnknownWarnings(sourceA, sourceB);
    if sourceA == sourceB then Scored(1.0, unknown)
    else
      var infoA, infoB := SourceOrDefault(sourceA), SourceOrDefault(sourceB);
      var reliabilityScore := 1.0 - Abs(infoA.reliability - infoB.reliability);
      var gap := Abs(infoA.delayHours - infoB.delayHours);
      var delay := if gap > 6.0 then Scored(0.5, [LargeResolutionDelayGap(gap)]) else Scored(1.0 - gap / 12.0, []);
      var platform := PlatformScore(sourceA, sourceB, platformA, platformB);
      assert ResolutionSource(sourceA).Some? && ResolutionSource(sourceB).Some? ==> delay.warnings == [];
      Scored(reliabilityScore * 0.4 + delay.score * 0.3 + platform.score * 0.3,
             unknown + delay.warnings + platform.warnings)
  }

  /** The score does not depend on which market is called A. */
  lemma SourceCompatibilitySymmetric(sourceA: string, sourceB: string, platformA: Platform, platformB: Platform)
    ensures SourceCompatibility(sourceA, sourceB, platformA, platformB).score
         == SourceCompatibility(sourceB, sourceA, platformB, platformA).score
  {
    var infoA, infoB := SourceOrDefault(sourceA), SourceOrDefault(sourceB);
    assert Abs(infoA.reliability - infoB.reliability) == Abs(infoB.reliability - infoA.reliability);
    assert Abs(infoA.delayHours - infoB.delayHours) == Abs(infoB.delayHours - infoA.delayHours);
  }

  // ---------------------------------------------------------------------------
  // Expiry alignment
  // ---------------------------------------------------------------------------

  const SecondsPerHour := 3600
  const SecondsPerDay := 86400

  /** The UTC calendar day of an instant given in seconds since the epoch
      (Dafny's `/` floors for a positive divisor, as `datetime.date()` does). */
  function UtcDate(t: int): int
  {
    t / SecondsPerDay
  }

  lemma SameDateIsWithinADay(a: int, b: int)
    requires UtcDate(a) == UtcDate(b)
    ensures -SecondsPerDay < a - b < SecondsPerDay
  {
    var d := UtcDate(a);
    assert a == d * SecondsPerDay + a % SecondsPerDay;
    assert b == d * SecondsPerDay + b % SecondsPerDay;
  }

  function AbsInt(x: int): (r: nat)
    ensures r == x || r == -x
  {
    if x < 0 then -x else x
  }

  function ExpiryTier(seconds: nat): (r: Scored)
    ensures seconds == 0 ==> r == Scored(1.0, [])
    ensures 0 < seconds < SecondsPerHour ==> r == Scored(0.95, [])
    ensures SecondsPerHour <= seconds < SecondsPerDay ==> r.score == 0.85 && |r.warnings| == 1
    ensures SecondsPerDay <= seconds < 7 * SecondsPerDay ==> r.score == 0.60 && |r.warnings| == 1
    ensures 7 * SecondsPerDay <= seconds ==> r.score == 0.30 && |r.warnings| == 1
  {
    var hours := seconds as real / SecondsPerHour as real;
    var days := seconds as real / SecondsPerDay as real;
    if hours == 0.0 then Scored(1.0, [])
    else if hours < 1.0 then Scored(0.95, [])
    else if hours < 24.0 then Scored(0.85, [ExpiryHoursApart(hours)])
    else if days < 7.0 then Scored(0.60, [ExpiryDaysApart(days)])
    else Scored(0.30, [LargeExpiryGap(days)])
  }

  /** `calculate_alignment` on two UTC instants: a tier by the time between
      them, plus 0.1 (capped at 1) when they fall on the same UTC date. */
  function ExpiryAlignment(expiryA: int, expiryB: int): (r: Scored)
    ensures 0.3 <= r.score <= 1.0
    ensures expiryA == expiryB ==> r == Scored(1.0, [])
    ensures UtcDate(expiryA) == UtcDate(expiryB) ==> r.score >= 0.95
    ensures UtcDate(expiryA) != UtcDate(expiryB) ==>
              DifferentExpiryDates(UtcDate(expiryA), UtcDate(expiryB)) in r.warnings
    ensures r.score >= 0.6 <==> -7 * SecondsPerDay < expiryA - expiryB < 7 * SecondsPerDay
    ensures UtcDate(expiryA) == UtcDate(expiryB) ==> r.score == Min(ExpiryTier(AbsInt(expiryA - expiryB)).score + 0.1, 1.0)
    ensures UtcDate(expiryA) != UtcDate(expiryB) ==> r.score == ExpiryTier(AbsInt(expiryA - expiryB)).score
    ensures |r.warnings| <= 2
  {
    var seconds := AbsInt(expiryA - expiryB);
    var tier := ExpiryTier(seconds);
    if UtcDate(expiryA) == UtcDate(expiryB) then
      SameDateIsWithinADay(expiryA, expiryB);
      Scored(Min(tier.score + 0.1, 1.0), tier.warnings)
    else
      Scored(tier.score, tier.warnings + [DifferentExpiryDates(UtcDate(expiryA), UtcDate(expiryB))])
  }

  // ---------------------------------------------------------------------------
  // Time zones
  // ---------------------------------------------------------------------------

  /** Python truthiness of an optional zone name. */
  predicate HasZone(zone: Option<string>)
  {
    zone.Some? && zone.value != ""
  }

  /** `calculate_match`. `offsetA`/`offsetB` are the zones' UTC offsets in hours
      at the respective expiries; `None` stands for a zone the time-zone
      database does not know, where the source's lookup raises. */
  function TimezoneMatch(zoneA: Option<string>, zoneB: Option<string>, offsetA: Option<real>, offsetB: Option<real>): (r: Scored)
    ensures 0.5 <= r.score <= 1.0
    ensures !HasZone(zoneA) || !HasZone(zoneB) ==> r == Scored(0.7, [MissingTimezone])
    ensures HasZone(zoneA) && HasZone(zoneB) && zoneA == zoneB ==> r == Scored(1.0, [])
    ensures HasZone(zoneA) && HasZone(zoneB) && zoneA != zoneB && offsetA.Some? && offsetB.Some? ==>
              (r.score == 1.0 <==> offsetA.value == offsetB.value) &&
              (r.score >= 0.9 <==> Abs(offsetA.value - offsetB.value) <= 1.0) &&
              (r.score >= 0.8 <==> Abs(offsetA.value - offsetB.value) <= 3.0) &&
              (r.warnings == [] <==> Abs(offsetA.value - offsetB.value) <= 1.0) &&
              (0.0 < Abs(offsetA.value - offsetB.value) <= 1.0 ==> r.score == 0.9) &&
              (1.0 < Abs(offsetA.value - offsetB.value) <= 3.0 ==> r.score == 0.8) &&
              (3.0 < Abs(offsetA.value - offsetB.value) ==> r.score == 0.6)
    ensures HasZone(zoneA) && HasZone(zoneB) && zoneA != zoneB && (offsetA.None? || offsetB.None?) ==>
              r == Scored(0.5, [TimezoneLookupFailed])
    ensures |r.warnings| <= 1
  {
    if !HasZone(zoneA) || !HasZone(zoneB) then Scored(0.7, [MissingTimezone])
    else if zoneA == zoneB then Scored(1.0, [])
    else if offsetA.None? || offsetB.None? then Scored(0.5, [TimezoneLookupFailed])
    else
      var gap := Abs(offsetA.value - offsetB.value);
      if gap == 0.0 then Scored(1.0, [])
      else if gap <= 1.0 then Scored(0.9, [])
      else if gap <= 3.0 then Scored(0.8, [TimezoneOffsetGap(gap)])
      else Scored(0.6, [LargeTimezoneOffsetGap(gap)])
  }

  lemma TimezoneMatchSymmetric(zoneA: Option<string>, zoneB: Option<string>, offsetA: Option<real>, offsetB: Option<real>)
    ensures TimezoneMatch(zoneA, zoneB, offsetA, offsetB) == TimezoneMatch(zoneB, zoneA, offsetB, offsetA)
  {
    if offsetA.Some? && offsetB.Some? {
      assert Abs(offsetA.value - offsetB.value) == Abs(offsetB.value - offsetA.value);
    }
  }

  // ---------------------------------------------------------------------------
  // Question similarity
  // ---------------------------------------------------------------------------

  const Stopwords: set<string> := {
    "will", "be", "the", "a", "an", "is", "are", "was", "were",
    "have", "has", "had", "do", "does", "did", "on", "at", "by",
    "in", "to", "of", "for", "and", "or", "but" }

  /** The tokens of a normalised question that are not stop words. */
  function ContentWords(normalized: string): set<string>
  {
    SplitSet(normalized) - Stopwords
  }

  /** `_extract_keywords`: tokens of at least four characters that are not stop words. */
  function Keywords(normalized: string): (k: set<string>)
    ensures k <= ContentWords(normalized)
    ensures forall w :: w in k ==> |w| >= 4
    ensures forall w :: w in ContentWords(normalized) && |w| >= 4 ==> w in k
  {
    set w | w in SplitSet(normalized) && |w| >= 4 && w !in Stopwords
  }

  /** Keyword overlap with the union's size floored at 1. */
  function KeywordMatch(ka: set<string>, kb: set<string>): real
  {
    (|ka * kb| as real) / Max(|ka + kb| as real, 1.0)
  }

  /** The floored denominator makes the keyword overlap the Jaccard index. */
  lemma KeywordMatchIsJaccard(ka: set<string>, kb: set<string>)
    ensures KeywordMatch(ka, kb) == Jaccard(ka, kb)
  {
    if ka == {} {
      assert ka * kb == {};
    } else if kb == {} {
      assert ka * kb == {};
    } else {
      assert ka <= ka + kb;
      SubsetCard(ka, ka + kb);
      var x :| x in ka;
      assert |ka| >= 1;
    }
  }

  /** 1 for equal number sets (both empty included), 0.5 for a partial overlap, else 0. */
  function NumberMatch(na: set<string>, nb: set<string>): (r: real)
    ensures r == 1.0 <==> na == nb
    ensures r == 0.0 <==> na != nb && na * nb == {}
    ensures r == 0.0 || r == 0.5 || r == 1.0
  {
    if na == nb then 1.0 else if na * nb != {} then 0.5 else 0.0
  }

  /** What the similarity measure reads of one question: its content words,
      its keywords and the numbers extracted from the raw text. */
  datatype QuestionFeatures = QuestionFeatures(content: set<string>, keywords: set<string>, numbers: set<string>)

  function Features(normalized: string, numbers: set<string>): (f: QuestionFeatures)
    ensures f.keywords <= f.content
  {
    QuestionFeatures(ContentWords(normalized), Keywords(normalized), numbers)
  }

  /** `calculate_similarity` from its ingredients: the features of both
      questions and the sequence-matcher ratio of the normalised texts. */
  function QuestionSimilarity(fa: QuestionFeatures, fb: QuestionFeatures, seqRatio: real): (q: real)
    ensures 0.0 <= seqRatio <= 1.0 ==> 0.0 <= q <= 1.0
  {
    KeywordMatchIsJaccard(fa.keywords, fb.keywords);
    seqRatio * 0.25 + Jaccard(fa.content, fb.content) * 0.35
      + KeywordMatch(fa.keywords, fb.keywords) * 0.25 + NumberMatch(fa.numbers, fb.numbers) * 0.15
  }

  /** A question with at least one keyword, compared with itself, scores 1. */
  lemma QuestionSimilaritySelf(f: QuestionFeatures)
    requires f.keywords != {} && f.keywords <= f.content
    ensures QuestionSimilarity(f, f, 1.0) == 1.0
  {
    var w :| w in f.keywords;
    assert w in f.content;
    JaccardOne(f.content, f.content);
    JaccardOne(f.keywords, f.keywords);
    KeywordMatchIsJaccard(f.keywords, f.keywords);
  }

  lemma QuestionSimilaritySymmetric(fa: QuestionFeatures, fb: QuestionFeatures, seqRatio: real)
    ensures QuestionSimilarity(fa, fb, seqRatio) == QuestionSimilarity(fb, fa, seqRatio)
  {
    JaccardSymmetric(fa.content, fb.content);
    assert fa.keywords * fb.keywords == fb.keywords * fa.keywords;
    assert fa.keywords + fb.keywords == fb.keywords + fa.keywords;
    assert fa.numbers * fb.numbers == fb.numbers * fa.numbers;
  }

  // ---------------------------------------------------------------------------
  // The engine
  // ---------------------------------------------------------------------------

  datatype MatchConfig = MatchConfig(
    minOverallScore: real,
    minQuestionSimilarity: real,
    minResolutionCompatibility: real,
    minExpiryAlignment: real)

  const DefaultMatchConfig := MatchConfig(0.70, 0.60, 0.60, 0.60)

  /** A market as the engine sees it. `normalizedQuestion` and `numbers` are the
      outputs of the source's regular-expression passes; `expiry` is the expiry
      as a UTC instant in seconds; `utcOffset` is the zone's offset in hours at
      that instant, `None` when the zone is unknown. */
  datatype MatchMarket = MatchMarket(
    platform: Platform,
    normalizedQuestion: string,
    numbers: set<string>,
    resolutionSource: string,
    expiry: int,
    timezone: Option<string>,
    utcOffset: Option<real>)

  datatype MatchScore = MatchScore(
    overall: real,
    questionSimilarity: real,
    resolutionCompatibility: real,
    expiryAlignment: real,
    timezoneMatch: real,
    isAcceptable: bool,
    warnings: seq<MatchWarning>)

  datatype RiskFactor = LowQuestionSimilarity | LowResolutionCompatibility | LowExpiryAlignment

  datatype MarketMatch = MarketMatch(
    marketA: MatchMarket,
    marketB: MatchMarket,
    score: MatchScore,
    confidence: real,
    recommended: bool,
    riskFactors: seq<RiskFactor>)

  /** The 0.35 / 0.30 / 0.25 / 0.10 blend of the four sub-scores. */
  function OverallScore(q: real, r: real, e: real, t: real): (s: real)
    ensures 0.0 <= q <= 1.0 && 0.0 <= r <= 1.0 && 0.0 <= e <= 1.0 && 0.0 <= t <= 1.0 ==> 0.0 <= s <= 1.0
    ensures q == 1.0 && r == 1.0 && e == 1.0 && t == 1.0 ==> s == 1.0
  {
    q * 0.35 + r * 0.30 + e * 0.25 + t * 0.10
  }

  lemma OverallScoreMonotone(q: real, r: real, e: real, t: real, q': real, r': real, e': real, t': real)
    requires q <= q' && r <= r' && e <= e' && t <= t'
    ensures OverallScore(q, r, e, t) <= OverallScore(q', r', e', t')
  {
  }

  /** `_calculate_confidence`: the overall score, less 10% per risk factor and
      5% per warning, clamped to [0, 1]. */
  function MatchConfidence(overall: real, risks: nat, warnings: nat): (c: real)
    ensures 0.0 <= c <= 1.0
    ensures risks <= 10 && warnings <= 20 && overall >= 0.0 ==> c <= overall
    ensures risks == 0 && warnings == 0 && 0.0 <= overall <= 1.0 ==> c == overall
  {
    var riskFactor := 1.0 - risks as real * 0.1;
    var warningFactor := 1.0 - warnings as real * 0.05;
    var raw := overall * riskFactor * warningFactor;
    if risks <= 10 && warnings <= 20 && overall >= 0.0 then
      var partial := overall * riskFactor;
      assert 0.0 <= riskFactor <= 1.0 && 0.0 <= warningFactor <= 1.0;
      ScaleWithinUnit(overall, riskFactor);
      ScaleWithinUnit(partial, warningFactor);
      assert raw == partial * warningFactor;
      assert raw <= partial;
      assert partial <= overall;
      Clamp(raw, 0.0, 1.0)
    else
    Clamp(raw, 0.0, 1.0)
  }

  function RiskFactors(q: real, r: real, e: real, cfg: MatchConfig): (rs: seq<RiskFactor>)
    ensures LowQuestionSimilarity in rs <==> q < cfg.minQuestionSimilarity
    ensures LowResolutionCompatibility in rs <==> r < cfg.minResolutionCompatibility
    ensures LowExpiryAlignment in rs <==> e < cfg.minExpiryAlignment
    ensures |rs| <= 3
  {
    (if q < cfg.minQuestionSimilarity then [LowQuestionSimilarity] else [])
    + (if r < cfg.minResolutionCompatibility then [LowResolutionCompatibility] else [])
    + (if e < cfg.minExpiryAlignment then [LowExpiryAlignment] else [])
  }

  /** `match_markets`. `seqRatio` is the sequence-matcher ratio of the two
      normalised questions. */
  function MatchMarkets(a: MatchMarket, b: MatchMarket, seqRatio: real, cfg: MatchConfig): (m: MarketMatch)
    ensures m.marketA == a && m.marketB == b
    ensures m.score.isAcceptable <==> m.score.overall >= cfg.minOverallScore
    ensures m.recommended <==> m.score.isAcceptable && m.confidence > 0.7 && |m.riskFactors| <= 2
    ensures LowQuestionSimilarity in m.riskFactors <==> m.score.questionSimilarity < cfg.minQuestionSimilarity
    ensures LowResolutionCompatibility in m.riskFactors <==> m.score.resolutionCompatibility < cfg.minResolutionCompatibility
    ensures LowExpiryAlignment in m.riskFactors <==> m.score.expiryAlignment < cfg.minExpiryAlignment
    ensures |m.riskFactors| <= 3
    ensures 0.0 <= m.confidence <= 1.0
    ensures m.score.overall == OverallScore(m.score.questionSimilarity, m.score.resolutionCompatibility,
                                            m.score.expiryAlignment, m.score.timezoneMatch)
    ensures m.confidence == MatchConfidence(m.score.overall, |m.riskFactors|, |m.score.warnings|)
  {
    var q := QuestionSimilarity(Features(a.normalizedQuestion, a.numbers), Features(b.normalizedQuestion, b.numbers), seqRatio);
    var res := SourceCompatibility(a.resolutionSource, b.resolutionSource, a.platform, b.platform);
    var exp := ExpiryAlignment(a.expiry, b.expiry);
    var tz := TimezoneMatch(a.timezone, b.timezone, a.utcOffset, b.utcOffset);
    var risks := RiskFactors(q, res.score, exp.score, cfg);
    var warnings := res.warnings + exp.warnings + tz.warnings;
    var overall := OverallScore(q, res.score, exp.score, tz.score);
    var acceptable := overall >= cfg.minOverallScore;
    var confidence := MatchConfidence(overall, |risks|, |warnings|);
    MarketMatch(a, b,
      MatchScore(overall, q, res.score, exp.score, tz.score, acceptable, warnings),
      confidence, acceptable && confidence > 0.7 && |risks| <= 2, risks)
  }

  /** How the sub-scores and warnings of a match arise from its two markets,
      and that its confidence never exceeds its overall score. */
  lemma MatchMarketsScores(a: MatchMarket, b: MatchMarket, seqRatio: real, cfg: MatchConfig)
    requires 0.0 <= seqRatio <= 1.0
    ensures var m := MatchMarkets(a, b, seqRatio, cfg);
      && m.score.questionSimilarity == QuestionSimilarity(Features(a.normalizedQuestion, a.numbers), Features(b.normalizedQuestion, b.numbers), seqRatio)
      && m.score.resolutionCompatibility == SourceCompatibility(a.resolutionSource, b.resolutionSource, a.platform, b.platform).score
      && m.score.expiryAlignment == ExpiryAlignment(a.expiry, b.expiry).score
      && m.score.timezoneMatch == TimezoneMatch(a.timezone, b.timezone, a.utcOffset, b.utcOffset).score
      && m.score.warnings == SourceCompatibility(a.resolutionSource, b.resolutionSource, a.platform, b.platform).warnings
                              + ExpiryAlignment(a.expiry, b.expiry).warnings
                              + TimezoneMatch(a.timezone, b.timezone, a.utcOffset, b.utcOffset).warnings
      && |m.score.warnings| <= 5
      && 0.0 <= m.score.overall <= 1.0
      && m.confidence <= m.score.overall
  {
  }

  /** Whether `find_matches` keeps a match. */
  predicate Kept(m: MarketMatch, onlyRecommended: bool)
  {
    if onlyRecommended then m.recommended else m.score.isAcceptable
  }

  predicate CrossVenue(m: MarketMatch, onlyRecommended: bool)
  {
    m.marketA.platform != m.marketB.platform && Kept(m, onlyRecommended)
  }

  /** The match of the `i`-th and `j`-th markets, if the scan keeps it;
      same-venue pairs are never matched. */
  function PairMatch(markets: seq<MatchMarket>, onlyRecommended: bool, seqRatio: (string, string) -> real, cfg: MatchConfig,
                     i: nat, j: nat): (r: Option<MarketMatch>)
    ensures r.Some? ==> CrossVenue(r.value, onlyRecommended)
    ensures i < j < |markets| && markets[i].platform != markets[j].platform &&
            Kept(MatchMarkets(markets[i], markets[j], seqRatio(markets[i].normalizedQuestion, markets[j].normalizedQuestion), cfg), onlyRecommended)
            ==> r == Some(MatchMarkets(markets[i], markets[j], seqRatio(markets[i].normalizedQuestion, markets[j].normalizedQuestion), cfg))
  {
    if i < j < |markets| && markets[i].platform != markets[j].platform then
      var m := MatchMarkets(markets[i], markets[j], seqRatio(markets[i].normalizedQuestion, markets[j].normalizedQuestion), cfg);
      if Kept(m, onlyRecommended) then Some(m) else None
    else None
  }

  function MatchPick(markets: seq<MatchMarket>, onlyRecommended: bool, seqRatio: (string, string) -> real, cfg: MatchConfig)
    : ((nat, nat)) -> Option<MarketMatch>
  {
    (p: (nat, nat)) => PairMatch(markets, onlyRecommended, seqRatio, cfg, p.0, p.1)
  }

  function Overall(m: MarketMatch): real
  {
    m.score.overall
  }

  lemma MatchPickSound(markets: seq<MatchMarket>, onlyRecommended: bool, seqRatio: (string, string) -> real, cfg: MatchConfig, m: MarketMatch)
    requires m in CollectSome(Pairs(|markets|), MatchPick(markets, onlyRecommended, seqRatio, cfg))
    ensures CrossVenue(m, onlyRecommended)
    ensures exists i, j :: 0 <= i < j < |markets| && PairMatch(markets, onlyRecommended, seqRatio, cfg, i, j) == Some(m)
  {
    var pick := MatchPick(markets, onlyRecommended, seqRatio, cfg);
    var p := CollectedIsPicked(Pairs(|markets|), pick, m);
    assert PairMatch(markets, onlyRecommended, seqRatio, cfg, p.0, p.1) == Some(m);
  }

  lemma MatchPickComplete(markets: seq<MatchMarket>, onlyRecommended: bool, seqRatio: (string, string) -> real, cfg: MatchConfig, i: nat, j: nat)
    requires i < j < |markets| && PairMatch(markets, onlyRecommended, seqRatio, cfg, i, j).Some?
    ensures PairMatch(markets, onlyRecommended, seqRatio, cfg, i, j).value
              in CollectSome(Pairs(|markets|), MatchPick(markets, onlyRecommended, seqRatio, cfg))
  {
    var pick := MatchPick(markets, onlyRecommended, seqRatio, cfg);
    assert pick((i, j)) == PairMatch(markets, onlyRecommended, seqRatio, cfg, i, j);
    PickedIsCollected(|markets|, pick, i, j);
  }

  /** `find_matches`: every cross-venue pair `i < j` that is recommended (or,
      when `onlyRecommended` is off, acceptable), best overall score first. */
  /** The index pairs `i < j` whose match (`PairMatch`, through the scan's pick) is `m`. */
  function PairsGiving(markets: seq<MatchMarket>, onlyRecommended: bool, seqRatio: (string, string) -> real, cfg: MatchConfig,
                       m: MarketMatch): set<(nat, nat)>
  {
    set i: nat, j: nat | i < j < |markets| && MatchPick(markets, onlyRecommended, seqRatio, cfg)((i, j)) == Some(m) :: (i, j)
  }

  /** The scan collects `m` once for every pair whose match it is. */
  lemma MatchCount(markets: seq<MatchMarket>, onlyRecommended: bool, seqRatio: (string, string) -> real, cfg: MatchConfig,
                   m: MarketMatch)
    ensures multiset(CollectSome(Pairs(|markets|), MatchPick(markets, onlyRecommended, seqRatio, cfg)))[m]
            == |PairsGiving(markets, onlyRecommended, seqRatio, cfg, m)|
  {
    PairsCount(|markets|, MatchPick(markets, onlyRecommended, seqRatio, cfg), m);
  }

  function FindMatches(markets: seq<MatchMarket>, onlyRecommended: bool, seqRatio: (string, string) -> real, cfg: MatchConfig)
    : (r: seq<MarketMatch>)
    ensures SortedDesc(r, Overall)
    ensures forall m :: multiset(r)[m] == |PairsGiving(markets, onlyRecommended, seqRatio, cfg, m)|
    ensures forall m :: m in r ==> CrossVenue(m, onlyRecommended)
    ensures forall m :: m in r ==>
              exists i, j :: 0 <= i < j < |markets| && PairMatch(markets, onlyRecommended, seqRatio, cfg, i, j) == Some(m)
    ensures forall i, j :: 0 <= i < j < |markets| && PairMatch(markets, onlyRecommended, seqRatio, cfg, i, j).Some? ==>
              PairMatch(markets, onlyRecommended, seqRatio, cfg, i, j).value in r
  {
    var found := CollectSome(Pairs(|markets|), MatchPick(markets, onlyRecommended, seqRatio, cfg));
    var r := SortDesc(found, Overall);
    assert forall m :: m in r ==>
             (CrossVenue(m, onlyRecommended) &&
              exists i, j :: 0 <= i < j < |markets| && PairMatch(markets, onlyRecommended, seqRatio, cfg, i, j) == Some(m)) by {
      forall m | m in r
        ensures CrossVenue(m, onlyRecommended)
        ensures exists i, j :: 0 <= i < j < |markets| && PairMatch(markets, onlyRecommended, seqRatio, cfg, i, j) == Some(m)
      {
        assert m in multiset(found);
        MatchPickSound(markets, onlyRecommended, seqRatio, cfg, m);
      }
    }
    assert forall i, j :: 0 <= i < j < |markets| && PairMatch(markets, onlyRecommended, seqRatio, cfg, i, j).Some? ==>
              PairMatch(markets, onlyRecommended, seqRatio, cfg, i, j).value in r by {
      forall i, j | 0 <= i < j < |markets| && PairMatch(markets, onlyRecommended, seqRatio, cfg, i, j).Some?
        ensures PairMatch(markets, onlyRecommended, seqRatio, cfg, i, j).value in r
      {
        MatchPickComplete(markets, onlyRecommended, seqRatio, cfg, i, j);
        SortDescKeeps(found, Overall, PairMatch(markets, onlyRecommended, seqRatio, cfg, i, j).value);
      }
    }
    assert forall m :: multiset(r)[m] == |PairsGiving(markets, onlyRecommended, seqRatio, cfg, m)| by {
      forall m
        ensures multiset(r)[m] == |PairsGiving(markets, onlyRecommended, seqRatio, cfg, m)|
      {
        MatchCount(markets, onlyRecommended, seqRatio, cfg, m);
      }
    }
    r
  }
}

=== FILE: positions.dfy ===
/** Dynamic position sizing (`DynamicPositionManager` in
    prediction_arbitrage/dynamic_position_management.py): a base size scaled by
    five multiplicative adjustments, clamped into the configured range, and
    split into exponentially decaying slices when slippage or volatility is high. */
module Positions {
  import opened Common
  import opened Slippage

  datatype PositionConfig = PositionConfig(
    baseSize: real,
    minSize: real,
    maxSize: real,
    maxSlippagePercent: real,
    slippageAdjustmentFactor: real,
    minGapPercent: real,
    optimalGapPercent: real,
    enableSplitOrders: bool,
    maxSplits: int,
    splitDelayMs: int,
    maxCorrelation: real,
    maxSingleMarketExposure: real,
    maxTotalExposure: real)

  const DefaultPositionConfig := PositionConfig(
    10000.0, 100.0, 50000.0, 1.0, 0.8, 1.0, 3.0, true, 10, 1000, 0.7, 20000.0, 100000.0)

  /** The divisors the source uses unguarded, and a split count it can build. */
  predicate Workable(cfg: PositionConfig)
  {
    cfg.maxSize != 0.0 && cfg.maxTotalExposure != 0.0 && cfg.maxSlippagePercent > 0.0 && cfg.maxSplits >= 1
  }

  /** The two market readings the sizing uses. */
  datatype MarketConditions = MarketConditions(volatility: real, liquidityScore: real)

  datatype Adjustment = Adjustment(multiplier: real, score: real)

  // ---------------------------------------------------------------------------
  // The four tabulated adjustments
  // ---------------------------------------------------------------------------

  /** A proper fraction of a positive whole. */
  lemma FractionInUnit(part: real, whole: real)
    requires 0.0 <= part < whole
    ensures 0.0 <= part / whole < 1.0
  {
    var q := part / whole;
    assert q * whole == part;
    if q >= 1.0 {
      assert false;
    }
  }

  /** `_adjust_for_price_gap`: no entry below the minimum gap, a linear ramp
      from 0.5x up to the optimal gap, then up to 2x above it. */
  function GapAdjustment(gap: real, cfg: PositionConfig): (a: Adjustment)
    ensures a.multiplier == 0.0 <==> gap < cfg.minGapPercent
    ensures a.multiplier == 0.0 || 0.5 <= a.multiplier <= 2.0
    ensures 0.0 <= a.score <= 1.0
    ensures gap >= cfg.optimalGapPercent && gap >= cfg.minGapPercent ==>
              a == Adjustment(Min(2.0, 1.0 + (gap - cfg.optimalGapPercent) * 0.2), 1.0)
    ensures cfg.minGapPercent <= gap < cfg.optimalGapPercent ==>
              var ratio := (gap - cfg.minGapPercent) / (cfg.optimalGapPercent - cfg.minGapPercent);
              a == Adjustment(0.5 + ratio * 0.5, ratio)
  {
    if gap < cfg.minGapPercent then Adjustment(0.0, 0.0)
    else if gap >= cfg.optimalGapPercent then Adjustment(Min(2.0, 1.0 + (gap - cfg.optimalGapPercent) * 0.2), 1.0)
    else
      var ratio := (gap - cfg.minGapPercent) / (cfg.optimalGapPercent - cfg.minGapPercent);
      FractionInUnit(gap - cfg.minGapPercent, cfg.optimalGapPercent - cfg.minGapPercent);
      Adjustment(0.5 + ratio * 0.5, ratio)
  }

  /** A wider gap never shrinks the gap multiplier. */
  lemma GapAdjustmentMonotone(g1: real, g2: real, cfg: PositionConfig)
    requires g1 <= g2
    ensures GapAdjustment(g1, cfg).multiplier <= GapAdjustment(g2, cfg).multiplier
  {
    if cfg.minGapPercent <= g1 < cfg.optimalGapPercent {
      var span := cfg.optimalGapPercent - cfg.minGapPercent;
      FractionInUnit(g1 - cfg.minGapPercent, span);
      if g2 < cfg.optimalGapPercent {
        DivideKeepsOrder(g1 - cfg.minGapPercent, g2 - cfg.minGapPercent, span);
      }
    }
  }

  /** The visible depth: the first ten levels of each side. */
  function VisibleDepth(book: Book): real
  {
    Depth(Take(book.bids, 10)) + Depth(Take(book.asks, 10))
  }

  /** `_adjust_for_liquidity`: four tiers on the liquidity score and visible depth. */
  function LiquidityAdjustment(book: Book, liquidityScore: real): (a: Adjustment)
    ensures a.multiplier in {1.5, 1.0, 0.7, 0.3}
    ensures a.multiplier == 1.5 <==> liquidityScore > 0.8 && VisibleDepth(book) > 100000.0
    ensures a.multiplier == 0.3 <==> !(liquidityScore > 0.3 && VisibleDepth(book) > 10000.0)
    ensures 0.2 <= a.score <= 1.0
    ensures var deep, fair, thin := liquidityScore > 0.8 && VisibleDepth(book) > 100000.0,
                                    liquidityScore > 0.5 && VisibleDepth(book) > 50000.0,
                                    liquidityScore > 0.3 && VisibleDepth(book) > 10000.0;
            && (deep ==> a == Adjustment(1.5, 1.0))
            && (!deep && fair ==> a == Adjustment(1.0, 0.7))
            && (!deep && !fair && thin ==> a == Adjustment(0.7, 0.5))
            && (!deep && !fair && !thin ==> a == Adjustment(0.3, 0.2))
  {
    var depth := VisibleDepth(book);
    if liquidityScore > 0.8 && depth > 100000.0 then Adjustment(1.5, 1.0)
    else if liquidityScore > 0.5 && depth > 50000.0 then Adjustment(1.0, 0.7)
    else if liquidityScore > 0.3 && depth > 10000.0 then Adjustment(0.7, 0.5)
    else Adjustment(0.3, 0.2)
  }

  /** A higher liquidity score on a book at least as deep never lowers the liquidity multiplier. */
  lemma LiquidityAdjustmentMonotone(thin: Book, deep: Book, s1: real, s2: real)
    requires VisibleDepth(thin) <= VisibleDepth(deep) && s1 <= s2
    ensures LiquidityAdjustment(thin, s1).multiplier <= LiquidityAdjustment(deep, s2).multiplier
  {
  }

  /** `_adjust_for_volatility`: four tiers, smaller positions when volatile. */
  function VolatilityAdjustment(volatility: real): (a: Adjustment)
    ensures 0.4 <= a.multiplier <= 1.2 && 0.2 <= a.score <= 0.9
    ensures a.multiplier > 1.0 <==> volatility < 0.1
    ensures volatility < 0.1 ==> a == Adjustment(1.2, 0.9)
    ensures 0.1 <= volatility < 0.3 ==> a == Adjustment(1.0, 0.7)
    ensures 0.3 <= volatility < 0.5 ==> a == Adjustment(0.7, 0.5)
    ensures 0.5 <= volatility ==> a == Adjustment(0.4, 0.2)
  {
    if volatility < 0.1 then Adjustment(1.2, 0.9)
    else if volatility < 0.3 then Adjustment(1.0, 0.7)
    else if volatility < 0.5 then Adjustment(0.7, 0.5)
    else Adjustment(0.4, 0.2)
  }

  /** More volatility never enlarges the volatility multiplier. */
  lemma VolatilityAdjustmentAntitone(v1: real, v2: real)
    requires v1 <= v2
    ensures VolatilityAdjustment(v2).multiplier <= VolatilityAdjustment(v1).multiplier
  {
  }

  /** `_adjust_for_exposure`: four tiers on the share of the exposure budget in use. */
  function ExposureAdjustment(current: real, maxExposure: real): (a: Adjustment)
    requires maxExposure != 0.0
    ensures 0.2 <= a.multiplier <= 1.2 && 0.2 <= a.score <= 1.0
    ensures maxExposure > 0.0 && current >= 0.8 * maxExposure ==> a == Adjustment(0.2, 0.2)
    ensures maxExposure > 0.0 && current < 0.3 * maxExposure ==> a == Adjustment(1.2, 1.0)
    ensures var ratio := current / maxExposure;
            && (ratio < 0.3 ==> a == Adjustment(1.2, 1.0))
            && (0.3 <= ratio < 0.6 ==> a == Adjustment(1.0, 0.8))
            && (0.6 <= ratio < 0.8 ==> a == Adjustment(0.6, 0.5))
            && (0.8 <= ratio ==> a == Adjustment(0.2, 0.2))
  {
    var ratio := current / maxExposure;
    if ratio < 0.3 then Adjustment(1.2, 1.0)
    else if ratio < 0.6 then Adjustment(1.0, 0.8)
    else if ratio < 0.8 then Adjustment(0.6, 0.5)
    else Adjustment(0.2, 0.2)
  }

  /** Against a positive budget, more exposure in use never enlarges the exposure multiplier. */
  lemma ExposureAdjustmentAntitone(c1: real, c2: real, maxExposure: real)
    requires maxExposure > 0.0 && c1 <= c2
    ensures ExposureAdjustment(c2, maxExposure).multiplier <= ExposureAdjustment(c1, maxExposure).multiplier
  {
    DivideKeepsOrder(c1, c2, maxExposure);
  }

  // ---------------------------------------------------------------------------
  // Slippage estimate
  // ---------------------------------------------------------------------------

  /** `_estimate_slippage` walks the asks and then the bids as one list. */
  function EstimateLevels(book: Book): seq<Level>
  {
    book.asks + book.bids
  }

  /** The slippage assumed when the book cannot tell. */
  const UnknownSlippage := 5.0

  /** `_estimate_slippage`: the absolute percentage distance of the average fill
      price from the first listed price, or 5% when nothing can be filled. A
      first price of 0 makes the source divide by zero; that is `None`. */
  function EstimateSlippage(size: real, book: Book): (r: Option<real>)
    ensures var levels := EstimateLevels(book);
      (|levels| == 0 || Filled(levels, size).size == 0.0 ==> r == Some(UnknownSlippage))
      && (r.None? <==> |levels| > 0 && Filled(levels, size).size != 0.0 && levels[0].price == 0.0)
    ensures r.Some? ==> r.value >= 0.0
    ensures var levels := EstimateLevels(book);
      r.Some? && |levels| > 0 && Filled(levels, size).size != 0.0 ==>
        PercentOf(r.value, Abs(Filled(levels, size).cost / Filled(levels, size).size - levels[0].price), Abs(levels[0].price))
  {
    var levels := EstimateLevels(book);
    if |levels| == 0 then Some(UnknownSlippage)
    else
      var fill := Filled(levels, size);
      if fill.size == 0.0 then Some(UnknownSlippage)
      else if levels[0].price == 0.0 then None
      else Some(AbsPercent(fill.cost / fill.size - levels[0].price, levels[0].price))
  }

  /** `abs(diff / base * 100)`. */
  function AbsPercent(diff: real, base: real): (r: real)
    requires base != 0.0
    ensures r >= 0.0 && PercentOf(r, Abs(diff), Abs(base))
  {
    var q := diff / base * 100.0;
    assert q * base == diff * 100.0;
    assert Abs(q) * Abs(base) == Abs(diff) * 100.0 by {
      if base < 0.0 {
        assert Abs(base) == -base;
        assert Abs(diff) == Abs(-diff);
        assert (-q) * (-base) == q * base;
      }
    }
    Abs(q)
  }

  // ---------------------------------------------------------------------------
  // Exponential split
  // ---------------------------------------------------------------------------

  /** Each slice is 70% of the one before. */
  const Decay := 0.7

  lemma {:induction false} DecayPowBounds(n: nat)
    ensures 0.0 < Pow(Decay, n) <= 1.0
    ensures n >= 1 ==> Pow(Decay, n) < 1.0
  {
    if n > 0 {
      DecayPowBounds(n - 1);
    }
  }

  lemma {:induction false} DecayPowAntitone(i: nat, j: nat)
    requires i <= j
    ensures Pow(Decay, j) <= Pow(Decay, i)
    decreases j - i
  {
    if i < j {
      DecayPowAntitone(i, j - 1);
      DecayPowBounds(j - 1);
    }
  }

  function Geometric(first: real, n: nat): (r: seq<real>)
    ensures |r| == n && forall i :: 0 <= i < n ==> r[i] == first * Pow(Decay, i)
  {
    seq(n, i requires 0 <= i < n => first * Pow(Decay, i))
  }

  /** One more term of the geometric series. */
  lemma GeometricStep(sum: real, first: real, p: real)
    requires sum * (1.0 - Decay) == first * (1.0 - p)
    ensures (sum + first * p) * (1.0 - Decay) == first * (1.0 - Decay * p)
  {
    assert (sum + first * p) * (1.0 - Decay) == sum * (1.0 - Decay) + first * p * (1.0 - Decay);
  }

  lemma GeometricSnoc(first: real, n: nat)
    requires n >= 1
    ensures Sum(Geometric(first, n)) == Sum(Geometric(first, n - 1)) + first * Pow(Decay, n - 1)
  {
    var g, h := Geometric(first, n), Geometric(first, n - 1) + [first * Pow(Decay, n - 1)];
    assert |g| == |h|;
    assert forall i :: 0 <= i < |g| ==> g[i] == h[i];
    assert g == h;
    SumAppend(Geometric(first, n - 1), [first * Pow(Decay, n - 1)]);
    SumSingleton(first * Pow(Decay, n - 1));
  }

  /** The geometric-series sum: `(1 - 0.7) * sum = first * (1 - 0.7^n)`. */
  lemma {:induction false} GeometricSum(first: real, n: nat)
    ensures Sum(Geometric(first, n)) * (1.0 - Decay) == first * (1.0 - Pow(Decay, n))
  {
    if n > 0 {
      var prev, p := Sum(Geometric(first, n - 1)), Pow(Decay, n - 1);
      GeometricSum(first, n - 1);
      GeometricSnoc(first, n);
      GeometricStep(prev, first, p);
      assert Pow(Decay, n) == Decay * p;
    }
  }

  /** The first slice of a decaying split of `total` into `n` slices. */
  function FirstSlice(total: real, n: nat): (first: real)
    requires n >= 1
    ensures first * (1.0 - Pow(Decay, n)) == total * (1.0 - Decay)
    ensures total >= 0.0 ==> first >= 0.0
  {
    DecayPowBounds(n);
    var d := 1.0 - Pow(Decay, n);
    var first := total * (1.0 - Decay) / d;
    assert first * d == total * (1.0 - Decay);
    assert total >= 0.0 ==> first >= 0.0 by {
      if total >= 0.0 && first < 0.0 {
        assert false;
      }
    }
    first
  }

  /** The uncorrected slices already add up to `total`. */
  lemma GeometricSplitSum(total: real, n: nat)
    requires n >= 1
    ensures Sum(Geometric(FirstSlice(total, n), n)) == total
  {
    var first := FirstSlice(total, n);
    GeometricSum(first, n);
    var sum := Sum(Geometric(first, n));
    assert sum * (1.0 - Decay) == total * (1.0 - Decay);
  }

  /** `_calculate_exponential_splits`: geometric slices, the last one corrected
      so that they add up to `total`. With exact arithmetic the correction is
      zero and the slices are exactly geometric. */
  function ExponentialSplits(total: real, n: nat): (r: seq<real>)
    requires n >= 1
    ensures |r| == n && Sum(r) == total
    ensures r == Geometric(FirstSlice(total, n), n)
  {
    var raw := Geometric(FirstSlice(total, n), n);
    var adjustment := total - Sum(raw);
    assert raw[..n - 1] + [raw[n - 1]] == raw;
    SumBumpLast(raw[..n - 1], raw[n - 1], adjustment);
    GeometricSplitSum(total, n);
    raw[..n - 1] + [raw[n - 1] + adjustment]
  }

  /** A non-negative total is split into slices that never grow. */
  lemma ExponentialSplitsNonIncreasing(total: real, n: nat, i: nat, j: nat)
    requires n >= 1 && total >= 0.0 && i <= j < n
    ensures ExponentialSplits(total, n)[j] <= ExponentialSplits(total, n)[i]
    ensures ExponentialSplits(total, n)[j] >= 0.0
  {
    var first := FirstSlice(total, n);
    DecayPowAntitone(i, j);
    DecayPowBounds(j);
    var a, b := Pow(Decay, i), Pow(Decay, j);
    assert first * (a - b) >= 0.0;
    assert first * a - first * b == first * (a - b);
    assert first * b >= 0.0;
  }

  // ---------------------------------------------------------------------------
  // Split strategy
  // ---------------------------------------------------------------------------

  datatype SplitStrategy = SplitStrategy(enabled: bool, numSplits: int, orders: seq<SplitOrder>)

  /** Whether `_determine_split_strategy` splits at all. */
  predicate ShouldSplit(slippage: real, volatility: real, cfg: PositionConfig)
  {
    cfg.enableSplitOrders && (slippage > cfg.maxSlippagePercent || volatility > 0.3)
  }

  /** The number of slices: one more than whole multiples of the slippage
      limit, at least 2, at most `maxSplits`. */
  function SplitCount(slippage: real, cfg: PositionConfig): (n: int)
    requires Workable(cfg)
    ensures 1 <= n <= cfg.maxSplits
    ensures n == cfg.maxSplits || n == 2 || n == Trunc(slippage / cfg.maxSlippagePercent) + 1
    ensures var t := Trunc(slippage / cfg.maxSlippagePercent) + 1;
            && (t >= cfg.maxSplits || cfg.maxSplits <= 2 ==> n == cfg.maxSplits)
            && (t <= 2 < cfg.maxSplits ==> n == 2)
            && (2 <= t < cfg.maxSplits ==> n == t)
  {
    Min(cfg.maxSplits as real, Max(2.0, (Trunc(slippage / cfg.maxSlippagePercent) + 1) as real)).Floor
  }

  /** `_determine_split_strategy`. */
  function SplitStrategyFor(total: real, slippage: real, volatility: real, cfg: PositionConfig): (s: SplitStrategy)
    requires Workable(cfg)
    ensures s.enabled == ShouldSplit(slippage, volatility, cfg)
    ensures !s.enabled ==> s.numSplits == 1 && s.orders == [SplitOrder(total, Market, 0, 0.0)]
    ensures s.enabled ==> s.numSplits == SplitCount(slippage, cfg) && |s.orders| == s.numSplits
    ensures s.enabled ==> forall k :: 0 <= k < |s.orders| ==> s.orders[k].priceOffset == k as real * 0.001
    ensures Staggered(s.orders, cfg.splitDelayMs) && MarketFirst(s.orders)
    ensures Sum(Sizes(s.orders)) == total
    ensures s.enabled ==> s.numSplits >= 1 && Sizes(s.orders) == ExponentialSplits(total, s.numSplits)
  {
    if !ShouldSplit(slippage, volatility, cfg) then
      SumSingleton(total);
      assert Sizes([SplitOrder(total, Market, 0, 0.0)]) == [total];
      SplitStrategy(false, 1, [SplitOrder(total, Market, 0, 0.0)])
    else
      var n := SplitCount(slippage, cfg);
      var sizes := ExponentialSplits(total, n);
      var orders := seq(n, i requires 0 <= i < n =>
        SplitOrder(sizes[i], if i == 0 then Market else Limit, i * cfg.splitDelayMs, i as real * 0.001));
      assert Sizes(orders) == sizes;
      SplitStrategy(true, n, orders)
  }

  // ---------------------------------------------------------------------------
  // Scores
  // ---------------------------------------------------------------------------

  /** `_calculate_position_confidence`: a weighted blend of the four adjustment
      scores and a slippage score falling from 1 at 0% to 0 at 5%. */
  function PositionConfidence(gapScore: real, liquidityScore: real, volatilityScore: real, exposureScore: real, slippage: real): (c: real)
    ensures 0.0 <= c <= 1.0
    ensures var blend := gapScore * 0.3 + liquidityScore * 0.25 + volatilityScore * 0.2 + exposureScore * 0.15
                         + SlippageScore(slippage) * 0.1;
            c == Clamp(blend, 0.0, 1.0)
    ensures 0.0 <= gapScore <= 1.0 && 0.0 <= liquidityScore <= 1.0 && 0.0 <= volatilityScore <= 1.0
            && 0.0 <= exposureScore <= 1.0 && slippage >= 0.0 ==>
              c == gapScore * 0.3 + liquidityScore * 0.25 + volatilityScore * 0.2 + exposureScore * 0.15
                   + SlippageScore(slippage) * 0.1
  {
    var blend := gapScore * 0.3 + liquidityScore * 0.25 + volatilityScore * 0.2 + exposureScore * 0.15
                 + SlippageScore(slippage) * 0.1;
    Min(Max(blend, 0.0), 1.0)
  }

  /** The slippage part of the confidence: 1 at no slippage, falling linearly to 0 at 5%. */
  function SlippageScore(slippage: real): (s: real)
    ensures 0.0 <= s
    ensures slippage >= 0.0 ==> s <= 1.0
    ensures slippage >= 5.0 <==> s == 0.0
    ensures slippage <= 5.0 ==> s * 5.0 == 5.0 - slippage
  {
    Max(0.0, 1.0 - slippage / 5.0)
  }

  /** More expected slippage never raises the confidence. */
  lemma PositionConfidenceAntitone(g: real, l: real, v: real, e: real, s1: real, s2: real)
    requires s1 <= s2
    ensures PositionConfidence(g, l, v, e, s2) <= PositionConfidence(g, l, v, e, s1)
  {
  }

  /** `_calculate_risk_score`: size, volatility, exposure and illiquidity
      weighted 0.3/0.3/0.2/0.2, capped at 1. */
  function RiskScore(size: real, conditions: MarketConditions, exposure: real, cfg: PositionConfig): (r: real)
    requires Workable(cfg)
    ensures r <= 1.0
    ensures (size >= 0.0 && cfg.maxSize > 0.0 && conditions.volatility >= 0.0 && exposure >= 0.0 &&
             cfg.maxTotalExposure > 0.0 && conditions.liquidityScore <= 1.0) ==> r >= 0.0
    ensures var raw := size / cfg.maxSize * 0.3 + conditions.volatility * 0.3
                       + exposure / cfg.maxTotalExposure * 0.2 + (1.0 - conditions.liquidityScore) * 0.2;
            (raw < 1.0 ==> r == raw) && (raw >= 1.0 ==> r == 1.0)
  {
    var sizeRisk := size / cfg.maxSize * 0.3;
    var volatilityRisk := conditions.volatility * 0.3;
    var exposureRisk := exposure / cfg.maxTotalExposure * 0.2;
    var liquidityRisk := (1.0 - conditions.liquidityScore) * 0.2;
    Min(sizeRisk + volatilityRisk + exposureRisk + liquidityRisk, 1.0)
  }

  /** Dividing by a positive number keeps the order. */
  lemma DivideKeepsOrder(x: real, y: real, d: real)
    requires x <= y && d > 0.0
    ensures x / d <= y / d
  {
  }

  /** A larger position, more volatility, more exposure or less liquidity never
      lowers the risk score (for positive size and exposure limits). */
  lemma RiskScoreMonotone(s1: real, s2: real, c1: MarketConditions, c2: MarketConditions, e1: real, e2: real, cfg: PositionConfig)
    requires Workable(cfg) && cfg.maxSize > 0.0 && cfg.maxTotalExposure > 0.0
    requires s1 <= s2 && c1.volatility <= c2.volatility && e1 <= e2 && c1.liquidityScore >= c2.liquidityScore
    ensures RiskScore(s1, c1, e1, cfg) <= RiskScore(s2, c2, e2, cfg)
  {
    DivideKeepsOrder(s1, s2, cfg.maxSize);
    DivideKeepsOrder(e1, e2, cfg.maxTotalExposure);
  }

  // ---------------------------------------------------------------------------
  // The sizing pipeline
  // ---------------------------------------------------------------------------

  /** The adjustment notes the source records as text. */
  datatype AdjustmentNote =
    | PriceGapNote(multiplier: real)
    | LiquidityNote(multiplier: real)
    | VolatilityNote(multiplier: real)
    | ExposureNote(multiplier: real)
    | SlippageReductionNote(factor: real)

  datatype PositionPlan = PositionPlan(
    recommendedSize: real,
    split: SplitStrategy,
    confidence: real,
    adjustments: seq<AdjustmentNote>,
    estimatedSlippage: real,
    riskScore: real)

  /** The size after the four tabulated adjustments. */
  function AdjustedSize(gap: real, conditions: MarketConditions, exposure: real, book: Book, cfg: PositionConfig): real
    requires Workable(cfg)
  {
    cfg.baseSize * GapAdjustment(gap, cfg).multiplier * LiquidityAdjustment(book, conditions.liquidityScore).multiplier
      * VolatilityAdjustment(conditions.volatility).multiplier * ExposureAdjustment(exposure, cfg.maxTotalExposure).multiplier
  }

  /** Shrinking for slippage above the limit: by `limit / slippage` and the
      configured factor. */
  function SlippageReduced(size: real, slippage: real, cfg: PositionConfig): (r: real)
    requires Workable(cfg)
    ensures slippage <= cfg.maxSlippagePercent ==> r == size
    ensures slippage > cfg.maxSlippagePercent && size >= 0.0 && 0.0 <= cfg.slippageAdjustmentFactor <= 1.0 ==> 0.0 <= r <= size
  {
    if slippage > cfg.maxSlippagePercent then
      var factor := cfg.maxSlippagePercent / slippage;
      var scale := factor * cfg.slippageAdjustmentFactor;
      assert size >= 0.0 && 0.0 <= cfg.slippageAdjustmentFactor <= 1.0 ==> 0.0 <= size * scale <= size by {
        if size >= 0.0 && 0.0 <= cfg.slippageAdjustmentFactor <= 1.0 {
          FractionInUnit(cfg.maxSlippagePercent, slippage);
          ScaleWithinUnit(factor, cfg.slippageAdjustmentFactor);
          ScaleWithinUnit(size, scale);
        }
      }
      size * scale
    else size
  }

  /** `calculate_dynamic_position_size`. `None` exactly when the slippage
      estimate divides by a zero price. */
  function DynamicPositionSize(gap: real, conditions: MarketConditions, exposure: real, book: Book, cfg: PositionConfig)
    : (r: Option<PositionPlan>)
    requires Workable(cfg)
    ensures r.None? <==> EstimateSlippage(AdjustedSize(gap, conditions, exposure, book, cfg), book).None?
    ensures r.Some? ==> r.value.recommendedSize >= cfg.minSize
    ensures r.Some? && cfg.minSize <= cfg.maxSize ==> r.value.recommendedSize <= cfg.maxSize
    ensures r.Some? && gap < cfg.minGapPercent && 0.0 <= cfg.minSize <= cfg.maxSize ==> r.value.recommendedSize == cfg.minSize
    ensures r.Some? ==> 0.0 <= r.value.confidence <= 1.0 && r.value.riskScore <= 1.0
    ensures r.Some? ==> Sum(Sizes(r.value.split.orders)) == r.value.recommendedSize
    ensures r.Some? ==> |r.value.adjustments| == 4 || |r.value.adjustments| == 5
    ensures r.Some? ==> EstimateSlippage(AdjustedSize(gap, conditions, exposure, book, cfg), book) == Some(r.value.estimatedSlippage)
    ensures r.Some? ==>
              r.value.recommendedSize
              == Max(cfg.minSize, Min(SlippageReduced(AdjustedSize(gap, conditions, exposure, book, cfg), r.value.estimatedSlippage, cfg),
                                     cfg.maxSize))
    ensures r.Some? ==> r.value.split == SplitStrategyFor(r.value.recommendedSize, r.value.estimatedSlippage, conditions.volatility, cfg)
    ensures r.Some? ==>
              r.value.confidence
              == PositionConfidence(GapAdjustment(gap, cfg).score, LiquidityAdjustment(book, conditions.liquidityScore).score,
                                    VolatilityAdjustment(conditions.volatility).score,
                                    ExposureAdjustment(exposure, cfg.maxTotalExposure).score, r.value.estimatedSlippage)
    ensures r.Some? ==> r.value.riskScore == RiskScore(r.value.recommendedSize, conditions, exposure, cfg)
    ensures r.Some? ==> (|r.value.adjustments| == 5 <==> r.value.estimatedSlippage > cfg.maxSlippagePercent)
  {
    var gapAdj := GapAdjustment(gap, cfg);
    var liquidityAdj := LiquidityAdjustment(book, conditions.liquidityScore);
    var volatilityAdj := VolatilityAdjustment(conditions.volatility);
    var exposureAdj := ExposureAdjustment(exposure, cfg.maxTotalExposure);
    var size := AdjustedSize(gap, conditions, exposure, book, cfg);
    var notes := [PriceGapNote(gapAdj.multiplier), LiquidityNote(liquidityAdj.multiplier),
                  VolatilityNote(volatilityAdj.multiplier), ExposureNote(exposureAdj.multiplier)];
    match EstimateSlippage(size, book)
    case None => None
    case Some(slippage) =>
      var reduced := SlippageReduced(size, slippage, cfg);
      var allNotes := if slippage > cfg.maxSlippagePercent
                      then notes + [SlippageReductionNote(cfg.maxSlippagePercent / slippage)]
                      else notes;
      var clamped := Max(cfg.minSize, Min(reduced, cfg.maxSize));
      assert gap < cfg.minGapPercent ==> size == 0.0 && reduced == 0.0;
      Some(PositionPlan(
        clamped,
        SplitStrategyFor(clamped, slippage, conditions.volatility, cfg),
        PositionConfidence(gapAdj.score, liquidityAdj.score, volatilityAdj.score, exposureAdj.score, slippage),
        allNotes,
        slippage,
        RiskScore(clamped, conditions, exposure, cfg)))
  }
}

=== FILE: risk.dfy ===
/** The pre-trade risk gate (`AdvancedRiskController` in
    prediction_arbitrage/dynamic_position_management.py): five independent
    checks, a weighted risk score over the failed ones, and one recommendation
    per failure. Also the monitor's mark-to-market profit and loss. */
module RiskControl {
  import opened Common

  /** An open or proposed position. `category` is absent when the record has none. */
  datatype Position = Position(platform: string, size: real, side: string, category: Option<string>)

  /** The market readings the gate consults; a missing reading is absent. */
  datatype MarketData = MarketData(volatility: Option<real>, liquidityScore: Option<real>)

  datatype RiskControllerConfig = RiskControllerConfig(maxDailyLoss: real, maxPositionCorrelation: real)

  const DefaultRiskController := RiskControllerConfig(5000.0, 0.7)

  /** 5% of a 100000 capital. */
  const VarLimit := 5000.0

  datatype Metric = DailyLoss | Correlation | ValueAtRisk | Concentration | MarketConditions

  /** Why a check failed, with the figure the source prints. */
  datatype FailReason =
    | DailyLossLimitReached(dailyPnl: real)
    | HighCorrelation(correlation: real)
    | VarExceedsLimit(portfolioVar: real)
    | PlatformConcentration(platform: string, exposure: real)
    | VolatilityTooHigh
    | LiquidityTooLow

  datatype Check = Check(metric: Metric, failure: Option<FailReason>)
  {
    predicate Passed() { failure.None? }
  }

  // ---------------------------------------------------------------------------
  // Daily loss
  // ---------------------------------------------------------------------------

  /** `_check_daily_loss_limit` as written: it compares the absolute daily
      result with the limit, so a large daily profit blocks trading as well. */
  function DailyLossCheckAsWritten(dailyPnl: real, cfg: RiskControllerConfig): (c: Check)
    ensures c.metric == DailyLoss
    ensures c.Passed() <==> Abs(dailyPnl) < cfg.maxDailyLoss
  {
    if Abs(dailyPnl) >= cfg.maxDailyLoss then Check(DailyLoss, Some(DailyLossLimitReached(dailyPnl)))
    else Check(DailyLoss, None)
  }

  /** A profit of 6000 against the default limit of 5000 is reported as the
      daily loss limit being reached. */
  lemma DailyLossCheckBlocksProfit()
    ensures !DailyLossCheckAsWritten(6000.0, DefaultRiskController).Passed()
    ensures DailyLossCheck(6000.0, DefaultRiskController).Passed()
  {
  }

  /** The daily-loss check on losses only: it fails once the day's loss reaches the limit. */
  function DailyLossCheck(dailyPnl: real, cfg: RiskControllerConfig): (c: Check)
    ensures c.metric == DailyLoss
    ensures c.Passed() <==> -dailyPnl < cfg.maxDailyLoss
    ensures dailyPnl <= 0.0 ==> c == DailyLossCheckAsWritten(dailyPnl, cfg)
    ensures dailyPnl >= 0.0 && cfg.maxDailyLoss > 0.0 ==> c.Passed()
  {
    if -dailyPnl >= cfg.maxDailyLoss then Check(DailyLoss, Some(DailyLossLimitReached(dailyPnl)))
    else Check(DailyLoss, None)
  }

  // ---------------------------------------------------------------------------
  // Correlation
  // ---------------------------------------------------------------------------

  /** `_calculate_correlation`: a rule of thumb on platform, category and side. */
  function PairCorrelation(p1: Position, p2: Position): (c: real)
    ensures -1.0 <= c <= 1.0
    ensures p1.side == p2.side ==> c >= 0.2
    ensures p1.side != p2.side ==> c < 0.0
    ensures var same := (if p1.platform == p2.platform then 0.6 else 0.2) + (if p1.category == p2.category then 0.2 else 0.0);
            (p1.side == p2.side ==> c == same) && (p1.side != p2.side ==> c == -0.5 * same)
  {
    var base := if p1.platform == p2.platform then 0.6 else 0.2;
    var withCategory := if p1.category == p2.category then base + 0.2 else base;
    var signed := if p1.side != p2.side then withCategory * -0.5 else withCategory;
    Min(Max(signed, -1.0), 1.0)
  }

  lemma PairCorrelationSymmetric(p1: Position, p2: Position)
    ensures PairCorrelation(p1, p2) == PairCorrelation(p2, p1)
  {
  }

  /** Under the default limit of 0.7, an entry is refused for correlation
      exactly when some open position shares its platform, category and side. */
  lemma DefaultCorrelationRefusesTwins(newPosition: Position, existing: seq<Position>)
    ensures !CorrelationCheck(newPosition, existing, DefaultRiskController).Passed() <==>
              exists i :: 0 <= i < |existing| && existing[i].platform == newPosition.platform
                && existing[i].category == newPosition.category && existing[i].side == newPosition.side
  {
    forall i | 0 <= i < |existing|
      ensures PairCorrelation(newPosition, existing[i]) > 0.7 <==>
                existing[i].platform == newPosition.platform && existing[i].category == newPosition.category
                && existing[i].side == newPosition.side
    {
    }
  }

  /** `_check_position_correlation`: fails at the first existing position
      correlated above the limit. */
  function CorrelationCheck(newPosition: Position, existing: seq<Position>, cfg: RiskControllerConfig): (c: Check)
    ensures c.metric == Correlation
    ensures c.Passed() <==> forall i :: 0 <= i < |existing| ==> PairCorrelation(newPosition, existing[i]) <= cfg.maxPositionCorrelation
    ensures !c.Passed() ==> exists i :: 0 <= i < |existing| && c.failure == Some(HighCorrelation(PairCorrelation(newPosition, existing[i])))
                                      && PairCorrelation(newPosition, existing[i]) > cfg.maxPositionCorrelation
  {
    if |existing| == 0 then Check(Correlation, None)
    else
      var corr := PairCorrelation(newPosition, existing[0]);
      if corr > cfg.maxPositionCorrelation then Check(Correlation, Some(HighCorrelation(corr)))
      else
        var rest := CorrelationCheck(newPosition, existing[1..], cfg);
        assert forall i :: 1 <= i < |existing| ==> existing[i] == existing[1..][i - 1];
        rest
  }

  // ---------------------------------------------------------------------------
  // Value at risk, concentration and market conditions
  // ---------------------------------------------------------------------------

  /** `_check_var_limit` with the simulated portfolio value-at-risk as input. */
  function VarCheck(portfolioVar: real): (c: Check)
    ensures c.metric == ValueAtRisk
    ensures c.Passed() <==> portfolioVar <= VarLimit
  {
    if portfolioVar > VarLimit then Check(ValueAtRisk, Some(VarExceedsLimit(portfolioVar)))
    else Check(ValueAtRisk, None)
  }

  /** Total size held on `platform`. */
  function PlatformExposure(positions: seq<Position>, platform: string): real
  {
    if |positions| == 0 then 0.0
    else (if positions[0].platform == platform then positions[0].size else 0.0) + PlatformExposure(positions[1..], platform)
  }

  function TotalExposure(positions: seq<Position>): real
  {
    if |positions| == 0 then 0.0 else positions[0].size + TotalExposure(positions[1..])
  }

  /** On a single platform the platform's exposure is the whole exposure. */
  lemma {:induction false} SinglePlatformExposure(positions: seq<Position>, platform: string)
    requires forall i :: 0 <= i < |positions| ==> positions[i].platform == platform
    ensures PlatformExposure(positions, platform) == TotalExposure(positions)
  {
    if |positions| > 0 {
      SinglePlatformExposure(positions[1..], platform);
    }
  }

  /** The share of the total above which one platform is too concentrated. */
  const ConcentrationShare := 0.4

  /** The first position, in portfolio order, whose platform holds more than
      40% of `total`; this is the first such platform in the source's
      insertion-ordered dictionary. */
  function FirstConcentrated(portfolio: seq<Position>, positions: seq<Position>, total: real): (r: Option<Position>)
    ensures r.None? <==> forall i :: 0 <= i < |positions| ==> PlatformExposure(portfolio, positions[i].platform) <= total * ConcentrationShare
    ensures r.Some? ==> r.value in positions && PlatformExposure(portfolio, r.value.platform) > total * ConcentrationShare
  {
    if |positions| == 0 then None
    else if PlatformExposure(portfolio, positions[0].platform) > total * ConcentrationShare then Some(positions[0])
    else
      var r := FirstConcentrated(portfolio, positions[1..], total);
      assert forall i :: 1 <= i < |positions| ==> positions[i] == positions[1..][i - 1];
      r
  }

  /** `_check_concentration_risk`: with the new position included, no platform
      may hold more than 40% of the total exposure. */
  function ConcentrationCheck(newPosition: Position, existing: seq<Position>): (c: Check)
    ensures c.metric == Concentration
    ensures var portfolio := existing + [newPosition];
      c.Passed() <==> forall i :: 0 <= i < |portfolio| ==>
        PlatformExposure(portfolio, portfolio[i].platform) <= TotalExposure(portfolio) * ConcentrationShare
  {
    var portfolio := existing + [newPosition];
    match FirstConcentrated(portfolio, portfolio, TotalExposure(portfolio))
    case None => Check(Concentration, None)
    case Some(p) => Check(Concentration, Some(PlatformConcentration(p.platform, PlatformExposure(portfolio, p.platform))))
  }

  /** A portfolio on one platform with positive exposure always fails the concentration check. */
  lemma SinglePlatformFailsConcentration(newPosition: Position, existing: seq<Position>)
    requires forall i :: 0 <= i < |existing| ==> existing[i].platform == newPosition.platform
    requires TotalExposure(existing + [newPosition]) > 0.0
    ensures !ConcentrationCheck(newPosition, existing).Passed()
  {
    var portfolio := existing + [newPosition];
    SinglePlatformExposure(portfolio, newPosition.platform);
    assert portfolio[|existing|] == newPosition;
  }

  /** `_check_market_conditions`: volatility above 0.8 fails first, then
      liquidity below 0.2; missing readings default to 0 and 1. */
  function MarketCheck(data: MarketData): (c: Check)
    ensures c.metric == MarketConditions
    ensures c.Passed() <==> GetOr(data.volatility, 0.0) <= 0.8 && GetOr(data.liquidityScore, 1.0) >= 0.2
    ensures data.volatility.None? && data.liquidityScore.None? ==> c.Passed()
  {
    if GetOr(data.volatility, 0.0) > 0.8 then Check(MarketConditions, Some(VolatilityTooHigh))
    else if GetOr(data.liquidityScore, 1.0) < 0.2 then Check(MarketConditions, Some(LiquidityTooLow))
    else Check(MarketConditions, None)
  }

  function GetOr(o: Option<real>, default: real): real
  {
    match o
    case Some(v) => v
    case None => default
  }

  // ---------------------------------------------------------------------------
  // Risk metrics and the verdict
  // ---------------------------------------------------------------------------

  function Weight(m: Metric): real
  {
    match m
    case DailyLoss => 0.3
    case Correlation => 0.2
    case ValueAtRisk => 0.25
    case Concentration => 0.15
    case MarketConditions => 0.1
  }

  const AllMetrics: seq<Metric> := [DailyLoss, Correlation, ValueAtRisk, Concentration, MarketConditions]

  lemma WeightsSumToOne()
    ensures Weight(DailyLoss) + Weight(Correlation) + Weight(ValueAtRisk) + Weight(Concentration) + Weight(MarketConditions) == 1.0
  {
  }

  datatype RiskLevel = Low | Medium | High | Critical

  /** `_get_risk_level`. */
  function LevelOf(score: real): (l: RiskLevel)
    ensures l == Low <==> score < 0.2
    ensures l == Medium <==> 0.2 <= score < 0.5
    ensures l == High <==> 0.5 <= score < 0.8
    ensures l == Critical <==> score >= 0.8
  {
    if score < 0.2 then Low
    else if score < 0.5 then Medium
    else if score < 0.8 then High
    else Critical
  }

  datatype Recommendation =
    | ReduceSize
    | Diversify
    | ReduceExposure
    | SpreadPlatforms
    | WaitForMarket

  function RecommendationFor(m: Metric): Recommendation
  {
    match m
    case DailyLoss => ReduceSize
    case Correlation => Diversify
    case ValueAtRisk => ReduceExposure
    case Concentration => SpreadPlatforms
    case MarketConditions => WaitForMarket
  }

  /** The five checks in the source's order. */
  predicate InOrder(checks: seq<Check>)
  {
    |checks| == 5 && forall k :: 0 <= k < 5 ==> checks[k].metric == AllMetrics[k]
  }

  /** 1 for a failed check, 0 for a passed one. */
  function Score(c: Check): (s: real)
    ensures s == 0.0 <==> c.Passed()
  {
    if c.Passed() then 0.0 else 1.0
  }

  /** The weighted sum of failed checks. */
  function TotalRiskScore(checks: seq<Check>): (t: real)
    requires InOrder(checks)
    ensures 0.0 <= t <= 1.0
    ensures t == 0.0 <==> forall k :: 0 <= k < 5 ==> checks[k].Passed()
    ensures (forall k :: 0 <= k < 5 ==> !checks[k].Passed()) ==> t == 1.0
  {
    Score(checks[0]) * Weight(checks[0].metric) + Score(checks[1]) * Weight(checks[1].metric)
      + Score(checks[2]) * Weight(checks[2].metric) + Score(checks[3]) * Weight(checks[3].metric)
      + Score(checks[4]) * Weight(checks[4].metric)
  }

  /** Failing more checks never lowers the score. */
  lemma TotalRiskScoreMonotone(a: seq<Check>, b: seq<Check>)
    requires InOrder(a) && InOrder(b)
    requires forall k :: 0 <= k < 5 && !a[k].Passed() ==> !b[k].Passed()
    ensures TotalRiskScore(a) <= TotalRiskScore(b)
  {
    assert forall k :: 0 <= k < 5 ==> Score(a[k]) <= Score(b[k]);
    assert forall k :: 0 <= k < 5 ==> a[k].metric == b[k].metric && Weight(a[k].metric) > 0.0;
  }

  /** When exactly check `k` fails, the score is that check's weight:
      0.3, 0.2, 0.25, 0.15 or 0.1 in check order. The three heavier
      checks alone give a medium risk, concentration or market conditions
      alone a low one. */
  lemma LoneFailureScore(checks: seq<Check>, k: nat)
    requires InOrder(checks) && k < 5 && !checks[k].Passed()
    requires forall l :: 0 <= l < 5 && l != k ==> checks[l].Passed()
    ensures TotalRiskScore(checks) == [0.3, 0.2, 0.25, 0.15, 0.1][k]
    ensures LevelOf(TotalRiskScore(checks)) == if k < 3 then Medium else Low
  {
    assert checks[0].metric == DailyLoss && checks[1].metric == Correlation && checks[2].metric == ValueAtRisk;
    assert checks[3].metric == Concentration && checks[4].metric == MarketConditions;
  }

  /** One recommendation per failed check, in check order. */
  function Recommendations(checks: seq<Check>): (r: seq<Recommendation>)
    ensures |r| <= |checks|
    ensures (forall k :: 0 <= k < |checks| ==> checks[k].Passed()) <==> |r| == 0
    ensures forall x :: x in r <==>
              exists k :: 0 <= k < |checks| && !checks[k].Passed() && RecommendationFor(checks[k].metric) == x
  {
    if |checks| == 0 then []
    else (if checks[0].Passed() then [] else [RecommendationFor(checks[0].metric)]) + Recommendations(checks[1..])
  }

  /** The reasons of the failed checks, in check order. */
  function FailedReasons(checks: seq<Check>): (r: seq<FailReason>)
    ensures |r| <= |checks|
    ensures (forall k :: 0 <= k < |checks| ==> checks[k].Passed()) <==> |r| == 0
    ensures forall x :: x in r <==> exists k :: 0 <= k < |checks| && checks[k].failure == Some(x)
  {
    if |checks| == 0 then []
    else (if checks[0].Passed() then [] else [checks[0].failure.value]) + FailedReasons(checks[1..])
  }

  lemma {:induction false} FailureCountsAgree(checks: seq<Check>)
    ensures |Recommendations(checks)| == |FailedReasons(checks)|
  {
    if |checks| > 0 {
      FailureCountsAgree(checks[1..]);
    }
  }

  datatype RiskMetrics = RiskMetrics(totalRiskScore: real, level: RiskLevel, recommendations: seq<Recommendation>)

  /** The gate's answer: allowed, or the failed reasons the source joins with " | ". */
  datatype Verdict = AllChecksPassed | Rejected(reasons: seq<FailReason>)

  /** The inputs of one entry decision. */
  datatype EntryRequest = EntryRequest(
    newPosition: Position,
    existing: seq<Position>,
    market: MarketData,
    dailyPnl: real,
    portfolioVar: real)

  function Checks(req: EntryRequest, cfg: RiskControllerConfig): (cs: seq<Check>)
    ensures InOrder(cs)
  {
    [DailyLossCheck(req.dailyPnl, cfg), CorrelationCheck(req.newPosition, req.existing, cfg),
     VarCheck(req.portfolioVar), ConcentrationCheck(req.newPosition, req.existing), MarketCheck(req.market)]
  }

  /** `evaluate_position_entry`. */
  function EvaluateEntry(req: EntryRequest, cfg: RiskControllerConfig): (r: (Verdict, RiskMetrics))
    ensures var cs := Checks(req, cfg);
      r.0 == AllChecksPassed <==> forall k :: 0 <= k < 5 ==> cs[k].Passed()
    ensures r.0.Rejected? ==> |r.0.reasons| == |r.1.recommendations| > 0
    ensures 0.0 <= r.1.totalRiskScore <= 1.0
    ensures r.0 == AllChecksPassed <==> r.1.totalRiskScore == 0.0
    ensures r.1.level == LevelOf(r.1.totalRiskScore)
    ensures r.0.Rejected? ==> r.0.reasons == FailedReasons(Checks(req, cfg))
    ensures r.1.totalRiskScore == TotalRiskScore(Checks(req, cfg))
    ensures r.1.recommendations == Recommendations(Checks(req, cfg))
  {
    var cs := Checks(req, cfg);
    var failed := FailedReasons(cs);
    var total := TotalRiskScore(cs);
    FailureCountsAgree(cs);
    var metrics := RiskMetrics(total, LevelOf(total), Recommendations(cs));
    if |failed| == 0 then (AllChecksPassed, metrics) else (Rejected(failed), metrics)
  }

  /** On a day without profit the gate's daily-loss check is the one the source writes. */
  lemma ChecksAgreeOnLosingDays(req: EntryRequest, cfg: RiskControllerConfig)
    requires req.dailyPnl <= 0.0
    ensures Checks(req, cfg)[0] == DailyLossCheckAsWritten(req.dailyPnl, cfg)
  {
  }

  /** Every check failing scores 1 and is critical. */
  lemma AllFailedIsCritical(req: EntryRequest, cfg: RiskControllerConfig)
    requires forall k :: 0 <= k < 5 ==> !Checks(req, cfg)[k].Passed()
    ensures EvaluateEntry(req, cfg).1.totalRiskScore == 1.0
    ensures EvaluateEntry(req, cfg).1.level == Critical
  {
  }

  // ---------------------------------------------------------------------------
  // Monitoring
  // ---------------------------------------------------------------------------

  /** `_calculate_real_time_pnl`: mark to the current price (0 when the market
      has no quote); a 'buy' gains as the price rises, any other side as it falls. */
  function RealTimePnl(side: string, entryPrice: real, size: real, currentPrice: Option<real>): (pnl: real)
    ensures var current := GetOr(currentPrice, 0.0);
      side == "buy" ==> pnl == (current - entryPrice) * size
  {
    var current := GetOr(currentPrice, 0.0);
    if side == "buy" then (current - entryPrice) * size else (entryPrice - current) * size
  }

  /** The two sides of the same position mirror each other. */
  lemma RealTimePnlMirror(entryPrice: real, size: real, currentPrice: Option<real>, other: string)
    requires other != "buy"
    ensures RealTimePnl(other, entryPrice, size, currentPrice) == -RealTimePnl("buy", entryPrice, size, currentPrice)
  {
  }
}

=== FILE: slippage.dfy ===
/** Slippage estimation and order splitting (prediction_arbitrage/slippage_management.py).
    An order walks the book from the best level outwards; the difference between
    the volume-weighted fill price and the best price is the slippage, and a large
    slippage is answered by splitting the order into slices. */
module Slippage {
  import opened Common

  datatype Level = Level(price: real, size: real)

  /** A book side that the source's dictionary lacks is empty here. */
  datatype Book = Book(bids: seq<Level>, asks: seq<Level>)

  /** `'buy'`, or any other side string, which the source treats as a sale. */
  datatype TradeSide = Buy | Sell

  /** A buy walks the asks, a sale the bids. */
  function Walked(book: Book, side: TradeSide): seq<Level>
  {
    match side
    case Buy => book.asks
    case Sell => book.bids
  }

  predicate NonNegativeSizes(levels: seq<Level>)
  {
    forall i :: 0 <= i < |levels| ==> levels[i].size >= 0.0
  }

  /** Total size of a run of levels. */
  function Depth(levels: seq<Level>): (d: real)
    ensures NonNegativeSizes(levels) ==> d >= 0.0
  {
    if |levels| == 0 then 0.0 else levels[0].size + Depth(levels[1..])
  }

  lemma {:induction false} DepthAppend(a: seq<Level>, b: seq<Level>)
    ensures Depth(a + b) == Depth(a) + Depth(b)
  {
    if |a| == 0 {
      assert a + b == b;
    } else {
      assert (a + b)[1..] == a[1..] + b;
      DepthAppend(a[1..], b);
    }
  }

  /** The leading `k` levels never hold more than the whole run. */
  lemma DepthPrefix(levels: seq<Level>, k: nat)
    requires k <= |levels| && NonNegativeSizes(levels)
    ensures 0.0 <= Depth(levels[..k]) <= Depth(levels)
  {
    assert levels == levels[..k] + levels[k..];
    DepthAppend(levels[..k], levels[k..]);
    assert NonNegativeSizes(levels[..k]) && NonNegativeSizes(levels[k..]);
  }

  // ---------------------------------------------------------------------------
  // Walking the book
  // ---------------------------------------------------------------------------

  datatype Fill = Fill(size: real, cost: real)

  /** One fill: take `min(level size, still wanted)` at the level's price. */
  function Step(acc: Fill, l: Level, want: real): Fill
  {
    var fill := Min(l.size, want - acc.size);
    Fill(acc.size + fill, acc.cost + fill * l.price)
  }

  /** The fill loop of `calculate_market_impact`: fill level by level until
      `want` is reached or the levels run out. */
  function Walk(levels: seq<Level>, want: real, acc: Fill): (r: Fill)
    ensures r.size <= Max(want, acc.size)
    ensures NonNegativeSizes(levels) && acc.size <= want ==> r.size == Min(want, acc.size + Depth(levels))
  {
    if |levels| == 0 || acc.size >= want then acc
    else Walk(levels[1..], want, Step(acc, levels[0], want))
  }

  /** What an order of `want` fills on `levels`, starting from nothing. */
  function Filled(levels: seq<Level>, want: real): (r: Fill)
    ensures want >= 0.0 ==> r.size <= want
    ensures NonNegativeSizes(levels) && want >= 0.0 ==> r.size == Min(want, Depth(levels))
  {
    Walk(levels, want, Fill(0.0, 0.0))
  }

  /** Every level is priced at least `p` (asks are quoted upwards from the best). */
  predicate PricedAtLeast(levels: seq<Level>, p: real)
  {
    forall i :: 0 <= i < |levels| ==> levels[i].price >= p
  }

  /** Every level is priced at most `p` (bids are quoted downwards from the best). */
  predicate PricedAtMost(levels: seq<Level>, p: real)
  {
    forall i :: 0 <= i < |levels| ==> levels[i].price <= p
  }

  /** One fill step keeps the cost on the same side of `p` times the size. */
  lemma StepCostAtLeast(acc: Fill, l: Level, want: real, p: real)
    requires acc.cost >= p * acc.size && acc.size < want && l.size >= 0.0 && l.price >= p
    ensures Step(acc, l, want).cost >= p * Step(acc, l, want).size
  {
    var fill := Min(l.size, want - acc.size);
    assert fill * l.price >= fill * p;
    assert p * (acc.size + fill) == p * acc.size + p * fill;
  }

  lemma StepCostAtMost(acc: Fill, l: Level, want: real, p: real)
    requires acc.cost <= p * acc.size && acc.size < want && l.size >= 0.0 && l.price <= p
    ensures Step(acc, l, want).cost <= p * Step(acc, l, want).size
  {
    var fill := Min(l.size, want - acc.size);
    assert fill * l.price <= fill * p;
    assert p * (acc.size + fill) == p * acc.size + p * fill;
  }

  lemma {:induction false} WalkCostAtLeast(levels: seq<Level>, want: real, acc: Fill, p: real)
    requires NonNegativeSizes(levels) && PricedAtLeast(levels, p)
    requires acc.cost >= p * acc.size
    ensures Walk(levels, want, acc).cost >= p * Walk(levels, want, acc).size
  {
    if |levels| > 0 && acc.size < want {
      StepCostAtLeast(acc, levels[0], want, p);
      WalkCostAtLeast(levels[1..], want, Step(acc, levels[0], want), p);
    }
  }

  lemma {:induction false} WalkCostAtMost(levels: seq<Level>, want: real, acc: Fill, p: real)
    requires NonNegativeSizes(levels) && PricedAtMost(levels, p)
    requires acc.cost <= p * acc.size
    ensures Walk(levels, want, acc).cost <= p * Walk(levels, want, acc).size
  {
    if |levels| > 0 && acc.size < want {
      StepCostAtMost(acc, levels[0], want, p);
      WalkCostAtMost(levels[1..], want, Step(acc, levels[0], want), p);
    }
  }

  // ---------------------------------------------------------------------------
  // Recommended size
  // ---------------------------------------------------------------------------

  predicate InBand(l: Level, best: real, deviation: real)
  {
    Abs(l.price - best) <= deviation
  }

  /** The number of leading levels priced within `deviation` of `best`. */
  function BandPrefix(levels: seq<Level>, best: real, deviation: real): (k: nat)
    ensures k <= |levels|
    ensures forall i :: 0 <= i < k ==> InBand(levels[i], best, deviation)
    ensures k < |levels| ==> !InBand(levels[k], best, deviation)
  {
    if |levels| == 0 || !InBand(levels[0], best, deviation) then 0
    else 1 + BandPrefix(levels[1..], best, deviation)
  }

  /** The size loop of `_calculate_recommended_size`, stopping at the first
      level outside the band. */
  function BandDepth(levels: seq<Level>, best: real, deviation: real): (d: real)
    ensures d == Depth(levels[..BandPrefix(levels, best, deviation)])
  {
    if |levels| == 0 || !InBand(levels[0], best, deviation) then 0.0
    else
      var rest := BandDepth(levels[1..], best, deviation);
      var k := BandPrefix(levels[1..], best, deviation);
      assert levels[..k + 1][1..] == levels[1..][..k];
      levels[0].size + rest
  }

  /** The price band of `_calculate_recommended_size`: `maxSlippage` percent of the best price. */
  function Deviation(best: real, maxSlippage: real): real
  {
    best * (maxSlippage / 100.0)
  }

  /** `_calculate_recommended_size`: the depth of the leading levels within
      `maxSlippage` percent of the best price. */
  function RecommendedSize(levels: seq<Level>, maxSlippage: real): (d: real)
    ensures |levels| == 0 ==> d == 0.0
    ensures |levels| > 0 ==>
              d == Depth(levels[..BandPrefix(levels, levels[0].price, Deviation(levels[0].price, maxSlippage))])
    ensures NonNegativeSizes(levels) ==> 0.0 <= d <= Depth(levels)
  {
    if |levels| == 0 then 0.0
    else
      assert NonNegativeSizes(levels) ==> 0.0 <= BandDepth(levels, levels[0].price, Deviation(levels[0].price, maxSlippage)) <= Depth(levels) by {
        if NonNegativeSizes(levels) {
          DepthPrefix(levels, BandPrefix(levels, levels[0].price, Deviation(levels[0].price, maxSlippage)));
        }
      }
      BandDepth(levels, levels[0].price, Deviation(levels[0].price, maxSlippage))
  }

  // ---------------------------------------------------------------------------
  // Split plans
  // ---------------------------------------------------------------------------

  datatype OrderType = Market | Limit

  datatype SplitOrder = SplitOrder(size: real, orderType: OrderType, delayMs: int, priceOffset: real)

  function Sizes(orders: seq<SplitOrder>): (s: seq<real>)
    ensures |s| == |orders| && forall i :: 0 <= i < |orders| ==> s[i] == orders[i].size
  {
    seq(|orders|, i requires 0 <= i < |orders| => orders[i].size)
  }

  lemma SizesAppend(a: seq<SplitOrder>, o: SplitOrder)
    ensures Sum(Sizes(a + [o])) == Sum(Sizes(a)) + o.size
  {
    assert Sizes(a + [o]) == Sizes(a) + [o.size];
    SumAppend(Sizes(a), [o.size]);
    SumSingleton(o.size);
  }

  /** `n` copies of `c` add up to `n * c`. */
  lemma {:induction false} SumConstant(s: seq<real>, c: real)
    requires forall i :: 0 <= i < |s| ==> s[i] == c
    ensures Sum(s) == |s| as real * c
  {
    if |s| > 0 {
      SumConstant(s[1..], c);
    }
  }

  /** A plan's slices are released `stepMs` apart starting at 0, and all but
      the first are limit orders. */
  predicate Staggered(orders: seq<SplitOrder>, stepMs: int)
  {
    forall k :: 0 <= k < |orders| ==> orders[k].delayMs == k * stepMs && (k > 0 ==> orders[k].orderType == Limit)
  }

  /** A plan that opens with a market order. */
  predicate MarketFirst(orders: seq<SplitOrder>)
  {
    |orders| > 0 ==> orders[0].orderType == Market
  }

  /** `_generate_split_orders`: one market order when the slippage is within
      the limit, else `ceil(slippage / limit)` equal slices. */
  function SplitPlan(totalSize: real, currentSlippage: real, maxSlippage: real): (r: seq<SplitOrder>)
    requires maxSlippage > 0.0
    ensures currentSlippage < maxSlippage ==> r == [SplitOrder(totalSize, Market, 0, 0.0)]
    ensures currentSlippage >= maxSlippage ==>
              |r| == Ceil(currentSlippage / maxSlippage) &&
              forall k :: 0 <= k < |r| ==> r[k].size == r[0].size && r[k].priceOffset == k as real * 0.001
    ensures |r| >= 1 && Staggered(r, 1000) && MarketFirst(r)
    ensures Sum(Sizes(r)) == totalSize
  {
    if currentSlippage < maxSlippage then
      var r := [SplitOrder(totalSize, Market, 0, 0.0)];
      assert Sizes(r) == [totalSize];
      SumSingleton(totalSize);
      r
    else
      var n := Ceil(currentSlippage / maxSlippage);
      assert n >= 1;
      var slice := totalSize / n as real;
      var r := seq(n, i requires 0 <= i < n =>
        SplitOrder(slice, if i > 0 then Limit else Market, i * 1000, i as real * 0.001));
      SumConstant(Sizes(r), slice);
      r
  }

  // ---------------------------------------------------------------------------
  // Market impact
  // ---------------------------------------------------------------------------

  datatype SlippageEstimate = SlippageEstimate(
    avgPrice: real,
    totalSlippage: real,
    slippagePercent: real,
    effectiveProfit: real,
    recommendedSize: real,
    splitOrders: seq<SplitOrder>)

  const ZeroEstimate := SlippageEstimate(0.0, 0.0, 0.0, 0.0, 0.0, [])

  /** The assumed 2% edge less the slippage, never below 0. */
  const BaseProfitPercent := 2.0

  /** The estimate of an order that filled `fill` on `levels` (best price first). */
  function Estimate(levels: seq<Level>, fill: Fill, side: TradeSide, orderSize: real, maxSlippage: real): (e: SlippageEstimate)
    requires |levels| > 0 && fill.size != 0.0 && levels[0].price != 0.0 && maxSlippage > 0.0
    ensures e.avgPrice * fill.size == fill.cost
    ensures e.totalSlippage == (if side == Buy then e.avgPrice - levels[0].price else levels[0].price - e.avgPrice)
    ensures e.slippagePercent * levels[0].price == e.totalSlippage * 100.0
    ensures e.effectiveProfit == Max(0.0, BaseProfitPercent - e.slippagePercent)
    ensures e.recommendedSize == RecommendedSize(levels, maxSlippage)
    ensures e.splitOrders == SplitPlan(orderSize, e.slippagePercent, maxSlippage)
  {
    var best := levels[0].price;
    var avg := fill.cost / fill.size;
    var slip := if side == Buy then avg - best else best - avg;
    var pct := slip / best * 100.0;
    SlippageEstimate(avg, slip, pct, Max(0.0, BaseProfitPercent - pct),
      RecommendedSize(levels, maxSlippage), SplitPlan(orderSize, pct, maxSlippage))
  }

  /** `calculate_market_impact`. An empty side, or a walk that fills nothing,
      gives the all-zero estimate. A zero best price makes the source divide by
      zero and raise, which is `None` here. */
  function MarketImpact(orderSize: real, book: Book, side: TradeSide, maxSlippage: real): (r: Option<SlippageEstimate>)
    requires maxSlippage > 0.0
    ensures var levels := Walked(book, side);
      (|levels| == 0 || Filled(levels, orderSize).size == 0.0 ==> r == Some(ZeroEstimate))
      && (r.None? <==> |levels| > 0 && Filled(levels, orderSize).size != 0.0 && levels[0].price == 0.0)
    ensures var levels := Walked(book, side);
      r.Some? && |levels| > 0 && Filled(levels, orderSize).size != 0.0 ==>
        var fill := Filled(levels, orderSize);
        var best := levels[0].price;
        && r.value.avgPrice * fill.size == fill.cost
        && r.value.totalSlippage == (if side == Buy then r.value.avgPrice - best else best - r.value.avgPrice)
        && r.value.slippagePercent * best == r.value.totalSlippage * 100.0
        && r.value.effectiveProfit == Max(0.0, BaseProfitPercent - r.value.slippagePercent)
        && r.value.recommendedSize == RecommendedSize(levels, maxSlippage)
        && r.value.splitOrders == SplitPlan(orderSize, r.value.slippagePercent, maxSlippage)
  {
    var levels := Walked(book, side);
    if |levels| == 0 then Some(ZeroEstimate)
    else
      var fill := Filled(levels, orderSize);
      if fill.size == 0.0 then Some(ZeroEstimate)
      else if levels[0].price == 0.0 then None
      else Some(Estimate(levels, fill, side, orderSize, maxSlippage))
  }

  /** Dividing a cost bounded by `p * size` by a positive size. */
  lemma AverageBounds(size: real, cost: real, p: real)
    requires size > 0.0
    ensures cost >= p * size ==> cost / size >= p
    ensures cost <= p * size ==> cost / size <= p
  {
    var avg := cost / size;
    assert avg * size == cost;
    if avg < p {
      assert avg * size < p * size;
    }
    if avg > p {
      assert avg * size > p * size;
    }
  }

  /** On a book whose walked side is quoted away from its best price, a walk
      never fills better than the best price: slippage is never negative. */
  lemma MarketImpactNonNegative(orderSize: real, book: Book, side: TradeSide, maxSlippage: real)
    requires maxSlippage > 0.0
    requires var levels := Walked(book, side);
      |levels| > 0 && NonNegativeSizes(levels) && orderSize >= 0.0 && levels[0].price > 0.0 &&
      (if side == Buy then PricedAtLeast(levels, levels[0].price) else PricedAtMost(levels, levels[0].price))
    ensures MarketImpact(orderSize, book, side, maxSlippage).Some?
    ensures MarketImpact(orderSize, book, side, maxSlippage).value.totalSlippage >= 0.0
    ensures MarketImpact(orderSize, book, side, maxSlippage).value.slippagePercent >= 0.0
  {
    var levels := Walked(book, side);
    var best := levels[0].price;
    var fill := Filled(levels, orderSize);
    if fill.size != 0.0 {
      assert fill.size > 0.0;
      if side == Buy {
        WalkCostAtLeast(levels, orderSize, Fill(0.0, 0.0), best);
      } else {
        WalkCostAtMost(levels, orderSize, Fill(0.0, 0.0), best);
      }
      AverageBounds(fill.size, fill.cost, best);
      var avg := fill.cost / fill.size;
      var slip := if side == Buy then avg - best else best - avg;
      assert slip >= 0.0;
      assert slip / best * 100.0 >= 0.0;
    }
  }

  // ---------------------------------------------------------------------------
  // Liquidity-driven split plan
  // ---------------------------------------------------------------------------

  /** One analysed level: its price, size and relative distance from its side's best price. */
  datatype LiquidityLevel = LiquidityLevel(price: real, availableSize: real, priceOffset: real, depth: nat)

  /** At most ten levels of a side are analysed. */
  function TopCount(n: nat): nat
  {
    if n < 10 then n else 10
  }

  /** The first ten levels of one side with their offsets from that side's best price. */
  function SideDepth(levels: seq<Level>, best: real, i: nat): (r: seq<LiquidityLevel>)
    requires best != 0.0 && i <= TopCount(|levels|)
    ensures |r| == TopCount(|levels|) - i
    ensures forall k :: 0 <= k < |r| ==> r[k].depth == i + k && r[k].price == levels[i + k].price
    ensures best > 0.0 ==> forall k :: 0 <= k < |r| ==> r[k].priceOffset >= 0.0
    decreases |levels| - i
  {
    if i == TopCount(|levels|) then []
    else
      var l := levels[i];
      [LiquidityLevel(l.price, l.size, Abs(l.price - best) / best, i)] + SideDepth(levels, best, i + 1)
  }

  /** The analysed levels before sorting: bids, then asks. */
  function AnalysedLevels(book: Book): (r: seq<LiquidityLevel>)
    requires |book.bids| == 0 || book.bids[0].price != 0.0
    requires |book.asks| == 0 || book.asks[0].price != 0.0
    ensures |r| == TopCount(|book.bids|) + TopCount(|book.asks|)
    ensures (|book.bids| == 0 || book.bids[0].price > 0.0) && (|book.asks| == 0 || book.asks[0].price > 0.0) ==>
              forall k :: 0 <= k < |r| ==> r[k].priceOffset >= 0.0
  {
    var bids := if |book.bids| == 0 then [] else SideDepth(book.bids, book.bids[0].price, 0);
    var asks := if |book.asks| == 0 then [] else SideDepth(book.asks, book.asks[0].price, 0);
    bids + asks
  }

  function OffsetKey(l: LiquidityLevel): real
  {
    -l.priceOffset
  }

  predicate NearestFirst(levels: seq<LiquidityLevel>)
  {
    forall i, j :: 0 <= i < j < |levels| ==> levels[i].priceOffset <= levels[j].priceOffset
  }

  /** `_analyze_liquidity_depth`: bids then asks, up to ten levels each,
      sorted by offset, nearest first. A side whose best price is 0 makes the
      source divide by zero; that is `None`. */
  function LiquidityDepth(book: Book): (r: Option<seq<LiquidityLevel>>)
    ensures r.None? <==> (|book.bids| > 0 && book.bids[0].price == 0.0) || (|book.asks| > 0 && book.asks[0].price == 0.0)
    ensures r.Some? ==> multiset(r.value) == multiset(AnalysedLevels(book)) && NearestFirst(r.value)
  {
    if (|book.bids| > 0 && book.bids[0].price == 0.0) || (|book.asks| > 0 && book.asks[0].price == 0.0) then None
    else
      var sorted := SortDesc(AnalysedLevels(book), OffsetKey);
      assert NearestFirst(sorted) by {
        forall i, j | 0 <= i < j < |sorted|
          ensures sorted[i].priceOffset <= sorted[j].priceOffset
        {
          assert OffsetKey(sorted[i]) >= OffsetKey(sorted[j]);
        }
      }
      Some(sorted)
  }

  /** The state of `_optimize_order_splits`' loop: slices so far and the size still to place. */
  datatype SplitState = SplitState(orders: seq<SplitOrder>, remaining: real)

  /** A slice drawn from level `l`: at most 30% of its size, at its offset. */
  predicate DrawnFrom(o: SplitOrder, l: LiquidityLevel)
  {
    o.size <= l.availableSize * 0.3 && o.priceOffset == l.priceOffset
  }

  /** One level's turn: a slice of `min(remaining, 30% of the level)` is placed
      if it reaches `minOrder`. */
  function Place(st: SplitState, l: LiquidityLevel, minOrder: real): (r: SplitState)
    requires Staggered(st.orders, 500) && MarketFirst(st.orders)
    ensures Staggered(r.orders, 500) && MarketFirst(r.orders)
    ensures st.orders <= r.orders && |r.orders| <= |st.orders| + 1
    ensures Sum(Sizes(r.orders)) + r.remaining == Sum(Sizes(st.orders)) + st.remaining
    ensures minOrder >= 0.0 ==> r.remaining <= st.remaining
    ensures st.remaining >= 0.0 && minOrder >= 0.0 ==> r.remaining >= 0.0
    ensures |r.orders| > |st.orders| ==> r.orders[|st.orders|].size >= minOrder && DrawnFrom(r.orders[|st.orders|], l)
  {
    var slice := Min(st.remaining, l.availableSize * 0.3);
    if slice >= minOrder then
      var o := SplitOrder(slice, if |st.orders| > 0 then Limit else Market, |st.orders| * 500, l.priceOffset);
      SizesAppend(st.orders, o);
      SplitState(st.orders + [o], st.remaining - slice)
    else st
  }

  /** The level loop of `_optimize_order_splits`, which ends once nothing remains. */
  function SplitAcross(levels: seq<LiquidityLevel>, st: SplitState, minOrder: real): (r: SplitState)
    requires Staggered(st.orders, 500) && MarketFirst(st.orders)
    ensures Staggered(r.orders, 500) && MarketFirst(r.orders)
    ensures st.orders <= r.orders
    ensures Sum(Sizes(r.orders)) + r.remaining == Sum(Sizes(st.orders)) + st.remaining
    ensures minOrder >= 0.0 ==> r.remaining <= st.remaining
    ensures st.remaining >= 0.0 && minOrder >= 0.0 ==> r.remaining >= 0.0
    ensures forall k :: |st.orders| <= k < |r.orders| ==>
              r.orders[k].size >= minOrder && exists i :: 0 <= i < |levels| && DrawnFrom(r.orders[k], levels[i])
  {
    if |levels| == 0 || st.remaining <= 0.0 then st
    else
      var next := Place(st, levels[0], minOrder);
      var r := SplitAcross(levels[1..], next, minOrder);
      assert forall k :: |st.orders| <= k < |r.orders| ==> exists i :: 0 <= i < |levels| && DrawnFrom(r.orders[k], levels[i]) by {
        forall k | |st.orders| <= k < |r.orders|
          ensures exists i :: 0 <= i < |levels| && DrawnFrom(r.orders[k], levels[i])
        {
          if k < |next.orders| {
            assert r.orders[k] == next.orders[k];
            assert DrawnFrom(r.orders[k], levels[0]);
          } else {
            var i :| 0 <= i < |levels[1..]| && DrawnFrom(r.orders[k], levels[1..][i]);
            assert levels[1..][i] == levels[i + 1];
          }
        }
      }
      assert forall k :: |st.orders| <= k < |next.orders| ==> r.orders[k] == next.orders[k];
      r
  }

  /** The slices of `_optimize_order_splits` for a non-empty level list: the
      level slices, then one limit order for the rest when the rest exceeds
      `minOrder`, so that at most `minOrder` of the total is left unplaced. */
  function PlanSplits(levels: seq<LiquidityLevel>, totalSize: real, minOrder: real): (r: seq<SplitOrder>)
    ensures Staggered(r, 500) && (|r| > 1 ==> MarketFirst(r))
    ensures forall k :: 0 <= k < |r| ==> r[k].size >= minOrder
    ensures totalSize >= 0.0 && minOrder >= 0.0 ==> totalSize - minOrder <= Sum(Sizes(r)) <= totalSize
  {
    assert Sizes([]) == [];
    var st := SplitAcross(levels, SplitState([], totalSize), minOrder);
    if st.remaining > minOrder then
      var o := SplitOrder(st.remaining, Limit, |st.orders| * 500, 0.002);
      SizesAppend(st.orders, o);
      var r := st.orders + [o];
      assert |r| > 1 ==> r[0] == st.orders[0];
      assert Staggered(r, 500) by {
        forall k | 0 <= k < |r|
          ensures r[k].delayMs == k * 500 && (k > 0 ==> r[k].orderType == Limit)
        {
          if k < |st.orders| {
            assert r[k] == st.orders[k];
          }
        }
      }
      r
    else st.orders
  }

  /** `_optimize_order_splits`. No analysable level means the source calls a
      method it never defines, and a zero best price makes it divide by zero:
      both are `None`. */
  function OptimizeOrderSplits(totalSize: real, book: Book, minOrder: real): (r: Option<seq<SplitOrder>>)
    ensures r.None? <==> LiquidityDepth(book).None? || LiquidityDepth(book).value == []
    ensures r.Some? ==> Staggered(r.value, 500) && (|r.value| > 1 ==> MarketFirst(r.value)) && forall k :: 0 <= k < |r.value| ==> r.value[k].size >= minOrder
    ensures r.Some? && totalSize >= 0.0 && minOrder >= 0.0 ==> totalSize - minOrder <= Sum(Sizes(r.value)) <= totalSize
  {
    match LiquidityDepth(book)
    case None => None
    case Some(levels) => if |levels| == 0 then None else Some(PlanSplits(levels, totalSize, minOrder))
  }

  // ---------------------------------------------------------------------------
  // Executor helpers
  // ---------------------------------------------------------------------------

  function Take(levels: seq<Level>, n: nat): seq<Level>
  {
    if |levels| <= n then levels else levels[..n]
  }

  /** `_get_available_liquidity`: the size of the top five levels of each side. */
  function AvailableLiquidity(book: Book): (a: real)
    ensures NonNegativeSizes(book.bids) && NonNegativeSizes(book.asks) ==>
              0.0 <= a <= Depth(book.bids) + Depth(book.asks)
  {
    var bids, asks := Take(book.bids, 5), Take(book.asks, 5);
    assert NonNegativeSizes(book.bids) && NonNegativeSizes(book.asks) ==>
             0.0 <= Depth(bids) + Depth(asks) <= Depth(book.bids) + Depth(book.asks) by {
      if NonNegativeSizes(book.bids) && NonNegativeSizes(book.asks) {
        DepthPrefix(book.bids, |bids|);
        DepthPrefix(book.asks, |asks|);
        assert book.bids[..|bids|] == bids && book.asks[..|asks|] == asks;
      }
    }
    Depth(bids) + Depth(asks)
  }

  /** `_adjust_order_size`: the planned slice cut to what is still wanted and to
      half the visible liquidity, then forced into `[minOrder, maxOrder]`. */
  function AdjustOrderSize(planned: real, book: Book, alreadyFilled: real, totalTarget: real, minOrder: real, maxOrder: real): (r: real)
    ensures minOrder <= maxOrder ==> minOrder <= r <= maxOrder
    ensures var natural := Min(Min(planned, totalTarget - alreadyFilled), AvailableLiquidity(book) * 0.5);
      && (minOrder <= natural <= maxOrder ==> r == natural)
      && (natural < minOrder ==> r == minOrder)
      && (minOrder <= maxOrder && natural > maxOrder ==> r == maxOrder)
      && (maxOrder < minOrder ==> r == minOrder)
    ensures r >= minOrder
  {
    var natural := Min(Min(planned, totalTarget - alreadyFilled), AvailableLiquidity(book) * 0.5);
    Max(minOrder, Min(natural, maxOrder))
  }

  /** A larger planned slice never gives a smaller adjusted order. */
  lemma AdjustOrderSizeMonotone(p1: real, p2: real, book: Book, alreadyFilled: real, totalTarget: real, minOrder: real, maxOrder: real)
    requires p1 <= p2
    ensures AdjustOrderSize(p1, book, alreadyFilled, totalTarget, minOrder, maxOrder)
            <= AdjustOrderSize(p2, book, alreadyFilled, totalTarget, minOrder, maxOrder)
  {
  }

  /** `_calculate_limit_price`: a buy bids `offset` below the best ask, a sale
      asks `offset` above the best bid; an empty side raises, which is `None`. */
  function LimitPrice(book: Book, side: TradeSide, offset: real): (r: Option<real>)
    ensures r.None? <==> |Walked(book, side)| == 0
    ensures r.Some? && side == Buy ==> r.value == book.asks[0].price * (1.0 - offset)
    ensures r.Some? && side == Sell ==> r.value == book.bids[0].price * (1.0 + offset)
    ensures r.Some? && side == Buy && book.asks[0].price >= 0.0 && offset >= 0.0 ==> r.value <= book.asks[0].price
    ensures r.Some? && side == Sell && book.bids[0].price >= 0.0 && offset >= 0.0 ==> r.value >= book.bids[0].price
  {
    match side
    case Buy => if |book.asks| == 0 then None else Some(book.asks[0].price * (1.0 - offset))
    case Sell => if |book.bids| == 0 then None else Some(book.bids[0].price * (1.0 + offset))
  }

  // ---------------------------------------------------------------------------
  // Adaptive position sizing
  // ---------------------------------------------------------------------------

  const TestMultipliers: seq<real> := [0.1, 0.25, 0.5, 0.75, 1.0, 1.5, 2.0]

  function TestSizes(base: real): (s: seq<real>)
    ensures |s| == 7 && forall k :: 0 <= k < 7 ==> s[k] == base * TestMultipliers[k]
  {
    seq(7, k requires 0 <= k < 7 => base * TestMultipliers[k])
  }

  datatype SizerConfig = SizerConfig(basePositionSize: real, minProfitAfterSlippage: real, maxSlippage: real)

  const DefaultSizer := SizerConfig(10000.0, 0.5, 1.0)

  /** What one trial size would earn: both books bought through, net of the
      two slippages. `None` when either impact estimate raises. */
  datatype Trial = Trial(size: real, slippage1: real, slippage2: real, netProfit: real, absoluteProfit: real)

  function TrialAt(size: real, profit: real, book1: Book, book2: Book, cfg: SizerConfig): (r: Option<Trial>)
    requires cfg.maxSlippage > 0.0
    ensures r.Some? ==> r.value.size == size
    ensures r.Some? ==> r.value.netProfit == profit - (r.value.slippage1 + r.value.slippage2)
    ensures r.Some? ==> r.value.absoluteProfit == size * (r.value.netProfit / 100.0)
  {
    match (MarketImpact(size, book1, Buy, cfg.maxSlippage), MarketImpact(size, book2, Buy, cfg.maxSlippage))
    case (Some(i1), Some(i2)) =>
      var net := profit - (i1.slippagePercent + i2.slippagePercent);
      Some(Trial(size, i1.slippagePercent, i2.slippagePercent, net, size * (net / 100.0)))
    case _ => None
  }

  datatype OptimalPosition = OptimalPosition(
    size: real,
    expectedProfit: real,
    market1Slippage: real,
    market2Slippage: real,
    netProfit: real,
    confidence: real)

  const NoPosition := OptimalPosition(0.0, 0.0, 0.0, 0.0, 0.0, 0.0)

  /** `_calculate_confidence` of the sizer. */
  function SizerConfidence(netProfit: real, totalSlippage: real, size: real, base: real): (c: real)
    requires base != 0.0
    ensures 0.0 <= c <= 1.0
    ensures var sizeScore := if 0.5 <= size / base <= 1.5 then 1.0 else 0.7;
            var blend := Min(netProfit / 5.0, 1.0) * 0.5 + Max(0.0, 1.0 - totalSlippage / 2.0) * 0.3 + sizeScore * 0.2;
            && c == Clamp(blend, 0.0, 1.0)
            && (netProfit >= 0.0 && totalSlippage >= 0.0 ==> c == blend)
  {
    var profitScore := Min(netProfit / 5.0, 1.0);
    var slippageScore := Max(0.0, 1.0 - totalSlippage / 2.0);
    var ratio := size / base;
    var sizeScore := if 0.5 <= ratio <= 1.5 then 1.0 else 0.7;
    Min(Max(profitScore * 0.5 + slippageScore * 0.3 + sizeScore * 0.2, 0.0), 1.0)
  }

  /** More net profit or less slippage at the same size never lowers the sizer's confidence. */
  lemma SizerConfidenceMonotone(n1: real, n2: real, s1: real, s2: real, size: real, base: real)
    requires base != 0.0 && n1 <= n2 && s2 <= s1
    ensures SizerConfidence(n1, s1, size, base) <= SizerConfidence(n2, s2, size, base)
  {
  }

  /** A position the sizer may report: nothing, or a trial size that clears the
      minimum net profit with a positive expected profit. */
  predicate Admissible(o: OptimalPosition, cfg: SizerConfig)
  {
    o == NoPosition ||
    (o.size != 0.0 && o.netProfit >= cfg.minProfitAfterSlippage && o.expectedProfit > 0.0 && 0.0 <= o.confidence <= 1.0)
  }

  /** The position reported for a trial that becomes the new best. */
  function PositionOf(t: Trial, cfg: SizerConfig): (o: OptimalPosition)
    requires cfg.basePositionSize != 0.0
    ensures o.size == t.size && o.expectedProfit == t.absoluteProfit && o.netProfit == t.netProfit
    ensures o.market1Slippage == t.slippage1 && o.market2Slippage == t.slippage2
    ensures o.confidence == SizerConfidence(t.netProfit, t.slippage1 + t.slippage2, t.size, cfg.basePositionSize)
  {
    OptimalPosition(t.size, t.absoluteProfit, t.slippage1, t.slippage2, t.netProfit,
      SizerConfidence(t.netProfit, t.slippage1 + t.slippage2, t.size, cfg.basePositionSize))
  }

  /** The trial at `size` can be computed and clears the minimum net profit. */
  predicate Clears(size: real, profit: real, book1: Book, book2: Book, cfg: SizerConfig)
    requires cfg.maxSlippage > 0.0
  {
    TrialAt(size, profit, book1, book2, cfg).Some? &&
    TrialAt(size, profit, book1, book2, cfg).value.netProfit >= cfg.minProfitAfterSlippage
  }

  /** `o` is the position of trial `k`, which clears the minimum, and every
      earlier clearing trial earns strictly less: the first of the best. */
  predicate PickedAt(sizes: seq<real>, k: int, profit: real, book1: Book, book2: Book, cfg: SizerConfig, o: OptimalPosition)
    requires cfg.maxSlippage > 0.0 && cfg.basePositionSize != 0.0
  {
    && 0 <= k < |sizes|
    && Clears(sizes[k], profit, book1, book2, cfg)
    && o == PositionOf(TrialAt(sizes[k], profit, book1, book2, cfg).value, cfg)
    && forall j :: 0 <= j < k && Clears(sizes[j], profit, book1, book2, cfg) ==>
         TrialAt(sizes[j], profit, book1, book2, cfg).value.absoluteProfit < o.expectedProfit
  }

  /** A pick in the tail is a pick in the whole list when the head does not
      earn as much. */
  lemma PickedShift(sizes: seq<real>, k: int, profit: real, book1: Book, book2: Book, cfg: SizerConfig, o: OptimalPosition)
    requires cfg.maxSlippage > 0.0 && cfg.basePositionSize != 0.0 && |sizes| > 0
    requires PickedAt(sizes[1..], k, profit, book1, book2, cfg, o)
    requires Clears(sizes[0], profit, book1, book2, cfg) ==>
               TrialAt(sizes[0], profit, book1, book2, cfg).value.absoluteProfit < o.expectedProfit
    ensures PickedAt(sizes, k + 1, profit, book1, book2, cfg, o)
  {
    assert forall j :: 1 <= j < |sizes| ==> sizes[j] == sizes[1..][j - 1];
  }

  /** No trial in `sizes` that clears the minimum earns more than `bound`. */
  predicate Bounded(sizes: seq<real>, profit: real, book1: Book, book2: Book, cfg: SizerConfig, bound: real)
    requires cfg.maxSlippage > 0.0
  {
    forall k :: 0 <= k < |sizes| && Clears(sizes[k], profit, book1, book2, cfg) ==>
      TrialAt(sizes[k], profit, book1, book2, cfg).value.absoluteProfit <= bound
  }

  /** A bound holds over a list exactly when it holds for the head and over the tail. */
  lemma BoundedCons(sizes: seq<real>, profit: real, book1: Book, book2: Book, cfg: SizerConfig, bound: real)
    requires cfg.maxSlippage > 0.0 && |sizes| > 0
    ensures Bounded(sizes, profit, book1, book2, cfg, bound) <==>
              (Clears(sizes[0], profit, book1, book2, cfg) ==>
                 TrialAt(sizes[0], profit, book1, book2, cfg).value.absoluteProfit <= bound) &&
              Bounded(sizes[1..], profit, book1, book2, cfg, bound)
  {
    assert forall j :: 1 <= j < |sizes| ==> sizes[j] == sizes[1..][j - 1];
  }

  /** One step of the scan: what the tail picks after the head's trial was
      weighed against `best` is a pick of the whole list. */
  lemma PickedStep(sizes: seq<real>, profit: real, book1: Book, book2: Book, cfg: SizerConfig, best: OptimalPosition, o: OptimalPosition)
    requires cfg.maxSlippage > 0.0 && cfg.basePositionSize != 0.0 && |sizes| > 0
    requires TrialAt(sizes[0], profit, book1, book2, cfg).Some?
    requires var t := TrialAt(sizes[0], profit, book1, book2, cfg).value;
             var next := if t.netProfit >= cfg.minProfitAfterSlippage && t.absoluteProfit > best.expectedProfit
                         then PositionOf(t, cfg) else best;
             o == next || (next.expectedProfit < o.expectedProfit && exists k :: PickedAt(sizes[1..], k, profit, book1, book2, cfg, o))
    requires o != best
    ensures exists k :: PickedAt(sizes, k, profit, book1, book2, cfg, o)
  {
    var t := TrialAt(sizes[0], profit, book1, book2, cfg).value;
    var beats := t.netProfit >= cfg.minProfitAfterSlippage && t.absoluteProfit > best.expectedProfit;
    var next := if beats then PositionOf(t, cfg) else best;
    if o == next {
      assert PickedAt(sizes, 0, profit, book1, book2, cfg, o);
    } else {
      var k :| PickedAt(sizes[1..], k, profit, book1, book2, cfg, o);
      PickedShift(sizes, k, profit, book1, book2, cfg, o);
    }
  }

  function SizerScan(sizes: seq<real>, profit: real, book1: Book, book2: Book, cfg: SizerConfig, best: OptimalPosition)
    : (r: Option<OptimalPosition>)
    requires cfg.maxSlippage > 0.0 && cfg.basePositionSize != 0.0
    requires Admissible(best, cfg)
    ensures r.Some? ==> Admissible(r.value, cfg)
    ensures r.Some? ==> r.value == best || r.value.size in sizes
    ensures r.Some? ==> r.value.expectedProfit >= best.expectedProfit
    ensures r.Some? ==> Bounded(sizes, profit, book1, book2, cfg, r.value.expectedProfit)
    ensures (forall k :: 0 <= k < |sizes| ==> TrialAt(sizes[k], profit, book1, book2, cfg).Some?) ==> r.Some?
    ensures r.Some? ==>
              r.value == best || (best.expectedProfit < r.value.expectedProfit &&
               exists k :: PickedAt(sizes, k, profit, book1, book2, cfg, r.value))
    ensures r.Some? && Bounded(sizes, profit, book1, book2, cfg, best.expectedProfit) ==> r.value == best
  {
    if |sizes| == 0 then Some(best)
    else
      match TrialAt(sizes[0], profit, book1, book2, cfg)
      case None => None
      case Some(t) =>
        var beats := t.netProfit >= cfg.minProfitAfterSlippage && t.absoluteProfit > best.expectedProfit;
        var next := if beats then PositionOf(t, cfg) else best;
        assert t.absoluteProfit > best.expectedProfit && best.expectedProfit >= 0.0 ==> t.size != 0.0;
        var r := SizerScan(sizes[1..], profit, book1, book2, cfg, next);
        assert forall k :: 1 <= k < |sizes| ==> sizes[k] == sizes[1..][k - 1];
        assert Clears(sizes[0], profit, book1, book2, cfg) ==> t.absoluteProfit <= next.expectedProfit;
        BoundedCons(sizes, profit, book1, book2, cfg, best.expectedProfit);
        if r.None? then r
        else
          BoundedCons(sizes, profit, book1, book2, cfg, r.value.expectedProfit);
          if r.value != best then
            PickedStep(sizes, profit, book1, book2, cfg, best, r.value);
            r
          else r
  }

  /** `calculate_optimal_position`: among the seven trial sizes that clear the
      minimum net profit, the first with the largest expected profit, or no
      position at all. */
  function OptimalPositionSize(profit: real, book1: Book, book2: Book, cfg: SizerConfig): (r: Option<OptimalPosition>)
    requires cfg.maxSlippage > 0.0
    ensures r.Some? ==> Admissible(r.value, cfg)
    ensures r.Some? ==> r.value.size == 0.0 || r.value.size in TestSizes(cfg.basePositionSize)
    ensures r.Some? ==> forall k :: (0 <= k < 7 &&
              TrialAt(TestSizes(cfg.basePositionSize)[k], profit, book1, book2, cfg).Some? &&
              TrialAt(TestSizes(cfg.basePositionSize)[k], profit, book1, book2, cfg).value.netProfit >= cfg.minProfitAfterSlippage) ==>
              TrialAt(TestSizes(cfg.basePositionSize)[k], profit, book1, book2, cfg).value.absoluteProfit <= r.value.expectedProfit
    ensures (forall k :: 0 <= k < 7 ==> TrialAt(TestSizes(cfg.basePositionSize)[k], profit, book1, book2, cfg).Some?) ==> r.Some?
    ensures r.Some? && r.value != NoPosition ==>
              cfg.basePositionSize != 0.0 && r.value.expectedProfit > 0.0 &&
              exists k :: PickedAt(TestSizes(cfg.basePositionSize), k, profit, book1, book2, cfg, r.value)
    ensures r.Some? && (forall k :: 0 <= k < 7 && Clears(TestSizes(cfg.basePositionSize)[k], profit, book1, book2, cfg) ==>
              TrialAt(TestSizes(cfg.basePositionSize)[k], profit, book1, book2, cfg).value.absoluteProfit <= 0.0) ==>
              r.value == NoPosition
  {
    if cfg.basePositionSize == 0.0 then
      // every trial size is 0 and so earns nothing: the optimum stays empty,
      // unless a trial raises first
      if TrialAt(0.0, profit, book1, book2, cfg).Some? then Some(NoPosition) else None
    else SizerScan(TestSizes(cfg.basePositionSize), profit, book1, book2, cfg, NoPosition)
  }
}
